=== FILE: README.md ===
# libhwp HWP v5 decoding core, modelled in Dafny

This project models the part of libhwp that turns an HWP v5 document into
sections, paragraphs, tables and pages:

- the ordering of the compound file's streams (`get_order`,
  `compare_entries`, the entry loop of `_ghwp_file_v5_make_stream`), and
  which of them are inflated;
- the file-header decode: signature, version bytes and the twelve property
  flags;
- the DocInfo pass: document properties and ID mappings, and the bin-data,
  font-face, character-shape and paragraph-shape tables they size, filled
  record by record;
- the fixed-layout decoders of paragraph headers, character-shape
  references, line segments, range tags, common objects, list headers,
  table and cell attributes, and section, page and column definitions;
- the body-text pass as a fold over `(tag, level, payload)` records with a
  level-indexed status stack, building the tree Section → Paragraph → Table
  → Cell → Paragraph in seq-backed arenas with `nat` links;
- the page-breaking pass, including the split of a paragraph across two
  pages (`ghwp_paragraph_add_link`);
- the page operations and the rule by which `ghwp_page_render` picks the
  text slice of every line it draws.

Every decoder is paired with an encoder, and a round-trip lemma proves that
the decoder reads back exactly the fields the encoder laid out, in order,
consuming exactly the record's bytes. The record-context readers
(`context_read_*`, `context_check_version`) live in a file that is not part
of this model. They are modelled in `Record`:

- a little-endian reader per width;
- a reader that finds too few bytes yields 0 and consumes nothing (a
  choice of this model; see "## Left out");
- the version gate is the lexicographic order of (major, minor, micro,
  extra).

Modules, one file each:

| module | file | contents |
|---|---|---|
| `Wrappers` | wrappers.dfy | `Option`, `Result` |
| `Bytes` | bytes.dfy | byte types, little-endian words, bit fields |
| `Record` | record.dfy | records, versions, typed readers and writers |
| `DocInfo` | docinfo.dfy | the DocInfo record decoders |
| `DocInfoStream` | docinfo_stream.dfy | the DocInfo dispatch loop |
| `Models` | models.dfy | paragraph, table and cell decoders; `add_link` |
| `Section` | section.dfy | section, page and column definitions |
| `BodyText` | body_text.dfy | the body-text state machine |
| `Page` | page.dfy | pages and the line-range rule of rendering |
| `Paging` | paging.dfy | the page-breaking pass |
| `FileHeader` | file_header.dfy | the file-header decode |
| `Streams` | streams.dfy | stream ordering and stream slots |

Where the paragraph text decoder is needed (`ghwp_parse_paragraph_text`,
which is not part of this model), the body-text pass takes it as a
function parameter `text: seq<byte> -> string`. Where the compound-file
reader is needed, the stream opener takes the entry bytes as a function
parameter `read: string -> seq<byte>`.

## Model

| member | source | states |
|---|---|---|
| Record.AtLeastIsRankOrder | src/ghwp-document.c:520-533 | the version gate holds exactly when the stored version, packed major byte first, is numerically at least the gate's, so the gates `>= 5.0.1.7` and `< 5.0.1.7` are complementary |
| Record.AtLeastMonotone | src/ghwp-document.c:347-363 | a version that passes a later gate passes every earlier gate, so the 18-count case of ID_MAPPINGS implies the 16-count case |
| DocInfo.PutDocumentProperty | src/ghwp-document.c:321-341 | the document property is seven u16 fields followed by three u32 fields in declaration order: the decoder reads back every field of an encoded record and consumes exactly 26 bytes |
| DocInfo.IdMappingCount | src/ghwp-document.c:347-363 | ID_MAPPINGS reads 15, 16 or 18 counts, never more than MAX_ID_MAPPINGS; the memo-shape count is read iff the version is at least 5.0.2.1, and the history-user count iff it is at least 5.0.3.2 |
| DocInfo.DecodeIdMappings | src/ghwp-document.c:360-363 | the counts past the version's number keep their previous value, and the record consumes four bytes per count read |
| DocInfo.IdMappingsRoundTrip | src/ghwp-document.c:360-363 | the counts are read back in order, and the entries past them are untouched |
| DocInfo.FontRangesTile | src/ghwp-document.c:368-380 | the font table has the sum of the seven language counts as its size, and the seven language ranges start at 0, follow one another in the order Korean, English, Hanja, Japanese, Others, Symbol, User, and end at the total |
| DocInfo.LanguageOf | src/ghwp-document.c:368-380 | every font index below the total lies in the range of some language |
| DocInfo.FontLanguageUnique | src/ghwp-document.c:368-380 | that language is unique |
| DocInfo.BinDataMasksDisjoint | src/ghwp-document.h:85-103 | the type (bits 0-3), compress (bits 4-7) and access (bits 8-11) fields are disjoint and together make up the low twelve bits of the attribute |
| DocInfo.DecodeBinData | src/ghwp-document.c:399-410 | a LINK item has its two paths and its id stays 0; an item of any other type has no paths; exactly an EMBED item has an extension |
| DocInfo.PutBinData | src/ghwp-document.c:399-410 | an encoded bin-data item of any of these shapes is read back field for field, and the rest of the record is left over |
| DocInfo.DecodeFontFace | src/ghwp-document.c:436-459 | the alternate font, the ten type bytes and the default name are each present exactly when their bit of the attribute byte is set |
| DocInfo.PutFontFace | src/ghwp-document.c:436-459 | an encoded font face is read back field for field: the attribute byte, the name, then the alternate font, the type bytes and the default name, in that order |
| DocInfo.DecodeCharShape | src/ghwp-document.c:475-498 | a character shape holds seven face ids and four groups of seven bytes; `border_fill_id` is zero below version 5.0.2.1 and `midline_color` is zero below 5.0.3.0; the record size is 68 bytes plus the gated fields |
| DocInfo.PutCharShape | src/ghwp-document.c:475-498 | an encoded character shape of the version is read back field for field, and consumes exactly its size |
| DocInfo.DecodeParaShape | src/ghwp-document.c:515-537 | exactly one of `l_spacing_old` (below 5.0.1.7) and `attr2` (from 5.0.1.7) is read, the other stays zero; `attr3` is read only below 5.0.2.5 |
| DocInfo.PutParaShape | src/ghwp-document.c:515-537 | an encoded paragraph shape of the version is read back field for field, and consumes exactly its size |
| DocInfoStream.SetIdMappings | src/ghwp-document.c:343-387 | after ID_MAPPINGS each table has the size its count gives (fonts: the sum of the seven language counts), every entry zero, and the document properties are unchanged |
| DocInfoStream.StoreBinData | src/ghwp-document.c:389-411 | the item decoded from the record goes to slot `idx`; no other slot and no other table changes |
| DocInfoStream.StoreFont | src/ghwp-document.c:413-431 | a font index at or beyond the total font count writes nothing; below it only font slot `idx` changes, to the decoded face |
| DocInfoStream.StoreCharShape | src/ghwp-document.c:462-472 | a char-shape index at or beyond the char-shape count writes nothing; below it only that slot changes |
| DocInfoStream.StoreParaShape | src/ghwp-document.c:501-510 | a para-shape index at or beyond the para-shape count writes nothing; below it only that slot changes |
| DocInfoStream.Step | src/ghwp-file-v5.c:78-103 | one record of the dispatch keeps every table at its counted size, and fails exactly for a BIN_DATA record beyond the bin-data table |
| DocInfoStream.Parse | src/ghwp-file-v5.c:61-106 | after a successful pass every counter equals the number of records of its kind |
| DocInfoStream.CountConcat | src/ghwp-file-v5.c:78-103 | the number of records of a tag is additive over a stream split in two, and a single record counts 1 exactly when it carries the tag, so each counter grows by one per record of its tag |
| DocInfoStream.UnknownTagChangesNothing | src/ghwp-file-v5.c:98-101 | a record of any other tag changes neither the tables nor the counters |
| DocInfoStream.FaceNameGoesToNextSlot | src/ghwp-file-v5.c:89-91 | the k-th FACE_NAME record is decoded into font slot k when k is below the font total and changes nothing otherwise; no other table changes |
| DocInfoStream.BinDataGoesToNextSlot | src/ghwp-file-v5.c:86-88 | the k-th BIN_DATA record is decoded into bin-data slot k; the pass fails once k reaches the table size |
| DocInfoStream.ShapesGoToNextSlot | src/ghwp-file-v5.c:92-97 | the k-th CHAR_SHAPE or PARA_SHAPE record is decoded into slot k of its table when k is below its count, and changes nothing otherwise |
| Models.AttributeBitsDisjoint | src/ghwp-models.h:36-48 | the OBJ_ATTR fields occupy pairwise disjoint bit ranges of a 32-bit word; the LINESEG tag flags (lines 153-161 of the same header) are distinct bits below 32 |
| Models.DecodeParaHeader | src/ghwp-models.c:206-234 | `history_merge` stays zero below version 5.0.3.2, and the header takes 22 bytes plus that gated field |
| Models.PutParaHeader | src/ghwp-models.c:206-234 | an encoded paragraph header is read back field for field, in order, and consumes exactly its size |
| Models.NewParagraph | src/ghwp-models.c:206-234 | a fresh paragraph holds the decoded header, has no arrays, text, table or link, and shows lines 0 to `n_line_segs` |
| Models.ParseCharShapes | src/ghwp-models.c:236-251 | exactly `n_char_shapes` (position, id) pairs are decoded, ahead of the existing entries, and nothing else in the paragraph changes |
| Models.PutCharShapeRefs | src/ghwp-models.c:236-251 | encoded (position, id) pairs are read back in order |
| Models.ParseLineSegs | src/ghwp-models.c:253-275 | exactly `n_line_segs` segments are decoded, ahead of the existing entries, and nothing else in the paragraph changes |
| Models.LineSegsRoundTrip | src/ghwp-models.c:253-275 | segments of nine fields each, once encoded, are read back in order with the rest of the payload left over |
| Models.ParseRangeTagsAsWritten | src/ghwp-models.c:277-293 | the loop bound is `n_char_shapes`: that many range tags are decoded, whatever `n_range_tags` says |
| Models.ParseRangeTags | src/ghwp-models.c:277-293 | with the evidently intended bound, exactly `n_range_tags` range tags are decoded, ahead of the existing ones, and nothing else changes |
| Models.RangeTagsRoundTrip | src/ghwp-models.c:277-293 | the corrected parser reads back the paragraph's encoded range tags |
| Models.RangeTagLoopUsesWrongCount | src/ghwp-models.c:284-292 | for a paragraph with no char shapes and one range tag, the parser as written reads no range tag, while the corrected one reads it |
| Models.AddLink | src/ghwp-models.c:171-198 | both halves copy the header and share the text, table and arrays; they link to each other; the first shows lines [0, line) and the continuation lines [line, n_line_segs) |
| Models.AddLinkPartitions | src/ghwp-models.c:193-197 | for 0 <= line <= n, each line of the whole paragraph is shown by exactly one of the halves |
| Models.SecondSplitRestartsAtZero | src/ghwp-models.c:189-197 | splitting the continuation again resets its first line to 0, so it shows lines it had handed to the first page; only a two-page chain is supported |
| Models.DecodeCommonObject | src/ghwp-models.c:36-64 | the control id is the one already read, and the description holds exactly `n_desc` code units |
| Models.PutCommonObject | src/ghwp-models.c:36-64 | an encoded common object is read back field for field |
| Models.DecodeListHeader | src/ghwp-models.c:66-73 | the list header takes exactly 8 bytes |
| Models.PutListHeader | src/ghwp-models.c:66-73 | an encoded list header is read back |
| Models.DecodeTableAttr | src/ghwp-models.c:323-358 | `row_sizes` has exactly `n_rows` entries; zones are absent below version 5.0.1.0 and otherwise number `valid_zone_info_size` |
| Models.PutTableAttr | src/ghwp-models.c:323-358 | an encoded table attribute of that shape is read back field for field |
| Models.DecodeCellAttr | src/ghwp-models.c:427-452 | the cell attributes take exactly 26 bytes |
| Models.PutCellAttr | src/ghwp-models.c:427-452 | an encoded cell is read back field for field: the cell fields are stored verbatim |
| Models.AddCell | src/ghwp-models.c:383-395 | the cell goes at the end, the earlier cells are unchanged, nothing else in the table changes, and `get_last_cell` returns it |
| Models.CellAddParagraph | src/ghwp-models.c:454-467 | the paragraph goes at the end, the earlier ones are unchanged, and `get_last_paragraph` returns it |
| Section.PutSectionDef | src/ghwp-section.c:46-63 | the attribute, three 16-bit units, a 32-bit unit and six u16 fields are read back in order, 26 bytes |
| Section.DecodeSectionDef | src/ghwp-section.c:46-63 | the section definition consumes exactly 26 bytes |
| Section.PutPageDef | src/ghwp-section.c:65-81 | the paper size, the six margins and the binding margin, then the u32 attribute, are read back in order, 40 bytes |
| Section.DecodePageDef | src/ghwp-section.c:65-81 | the page definition consumes exactly 40 bytes |
| Section.DecodeColumnDef | src/ghwp-section.c:83-113 | `n_cols` is bits 2-9 of the attribute, at most 255; exactly `n_cols` widths are present iff COL_ATTR_SAME_WIDTH is set, otherwise none; the low 16 bits of the attribute are the first word |
| Section.LowBitsOfJoin | src/ghwp-section.c:105-106 | or-ing the second word into bits 16-31 changes neither `n_cols` nor the same-width bit |
| Section.PutColumnDef | src/ghwp-section.c:83-113 | an encoded column definition is read back: attribute, widths, second word, border kind, weight and colour, in that order |
| Section.AddParagraph | src/ghwp-file-v5.c:162-163 | the paragraph goes at the end of the section, the earlier ones are unchanged and nothing else changes |
| BodyText.OnParaHeader | src/ghwp-file-v5.c:158-172 | a new paragraph is decoded; at level 0 it is appended to the current section; below a TABLE slot it is appended to that slot's cell; slot level+1 becomes (PARAGRAPH, paragraph) and every other slot is untouched |
| BodyText.ApplyParaData | src/ghwp-file-v5.c:181-191 | each paragraph-data tag runs its parser on the slot's paragraph, and only the matching field changes; PARA_RANGE_TAG runs the corrected range-tag parser, bounded by `n_range_tags` (see Findings) |
| BodyText.OnParaData | src/ghwp-file-v5.c:174-192 | whatever the slot's state, the data goes to the paragraph the slot holds (the original only warns when the state is not PARAGRAPH); a slot holding no paragraph changes nothing; the status stack never changes, and nothing but that paragraph does |
| BodyText.OnCtrlHeader | src/ghwp-file-v5.c:194-222 | `tbl ` attaches a new table to the slot's paragraph and sets the slot to (CTRL_TABLE, table); `secd` and `cold` decode into the section and leave the slot as it was; any other id sets the slot's state to NORMAL |
| BodyText.OnTable | src/ghwp-file-v5.c:224-229 | the table attributes go to the table in slot level-1, and the slot's state becomes TABLE |
| BodyText.OnListHeader | src/ghwp-file-v5.c:231-251 | in TABLE state exactly one new cell is appended to the table of slot level-1 and becomes the slot's container; in any other state nothing changes |
| BodyText.OnPageDef | src/ghwp-file-v5.c:253-255 | the page definition is decoded into the current section only |
| BodyText.Step | src/ghwp-file-v5.c:150-262 | a record only writes the slots of its level and the next one, never touches an earlier section, never shrinks an arena (entries may be rewritten in place, new ones only appended), and a record of an unhandled tag changes nothing |
| BodyText.ParseBodyText | src/ghwp-file-v5.c:128-148 | one section per section stream |
| BodyText.SectionsInStreamOrder | src/ghwp-file-v5.c:128-148 | section i is the one stream i built: the later streams leave it as it was |
| BodyText.ParaHeaderKeepsValid | src/ghwp-file-v5.c:158-172 | a paragraph header keeps every index of the tree and of the status stack in bounds |
| BodyText.CtrlHeaderKeepsValid | src/ghwp-file-v5.c:194-222 | so does a control header |
| BodyText.ListHeaderKeepsValid | src/ghwp-file-v5.c:231-251 | so does a list header |
| BodyText.StepKeepsValid | src/ghwp-file-v5.c:150-262 | so does every record |
| BodyText.BodyTextValid | src/ghwp-file-v5.c:118-264 | the parsed body text is a well-formed tree: every paragraph, table and cell reference points into its arena |
| Page.SetSection | src/ghwp-page.c:37-43 | only the page's section reference changes |
| Page.AddParagraph | src/ghwp-page.c:45-51 | the paragraph is appended to the page and nothing else changes; with no page nothing happens |
| Page.TextRange | src/ghwp-page.c:75-82 | both ends of a line's text slice are `gint`: a `text_start` below 2^31 is passed as itself and one of 2^31 or more turns negative; the last line ends at the text length, the others where the next line starts |
| Page.TextRangesChain | src/ghwp-page.c:151-157 | line j's text ends where line j+1's starts, and the last line of the header ends at the end of a text shorter than 2^31 characters |
| Page.DrawsSigned | src/ghwp-page.c:87-88 | with both ends below 2^31 a line is drawn exactly when its start is before its end; a start of 2^31 or more before a next start below 2^31 reads negative and is always drawn |
| Page.DrawnLines | src/ghwp-page.c:87-88 | the lines drawn are exactly those in range whose signed 32-bit text range is not empty or inverted, in increasing order |
| Page.DrawnLinesSplit | src/ghwp-page.c:147-162 | drawing [lo, mid) and then [mid, hi) draws the lines of [lo, hi) |
| Page.RenderedLines | src/ghwp-page.c:141-163 | the lines drawn are exactly those with line_start <= j < line_end whose signed text range is not empty, in increasing order; a paragraph without text, or a page paragraph whose text is exactly "\n\r", draws nothing |
| Page.SplitDrawsSameLines | src/ghwp-page.c:141-163 | the two halves of a split paragraph draw together exactly the lines the whole paragraph draws |
| Paging.AddToCurrent | src/ghwp-file-v5.c:298 | the paragraph is appended to the current page; with no current page nothing changes |
| Paging.OpenPage | src/ghwp-file-v5.c:293-296 | one new page bound to the section is appended and becomes the current one |
| Paging.Split | src/ghwp-file-v5.c:282-291 | `add_link` makes a new paragraph at the end of the arena; the first half goes to the current page, and the headers and line segments of all paragraphs are kept |
| Paging.BreakLines | src/ghwp-file-v5.c:275-297 | one paragraph adds exactly one page per line segment with `v_pos == 0`, each bound to the section; with no such line nothing changes |
| Paging.BreakLinesArena | src/ghwp-file-v5.c:275-291 | the paragraph is cut at every page-starting line but its first: each cut appends one copy of it to the arena, differing only in link and line range; every piece but the last shows lines [0, cut) and links to the next, the last shows [last cut, `n_line_segs`), links back and is the one returned; no other paragraph changes |
| Paging.BreakLinesPages | src/ghwp-file-v5.c:275-297 | one page is opened per page-starting line; each but the last holds exactly the piece cut off at the next page-starting line and the last is left empty; when the first page-starting line is a cut, the first piece joins the page being filled; no other page changes |
| Paging.LayOutPlaces | src/ghwp-file-v5.c:275-298 | after a paragraph, its last piece is the only paragraph of the last page opened, which is now the page being filled; with no page-starting line the paragraph is appended to the page being filled, or dropped when none is open |
| Paging.SectionPass | src/ghwp-file-v5.c:272-299 | a section adds one page per page-starting line of its paragraphs, all bound to that section; afterwards the page being filled is the last one opened, or the one before if none was |
| Paging.SectionPassFills | src/ghwp-file-v5.c:272-299 | a section's pass only appends to the page being filled and opens pages: every other page keeps its paragraphs, every page opened ends up holding at least one paragraph, and every paragraph added that is not a continuation is one of the section's |
| Paging.Sections | src/ghwp-file-v5.c:267-300 | the page count rises by the number of page-starting lines, every page added belongs to one of the sections from k on, and pages stay in section order |
| Paging.SectionsFill | src/ghwp-file-v5.c:266-300 | each section starts with no page open: the pages already made are left as they were, every page added holds at least one paragraph, and a page only lists paragraphs of its own section besides continuations |
| Paging.CreatePages | src/ghwp-file-v5.c:266-300 | the page count equals the number of line segments with `v_pos == 0`; every page belongs to a section, in section order, lists existing paragraphs, at least one, and every parsed paragraph it lists belongs to the page's section |
| Paging.BodyTextPages | src/ghwp-file-v5.c:118-300 | the whole body-text pass yields a well-formed tree and pages bound to its sections in order, one per page-starting line, each listing at least one paragraph and only parsed paragraphs of its own section besides continuations |
| FileHeader.CString | src/ghwp-file-v5.c:572 | the signature is the bytes before the first NUL among the first 32 |
| FileHeader.FlagsOf | src/ghwp-file-v5.c:581-592 | flag i is bit i of the property word, for i in 0..11 |
| FileHeader.DecodeFileHeader | src/ghwp-file-v5.c:553-596 | a header shorter than 40 bytes changes nothing; otherwise major, minor, micro and extra come from bytes 35, 34, 33 and 32, flag i is set iff it was set or bit i of the LE u32 at offset 36 is, and no flag is ever cleared |
| FileHeader.FileHeaderRoundTrip | src/ghwp-file-v5.c:553-596 | decoding an encoded header into a fresh file object gives back its signature, version and exactly the flags of its property word |
| Streams.GetOrderIsTableRank | src/ghwp-file-v5.c:599-627 | FileHeader ranks 0, DocInfo 1, BodyText 2, … DocHistory 11, each known name at its place, and exactly the unknown names rank 100 |
| Streams.CompareEntries | src/ghwp-file-v5.c:629-635 | the comparison is negative, zero or positive exactly as the first name ranks below, with or above the second |
| Streams.SortEntries | src/ghwp-file-v5.c:743 | the sorted entries are a permutation of the names in which no name ranks after a later one |
| Streams.SortEntriesStable | src/ghwp-file-v5.c:743 | the sort is stable, as `g_array_sort` is: for every rank, the names of that rank keep their relative order |
| Streams.FileHeaderFirst | src/ghwp-file-v5.c:743-751 | when the file has a FileHeader entry, it is the first one handled |
| Streams.SlotOf | src/ghwp-file-v5.c:748-773 | exactly the names of rank 0 to 7 fill a slot; FileHeader fills the header slot; BodyText and ViewText both fill the section-stream slot |
| Streams.OpenAll | src/ghwp-file-v5.c:745-774 | a slot is filled iff some entry fills it, by the last such entry; with no FileHeader entry the header stays blank |
| Streams.MakeStreams | src/ghwp-file-v5.c:722-777 | a compound file without entries gives nothing |
| Streams.InflateFollowsHeader | src/ghwp-file-v5.c:745-773 | in sorted order, exactly the DocInfo, section and BinData streams are inflated, and only when the header's compress flag is set |
| Streams.ViewTextReplacesBodyText | src/ghwp-file-v5.c:755-758 | a file with both BodyText and ViewText reads its sections from ViewText |

## Left out

- Compound-file and compression plumbing (`_ghwp_make_stream_single`, `_ghwp_make_stream_array`): these are foreign library calls. A stream is modelled by its entry name and an `inflated` flag. The NULL returns for entries that are missing or have no children are not modelled.
- Summary information, preview text and preview image: these are library-driven metadata dumps and `g_convert` conversions. Their streams are only assigned a slot.
- `ghwp_parse_paragraph_text`: it is not part of this model. The paragraph text is the result of a decoder passed in as a parameter.
- Record-context internals (`ghwp_context_pull`, header bit unpacking) are not part of this model. A record arrives already split into tag, level and payload.
- A read that runs out of bytes is modelled as yielding 0 and consuming nothing, so the model never aborts mid-record. This 0 is a choice of the model: the original's readers are not part of this model, and where a failed read leaves the original's storage alone the result differs. The character-shape references, line segments and range tags are allocated without zeroing (src/ghwp-models.c:244, 261, 285), so their unread fields are undetermined. A CTRL_HEADER too short for its id keeps the previous record's `ctrl_id` (src/ghwp-file-v5.c:121, 195), which may create another table, where the model reads 0 and sets the state to NORMAL. A second ID_MAPPINGS record reads in place over the earlier counts (src/ghwp-document.c:361-363), so a short one keeps some of them, where the model writes 0.
- The record tag numbers, the FACE_NAME attribute bits (0x80, 0x40, 0x20), CHAR_SHAPE_LANG_NUM (7) and the three control ids come from the HWP 5.0 file format, not from the headers modelled here. `MAKE_CTRL_ID` and the `GHWP_TAG_*` values are defined in a header that is not part of this model.
- UTF-16 strings (names, paths, descriptions) are kept as sequences of code units; the UTF-8 conversion of a common object's description is not modelled.
- Rendering geometry (cairo, fonts, the division by GHWP_UPP), table borders and `ghwp_page_get_size`: floating point and a foreign library. Only which lines are drawn and which text slice each one gets is modelled.
- The XML variant (`ghwp-file-ml.c`), GObject boilerplate, reference counting, the metadata getters and `hexdump`.
- The `g_warning` and `dbg` messages, including the table size mismatch (modelled as the predicate `Models.TableSizeMismatch`, which changes nothing) and paragraph data in a wrong state.
- `ghwp_section_add_paragraph` is defined outside the files modelled here; it is modelled as an append, like the other `add_paragraph` functions.
- The column spacing field of `ColumnDef` is never read by the decoder, so it stays zero.
- The decoders' `gboolean` results: the section decoders always return TRUE and the model keeps only the decoded value.
- Shared arrays: `add_link` makes both halves share the text, table and arrays. The model copies them, which is the same as long as neither half is changed later, and neither is.
- DocInfoStream.Step: a BIN_DATA record past the end of the bin-data table is a `Failure` here. The original writes past its array; that behaviour is undefined.
- DocInfo.FontTotal: the sum of the seven language counts is an unbounded integer here. The original adds them into a 32-bit `gint`, and its wrap-around for more than 2^31 fonts is not modelled.
- Page.RenderedLines: a paragraph whose line range is not covered by its segment array draws nothing here. The original indexes the array unchecked, which is undefined behaviour.
- Paging.BreakLines: a line index at or past the end of the segment array is treated as not starting a page. The original would dereference a missing segment.
- BodyText.ApplyParaData: PARA_RANGE_TAG runs the corrected range-tag parser, which reads `n_range_tags` tags. The original runs its loop `n_char_shapes` times (src/ghwp-models.c:284-292, reached from src/ghwp-file-v5.c:189-190), modelled as Models.ParseRangeTagsAsWritten; see Findings.
- BodyText.OnParaHeader, BodyText.OnParaData, BodyText.OnCtrlHeader, BodyText.OnTable, BodyText.OnListHeader: where the original would use an object of the wrong kind or a slot below level 0, the model leaves that effect out and keeps the rest of the record's effect. The cases are: a table or cell used as a paragraph (src/ghwp-file-v5.c:181, 205); `status[level - 1]` read at level 0 (src/ghwp-file-v5.c:225, 238); a TABLE record whose slot one level up holds no table, whose container the original hands unchecked to `ghwp_parse_table_attr`, which writes through it (src/ghwp-file-v5.c:225-226, src/ghwp-models.c:323-329); and a TABLE slot whose container is not a cell (src/ghwp-file-v5.c:165-166). The original's behaviour there is undefined.
- Paging.SectionPass: which page each paragraph goes to is stated one paragraph at a time by Paging.LayOutPlaces. Over a whole section the contract states only what Paging.SectionPassFills says. It does not list the final contents of each page in one formula.

## Findings

| source | as written | input that shows it | evidently intended | confidence | as-written member | corrected member |
|---|---|---|---|---|---|---|
| src/ghwp-models.c:284-292 | the range-tag loop runs `header.n_char_shapes` times | a paragraph header with `n_char_shapes = 0` and `n_range_tags = 1`, followed by a PARA_RANGE_TAG record holding one tag: no range tag is read | the loop runs `header.n_range_tags` times, one range tag per announced tag | not executed | Models.ParseRangeTagsAsWritten (shown by Models.RangeTagLoopUsesWrongCount) | Models.ParseRangeTags (with Models.RangeTagsRoundTrip; used by the body-text pass) |

=== FILE: body_text.dfy ===
/**
 The body-text pass (`_ghwp_file_v5_parse_body_text`, ghwp-file-v5.c,
 first half): every section stream adds one section to the document, and
 its records are folded into a tree Section → Paragraph → Table → Cell →
 Paragraph.

 Paragraphs, tables and cells live in arenas of the document and refer to
 one another by index. The record context keeps one status slot per nesting
 level, holding a state and the container the level is working on; a slot
 nobody has written reads as (NORMAL, none), which is how a fresh context
 starts. The status is reset for every stream.

 Where the original dereferences a container of the wrong kind (a table
 or cell used as a paragraph, a TABLE slot whose container is not a cell,
 a TABLE record whose slot one level up holds no table, which
 `ghwp_parse_table_attr` writes through unchecked) or the status slot
 below level 0, its behaviour is undefined; the model leaves that part of
 the record's effect out in those cases.
 */
module BodyText {
  import opened Wrappers
  import opened Bytes
  import opened Record
  import opened Models
  import opened Section

  /* Body-text record tags (HWPTAG_BEGIN + 50 …, from the HWP 5.0 format). */
  const TagParaHeader := 0x42
  const TagParaText := 0x43
  const TagParaCharShape := 0x44
  const TagParaLineSeg := 0x45
  const TagParaRangeTag := 0x46
  const TagCtrlHeader := 0x47
  const TagListHeader := 0x48
  const TagPageDef := 0x49
  const TagTable := 0x4D

  /** `MAKE_CTRL_ID(a, b, c, d)`: four characters packed big-end first. */
  function MakeCtrlId(a: char, b: char, c: char, d: char): u32
    requires a as int < 0x100 && b as int < 0x100 && c as int < 0x100 && d as int < 0x100
  {
    ((a as int * 0x100 + b as int) * 0x100 + c as int) * 0x100 + d as int
  }

  const CtrlIdTable := MakeCtrlId('t', 'b', 'l', ' ')
  const CtrlIdSecDef := MakeCtrlId('s', 'e', 'c', 'd')
  const CtrlIdColDef := MakeCtrlId('c', 'o', 'l', 'd')

  /** `STATE_NORMAL`, `STATE_PARAGRAPH`, `STATE_CTRL_TABLE`, `STATE_TABLE`. */
  datatype Mode = NormalMode | ParagraphMode | CtrlTableMode | TableMode

  /** The container a status slot points at. */
  datatype Container = NoContainer | ParaAt(para: nat) | TableAt(table: nat) | CellAt(cell: nat)

  datatype Slot = Slot(mode: Mode, container: Container)

  type Status = map<nat, Slot>

  /** The status slot of a level. */
  function At(st: Status, level: nat): Slot
  {
    if level in st then st[level] else Slot(NormalMode, NoContainer)
  }

  /** The parsed body text: the sections in stream order and the arenas. */
  datatype Doc = Doc(
    sections: seq<Section>,
    paragraphs: seq<Paragraph>,
    tables: seq<Table>,
    cells: seq<Cell>)

  const EmptyDoc := Doc([], [], [], [])

  /** The pass state: the document and the status slots of the stream. */
  datatype Machine = Machine(doc: Doc, status: Status)

  // ---------------------------------------------------------------------
  // Well-formedness: every index refers to an arena entry
  // ---------------------------------------------------------------------

  predicate SectionsValid(d: Doc)
  {
    forall i, j :: 0 <= i < |d.sections| && 0 <= j < |d.sections[i].paragraphs| ==>
      d.sections[i].paragraphs[j] < |d.paragraphs|
  }

  predicate ParagraphsValid(d: Doc)
  {
    forall i :: 0 <= i < |d.paragraphs| ==>
      && (d.paragraphs[i].table.Some? ==> d.paragraphs[i].table.value < |d.tables|)
      && (d.paragraphs[i].link.Some? ==> d.paragraphs[i].link.value < |d.paragraphs|)
  }

  predicate TablesValid(d: Doc)
  {
    forall i, j :: 0 <= i < |d.tables| && 0 <= j < |d.tables[i].cells| ==> d.tables[i].cells[j] < |d.cells|
  }

  predicate CellsValid(d: Doc)
  {
    forall i, j :: 0 <= i < |d.cells| && 0 <= j < |d.cells[i].paragraphs| ==>
      d.cells[i].paragraphs[j] < |d.paragraphs|
  }

  predicate DocValid(d: Doc)
  {
    SectionsValid(d) && ParagraphsValid(d) && TablesValid(d) && CellsValid(d)
  }

  predicate Points(d: Doc, c: Container)
  {
    match c
    case NoContainer => true
    case ParaAt(i) => i < |d.paragraphs|
    case TableAt(i) => i < |d.tables|
    case CellAt(i) => i < |d.cells|
  }

  predicate StatusValid(d: Doc, st: Status)
  {
    forall k :: k in st ==> Points(d, st[k].container)
  }

  /** The pass is inside a section and every index in the document and the
      status refers to an existing entry. */
  predicate Valid(m: Machine)
  {
    |m.doc.sections| > 0 && DocValid(m.doc) && StatusValid(m.doc, m.status)
  }

  function LastSection(d: Doc): Section
    requires |d.sections| > 0
  {
    d.sections[|d.sections| - 1]
  }

  /** The document with its last section replaced. */
  function WithLastSection(d: Doc, s: Section): (r: Doc)
    requires |d.sections| > 0
    ensures |r.sections| == |d.sections|
    ensures r.sections[..|d.sections| - 1] == d.sections[..|d.sections| - 1]
    ensures LastSection(r) == s
    ensures r.(sections := d.sections) == d
  {
    d.(sections := d.sections[|d.sections| - 1 := s])
  }

  // ---------------------------------------------------------------------
  // One record
  // ---------------------------------------------------------------------

  /** The container of the level's slot, when it is the cell of a slot in
      TABLE state. */
  predicate HoldsCell(d: Doc, st: Status, L: nat)
  {
    At(st, L).mode == TableMode && At(st, L).container.CellAt? && At(st, L).container.cell < |d.cells|
  }

  /** The level's slot holds an existing paragraph. */
  predicate HoldsPara(d: Doc, st: Status, L: nat)
  {
    At(st, L).container.ParaAt? && At(st, L).container.para < |d.paragraphs|
  }

  /** The slot one level up holds an existing table. */
  predicate ParentTable(d: Doc, st: Status, L: nat)
  {
    L > 0 && At(st, L - 1).container.TableAt? && At(st, L - 1).container.table < |d.tables|
  }

  /** PARA_HEADER at level `L`: a new paragraph is decoded; at level 0 it
      joins the section, below that it joins the cell the level's slot holds
      when that slot is in TABLE state. The handler does not touch slot `L`
      but writes slot `L + 1`: the records of the paragraph that follow sit
      one level deeper. */
  function OnParaHeader(v: Version, m: Machine, L: nat, payload: seq<byte>): (r: Machine)
    requires |m.doc.sections| > 0
    ensures r.doc.paragraphs == m.doc.paragraphs + [NewParagraph(v, payload)]
    ensures r.doc.tables == m.doc.tables
    ensures At(r.status, L + 1) == Slot(ParagraphMode, ParaAt(|m.doc.paragraphs|))
    ensures forall k :: k != L + 1 ==> At(r.status, k) == At(m.status, k)
    ensures L == 0 ==> r.doc.sections == m.doc.sections[|m.doc.sections| - 1 := AddParagraph(LastSection(m.doc), |m.doc.paragraphs|)]
    ensures L == 0 ==> r.doc.cells == m.doc.cells
    ensures L > 0 ==> r.doc.sections == m.doc.sections
    ensures L > 0 && HoldsCell(m.doc, m.status, L) ==>
              var c := At(m.status, L).container.cell;
              r.doc.cells == m.doc.cells[c := CellAddParagraph(m.doc.cells[c], |m.doc.paragraphs|)]
    ensures L > 0 && !HoldsCell(m.doc, m.status, L) ==> r.doc.cells == m.doc.cells
  {
    var d := m.doc;
    var idx := |d.paragraphs|;
    var d1 := d.(paragraphs := d.paragraphs + [NewParagraph(v, payload)]);
    var d2 :=
      if L == 0 then WithLastSection(d1, AddParagraph(LastSection(d1), idx))
      else if HoldsCell(d, m.status, L) then
        var c := At(m.status, L).container.cell;
        d1.(cells := d1.cells[c := CellAddParagraph(d1.cells[c], idx)])
      else d1;
    Machine(d2, m.status[L + 1 := Slot(ParagraphMode, ParaAt(idx))])
  }

  /** PARA_TEXT, PARA_CHAR_SHAPE, PARA_LINE_SEG or PARA_RANGE_TAG: the data
      goes to the paragraph the level's slot holds. The text is decoded by
      `text`, which stands for the paragraph-text parser. */
  function ApplyParaData(text: seq<byte> -> string, tag: nat, p: Paragraph, payload: seq<byte>): (r: Paragraph)
    requires tag in {TagParaText, TagParaCharShape, TagParaLineSeg, TagParaRangeTag}
    ensures r.header == p.header && r.table == p.table && r.link == p.link
    ensures r.lineStart == p.lineStart && r.lineEnd == p.lineEnd
    ensures tag == TagParaText ==> r == p.(text := Some(text(payload)))
    ensures tag == TagParaCharShape ==> r == ParseCharShapes(p, payload)
    ensures tag == TagParaLineSeg ==> r == ParseLineSegs(p, payload)
    ensures tag == TagParaRangeTag ==> r == ParseRangeTags(p, payload)
  {
    if tag == TagParaText then p.(text := Some(text(payload)))
    else if tag == TagParaCharShape then ParseCharShapes(p, payload)
    else if tag == TagParaLineSeg then ParseLineSegs(p, payload)
    else ParseRangeTags(p, payload)
  }

  /** A slot in a state other than PARAGRAPH only draws a warning in the
      original; the paragraph it holds is still the one updated, and the
      status never changes. */
  function OnParaData(text: seq<byte> -> string, m: Machine, tag: nat, L: nat, payload: seq<byte>): (r: Machine)
    requires tag in {TagParaText, TagParaCharShape, TagParaLineSeg, TagParaRangeTag}
    ensures r.status == m.status
    ensures r.doc.(paragraphs := m.doc.paragraphs) == m.doc
    ensures HoldsPara(m.doc, m.status, L) ==>
              var p := At(m.status, L).container.para;
              r.doc.paragraphs == m.doc.paragraphs[p := ApplyParaData(text, tag, m.doc.paragraphs[p], payload)]
    ensures !HoldsPara(m.doc, m.status, L) ==> r == m
  {
    if HoldsPara(m.doc, m.status, L) then
      var p := At(m.status, L).container.para;
      var d := m.doc;
      Machine(d.(paragraphs := d.paragraphs[p := ApplyParaData(text, tag, d.paragraphs[p], payload)]), m.status)
    else m
  }

  /** CTRL_HEADER: the control id is read first. A table control creates a
      table from the common object that follows, attaches it to the
      paragraph of the level's slot and makes the slot (CTRL_TABLE, table);
      a section or column definition is decoded into the section and leaves
      the slot alone; any other control sets the slot's state to NORMAL. */
  function OnCtrlHeader(m: Machine, L: nat, payload: seq<byte>): (r: Machine)
    requires |m.doc.sections| > 0
    ensures r.doc.cells == m.doc.cells
    ensures forall k :: k != L ==> At(r.status, k) == At(m.status, k)
    ensures var id := ReadU32(payload);
            if id.0 == CtrlIdTable then
              && r.doc.tables == m.doc.tables + [Table(DecodeCommonObject(id.0, id.1).0, EmptyTableAttr, [])]
              && At(r.status, L) == Slot(CtrlTableMode, TableAt(|m.doc.tables|))
              && r.doc.sections == m.doc.sections
              && (HoldsPara(m.doc, m.status, L) ==>
                    var p := At(m.status, L).container.para;
                    r.doc.paragraphs == m.doc.paragraphs[p := m.doc.paragraphs[p].(table := Some(|m.doc.tables|))])
              && (!HoldsPara(m.doc, m.status, L) ==> r.doc.paragraphs == m.doc.paragraphs)
            else if id.0 == CtrlIdSecDef then
              r == Machine(WithLastSection(m.doc, LastSection(m.doc).(def := DecodeSectionDef(id.1).0)), m.status)
            else if id.0 == CtrlIdColDef then
              r == Machine(WithLastSection(m.doc, LastSection(m.doc).(col := DecodeColumnDef(id.1).0)), m.status)
            else
              r.doc == m.doc && At(r.status, L) == At(m.status, L).(mode := NormalMode)
  {
    var d := m.doc;
    var id := ReadU32(payload);
    if id.0 == CtrlIdTable then
      var t := |d.tables|;
      var d1 := d.(tables := d.tables + [Table(DecodeCommonObject(id.0, id.1).0, EmptyTableAttr, [])]);
      var d2 :=
        if HoldsPara(d, m.status, L) then
          var p := At(m.status, L).container.para;
          d1.(paragraphs := d1.paragraphs[p := d1.paragraphs[p].(table := Some(t))])
        else d1;
      Machine(d2, m.status[L := Slot(CtrlTableMode, TableAt(t))])
    else if id.0 == CtrlIdSecDef then
      Machine(WithLastSection(d, LastSection(d).(def := DecodeSectionDef(id.1).0)), m.status)
    else if id.0 == CtrlIdColDef then
      Machine(WithLastSection(d, LastSection(d).(col := DecodeColumnDef(id.1).0)), m.status)
    else
      Machine(d, m.status[L := At(m.status, L).(mode := NormalMode)])
  }

  /** TABLE: the table attributes are decoded into the table held by the slot
      one level up, and the level's slot enters TABLE state. */
  function OnTable(v: Version, m: Machine, L: nat, payload: seq<byte>): (r: Machine)
    ensures r.doc.(tables := m.doc.tables) == m.doc
    ensures At(r.status, L) == At(m.status, L).(mode := TableMode)
    ensures forall k :: k != L ==> At(r.status, k) == At(m.status, k)
    ensures ParentTable(m.doc, m.status, L) ==>
              var t := At(m.status, L - 1).container.table;
              r.doc.tables == m.doc.tables[t := m.doc.tables[t].(attr := DecodeTableAttr(v, payload).0)]
    ensures !ParentTable(m.doc, m.status, L) ==> r.doc == m.doc
  {
    var d := m.doc;
    var d' :=
      if ParentTable(d, m.status, L) then
        var t := At(m.status, L - 1).container.table;
        d.(tables := d.tables[t := d.tables[t].(attr := DecodeTableAttr(v, payload).0)])
      else d;
    Machine(d', m.status[L := At(m.status, L).(mode := TableMode)])
  }

  /** LIST_HEADER: in TABLE state a new cell is made of the list header and
      the cell attributes after it, appended to the table held one level up,
      and becomes the container of the level's slot; in any other state
      (a table caption in CTRL_TABLE state, for one) nothing changes. */
  function OnListHeader(m: Machine, L: nat, payload: seq<byte>): (r: Machine)
    ensures At(m.status, L).mode != TableMode ==> r == m
    ensures At(m.status, L).mode == TableMode ==>
              var lh := DecodeListHeader(payload);
              var c := |m.doc.cells|;
              && r.doc.cells == m.doc.cells + [Cell(lh.0, DecodeCellAttr(lh.1).0, [])]
              && r.doc.sections == m.doc.sections
              && r.doc.paragraphs == m.doc.paragraphs
              && At(r.status, L) == At(m.status, L).(container := CellAt(c))
              && (forall k :: k != L ==> At(r.status, k) == At(m.status, k))
              && (ParentTable(m.doc, m.status, L) ==>
                    var t := At(m.status, L - 1).container.table;
                    r.doc.tables == m.doc.tables[t := AddCell(m.doc.tables[t], c)])
              && (!ParentTable(m.doc, m.status, L) ==> r.doc.tables == m.doc.tables)
  {
    var d := m.doc;
    if At(m.status, L).mode == TableMode then
      var lh := DecodeListHeader(payload);
      var c := |d.cells|;
      var d1 := d.(cells := d.cells + [Cell(lh.0, DecodeCellAttr(lh.1).0, [])]);
      var d2 :=
        if ParentTable(d, m.status, L) then
          var t := At(m.status, L - 1).container.table;
          d1.(tables := d1.tables[t := AddCell(d1.tables[t], c)])
        else d1;
      Machine(d2, m.status[L := At(m.status, L).(container := CellAt(c))])
    else m
  }

  /** PAGE_DEF: the page definition is decoded into the section. */
  function OnPageDef(m: Machine, payload: seq<byte>): (r: Machine)
    requires |m.doc.sections| > 0
    ensures r.status == m.status
    ensures r.doc.(sections := m.doc.sections) == m.doc
    ensures |r.doc.sections| == |m.doc.sections|
    ensures r.doc.sections[..|m.doc.sections| - 1] == m.doc.sections[..|m.doc.sections| - 1]
    ensures LastSection(r.doc) == LastSection(m.doc).(page := DecodePageDef(payload).0)
  {
    Machine(WithLastSection(m.doc, LastSection(m.doc).(page := DecodePageDef(payload).0)), m.status)
  }

  /** The tags the pass handles. */
  predicate Handled(tag: nat)
  {
    tag in {TagParaHeader, TagParaText, TagParaCharShape, TagParaLineSeg, TagParaRangeTag,
            TagCtrlHeader, TagTable, TagListHeader, TagPageDef}
  }

  /** One turn of the record loop. Only the status slots of the record's
      level and the one below it can change, the number of sections never
      changes, every earlier section stays as it was, every arena only grows
      and a record the pass does not handle changes nothing. */
  function Step(v: Version, text: seq<byte> -> string, m: Machine, rec: Record): (r: Machine)
    requires |m.doc.sections| > 0
    ensures forall k :: k != rec.level && k != rec.level + 1 ==> At(r.status, k) == At(m.status, k)
    ensures |r.doc.sections| == |m.doc.sections|
    ensures r.doc.sections[..|m.doc.sections| - 1] == m.doc.sections[..|m.doc.sections| - 1]
    ensures |r.doc.paragraphs| >= |m.doc.paragraphs|
    ensures |r.doc.tables| >= |m.doc.tables| && |r.doc.cells| >= |m.doc.cells|
    ensures !Handled(rec.tag) ==> r == m
  {
    var L := rec.level;
    if rec.tag == TagParaHeader then OnParaHeader(v, m, L, rec.payload)
    else if rec.tag in {TagParaText, TagParaCharShape, TagParaLineSeg, TagParaRangeTag} then
      OnParaData(text, m, rec.tag, L, rec.payload)
    else if rec.tag == TagCtrlHeader then OnCtrlHeader(m, L, rec.payload)
    else if rec.tag == TagTable then OnTable(v, m, L, rec.payload)
    else if rec.tag == TagListHeader then OnListHeader(m, L, rec.payload)
    else if rec.tag == TagPageDef then OnPageDef(m, rec.payload)
    else m
  }

  // ---------------------------------------------------------------------
  // Streams
  // ---------------------------------------------------------------------

  /** The records of one stream, in order. */
  function Run(v: Version, text: seq<byte> -> string, m: Machine, recs: seq<Record>): (r: Machine)
    requires |m.doc.sections| > 0
    ensures |r.doc.sections| == |m.doc.sections|
    ensures r.doc.sections[..|m.doc.sections| - 1] == m.doc.sections[..|m.doc.sections| - 1]
  {
    if |recs| == 0 then m
    else Step(v, text, Run(v, text, m, recs[..|recs| - 1]), recs[|recs| - 1])
  }

  /** One section stream: a new section is appended and the stream's records
      are run against it with a fresh status. */
  function ParseStream(v: Version, text: seq<byte> -> string, d: Doc, recs: seq<Record>): (r: Doc)
    ensures |r.sections| == |d.sections| + 1
    ensures r.sections[..|d.sections|] == d.sections
  {
    var d1 := d.(sections := d.sections + [NewSection]);
    var r := Run(v, text, Machine(d1, map[]), recs).doc;
    assert r.sections[..|d.sections|] == d1.sections[..|d.sections|];
    r
  }

  /** The whole body text: one section per stream, in stream order. */
  function ParseBodyText(v: Version, text: seq<byte> -> string, streams: seq<seq<Record>>): (r: Doc)
    ensures |r.sections| == |streams|
  {
    if |streams| == 0 then EmptyDoc
    else ParseStream(v, text, ParseBodyText(v, text, streams[..|streams| - 1]), streams[|streams| - 1])
  }

  /** A section stream leaves the sections before it as they were. */
  lemma ParseStreamKeeps(v: Version, text: seq<byte> -> string, d: Doc, recs: seq<Record>, i: nat)
    requires i < |d.sections|
    ensures ParseStream(v, text, d, recs).sections[i] == d.sections[i]
  {
    var r := ParseStream(v, text, d, recs);
    assert r.sections[i] == r.sections[..|d.sections|][i];
  }

  /** The last stream leaves the sections of the others as they were. */
  lemma LastStreamKeeps(v: Version, text: seq<byte> -> string, streams: seq<seq<Record>>, i: nat)
    requires i + 1 < |streams|
    ensures ParseBodyText(v, text, streams).sections[i] == ParseBodyText(v, text, streams[..|streams| - 1]).sections[i]
  {
    ParseStreamKeeps(v, text, ParseBodyText(v, text, streams[..|streams| - 1]), streams[|streams| - 1], i);
  }

  /** Section `i` is the one stream `i` made: the streams after it leave it
      as it was. */
  lemma {:induction false} SectionsInStreamOrder(v: Version, text: seq<byte> -> string, streams: seq<seq<Record>>, i: nat)
    requires i < |streams|
    ensures ParseBodyText(v, text, streams).sections[i] == ParseBodyText(v, text, streams[..i + 1]).sections[i]
  {
    if i + 1 < |streams| {
      var prefix := streams[..|streams| - 1];
      SectionsInStreamOrder(v, text, prefix, i);
      assert prefix[..i + 1] == streams[..i + 1];
      LastStreamKeeps(v, text, streams, i);
    } else {
      assert streams[..i + 1] == streams;
    }
  }

  // ---------------------------------------------------------------------
  // The pass keeps every index in range
  // ---------------------------------------------------------------------

  lemma StatusGrows(d: Doc, d': Doc, st: Status)
    requires StatusValid(d, st)
    requires |d'.paragraphs| >= |d.paragraphs| && |d'.tables| >= |d.tables| && |d'.cells| >= |d.cells|
    ensures StatusValid(d', st)
  {
    forall k | k in st ensures Points(d', st[k].container) {
      assert Points(d, st[k].container);
    }
  }

  lemma StatusSet(d: Doc, st: Status, k: nat, s: Slot)
    requires StatusValid(d, st) && Points(d, s.container)
    ensures StatusValid(d, st[k := s])
  {
  }

  lemma SlotPoints(d: Doc, st: Status, k: nat)
    requires StatusValid(d, st)
    ensures Points(d, At(st, k).container)
  {
  }

  lemma ParaHeaderKeepsValid(v: Version, m: Machine, L: nat, payload: seq<byte>)
    requires Valid(m)
    ensures Valid(OnParaHeader(v, m, L, payload))
  {
    var d := m.doc;
    var r := OnParaHeader(v, m, L, payload);
    var d2 := r.doc;
    assert SectionsValid(d2) by {
      forall i, j | 0 <= i < |d2.sections| && 0 <= j < |d2.sections[i].paragraphs|
        ensures d2.sections[i].paragraphs[j] < |d2.paragraphs|
      {
        if L == 0 && i == |d.sections| - 1 && j == |d.sections[i].paragraphs| {
        } else {
          assert d2.sections[i].paragraphs[j] == d.sections[i].paragraphs[j];
        }
      }
    }
    assert ParagraphsValid(d2) by {
      forall i | 0 <= i < |d2.paragraphs|
        ensures d2.paragraphs[i].table.Some? ==> d2.paragraphs[i].table.value < |d2.tables|
        ensures d2.paragraphs[i].link.Some? ==> d2.paragraphs[i].link.value < |d2.paragraphs|
      {
        if i < |d.paragraphs| {
          assert d2.paragraphs[i] == d.paragraphs[i];
        }
      }
    }
    assert CellsValid(d2) by {
      forall i, j | 0 <= i < |d2.cells| && 0 <= j < |d2.cells[i].paragraphs|
        ensures d2.cells[i].paragraphs[j] < |d2.paragraphs|
      {
        if j < |d.cells[i].paragraphs| {
          assert d2.cells[i].paragraphs[j] == d.cells[i].paragraphs[j];
        }
      }
    }
    StatusGrows(d, d2, m.status);
    StatusSet(d2, m.status, L + 1, Slot(ParagraphMode, ParaAt(|d.paragraphs|)));
  }

  lemma ParaDataKeepsValid(text: seq<byte> -> string, m: Machine, tag: nat, L: nat, payload: seq<byte>)
    requires Valid(m)
    requires tag in {TagParaText, TagParaCharShape, TagParaLineSeg, TagParaRangeTag}
    ensures Valid(OnParaData(text, m, tag, L, payload))
  {
    var d := m.doc;
    var d' := OnParaData(text, m, tag, L, payload).doc;
    assert ParagraphsValid(d') by {
      forall i | 0 <= i < |d'.paragraphs|
        ensures d'.paragraphs[i].table == d.paragraphs[i].table && d'.paragraphs[i].link == d.paragraphs[i].link
      {
      }
    }
    StatusGrows(d, d', m.status);
  }

  lemma TableCtrlKeepsValid(m: Machine, L: nat, payload: seq<byte>)
    requires Valid(m)
    requires ReadU32(payload).0 == CtrlIdTable
    ensures Valid(OnCtrlHeader(m, L, payload))
  {
    var d := m.doc;
    var d2 := OnCtrlHeader(m, L, payload).doc;
    var t := |d.tables|;
    assert TablesValid(d2) by {
      forall i, j | 0 <= i < |d2.tables| && 0 <= j < |d2.tables[i].cells|
        ensures d2.tables[i].cells[j] < |d2.cells|
      {
        if i < t {
          assert d2.tables[i] == d.tables[i];
        }
      }
    }
    assert ParagraphsValid(d2) by {
      forall i | 0 <= i < |d2.paragraphs|
        ensures d2.paragraphs[i].table.Some? ==> d2.paragraphs[i].table.value < |d2.tables|
        ensures d2.paragraphs[i].link.Some? ==> d2.paragraphs[i].link.value < |d2.paragraphs|
      {
        if !(HoldsPara(d, m.status, L) && i == At(m.status, L).container.para) {
          assert d2.paragraphs[i] == d.paragraphs[i];
        }
      }
    }
    StatusGrows(d, d2, m.status);
    StatusSet(d2, m.status, L, Slot(CtrlTableMode, TableAt(t)));
  }

  lemma CtrlHeaderKeepsValid(m: Machine, L: nat, payload: seq<byte>)
    requires Valid(m)
    ensures Valid(OnCtrlHeader(m, L, payload))
  {
    var d := m.doc;
    var id := ReadU32(payload).0;
    if id == CtrlIdTable {
      TableCtrlKeepsValid(m, L, payload);
    } else if id == CtrlIdSecDef || id == CtrlIdColDef {
      var d2 := OnCtrlHeader(m, L, payload).doc;
      assert SectionsValid(d2) by {
        forall i, j | 0 <= i < |d2.sections| && 0 <= j < |d2.sections[i].paragraphs|
          ensures d2.sections[i].paragraphs[j] < |d2.paragraphs|
        {
          assert d2.sections[i].paragraphs == d.sections[i].paragraphs;
        }
      }
    } else {
      SlotPoints(d, m.status, L);
      StatusSet(d, m.status, L, At(m.status, L).(mode := NormalMode));
    }
  }

  lemma TableKeepsValid(v: Version, m: Machine, L: nat, payload: seq<byte>)
    requires Valid(m)
    ensures Valid(OnTable(v, m, L, payload))
  {
    var d := m.doc;
    var d' := OnTable(v, m, L, payload).doc;
    assert TablesValid(d') by {
      forall i, j | 0 <= i < |d'.tables| && 0 <= j < |d'.tables[i].cells|
        ensures d'.tables[i].cells[j] < |d'.cells|
      {
        assert d'.tables[i].cells == d.tables[i].cells;
      }
    }
    StatusGrows(d, d', m.status);
    SlotPoints(d, m.status, L);
    StatusSet(d', m.status, L, At(m.status, L).(mode := TableMode));
  }

  lemma ListHeaderKeepsValid(m: Machine, L: nat, payload: seq<byte>)
    requires Valid(m)
    ensures Valid(OnListHeader(m, L, payload))
  {
    var d := m.doc;
    var r := OnListHeader(m, L, payload);
    var d2 := r.doc;
    if At(m.status, L).mode == TableMode {
      var c := |d.cells|;
      assert TablesValid(d2) by {
        forall i, j | 0 <= i < |d2.tables| && 0 <= j < |d2.tables[i].cells|
          ensures d2.tables[i].cells[j] < |d2.cells|
        {
          if j < |d.tables[i].cells| {
            assert d2.tables[i].cells[j] == d.tables[i].cells[j];
          }
        }
      }
      assert CellsValid(d2) by {
        forall i, j | 0 <= i < |d2.cells| && 0 <= j < |d2.cells[i].paragraphs|
          ensures d2.cells[i].paragraphs[j] < |d2.paragraphs|
        {
          assert i < c;
          assert d2.cells[i] == d.cells[i];
        }
      }
      StatusGrows(d, d2, m.status);
      StatusSet(d2, m.status, L, At(m.status, L).(container := CellAt(c)));
    }
  }

  lemma PageDefKeepsValid(m: Machine, payload: seq<byte>)
    requires Valid(m)
    ensures Valid(OnPageDef(m, payload))
  {
    var d := m.doc;
    var d' := OnPageDef(m, payload).doc;
    assert SectionsValid(d') by {
      forall i, j | 0 <= i < |d'.sections| && 0 <= j < |d'.sections[i].paragraphs|
        ensures d'.sections[i].paragraphs[j] < |d'.paragraphs|
      {
        assert d'.sections[i].paragraphs == d.sections[i].paragraphs;
      }
    }
  }

  /** Every record keeps every index of the document and of the status in
      range. */
  lemma StepKeepsValid(v: Version, text: seq<byte> -> string, m: Machine, rec: Record)
    requires Valid(m)
    ensures Valid(Step(v, text, m, rec))
  {
    var L := rec.level;
    if rec.tag == TagParaHeader {
      ParaHeaderKeepsValid(v, m, L, rec.payload);
    } else if rec.tag in {TagParaText, TagParaCharShape, TagParaLineSeg, TagParaRangeTag} {
      ParaDataKeepsValid(text, m, rec.tag, L, rec.payload);
    } else if rec.tag == TagCtrlHeader {
      CtrlHeaderKeepsValid(m, L, rec.payload);
    } else if rec.tag == TagTable {
      TableKeepsValid(v, m, L, rec.payload);
    } else if rec.tag == TagListHeader {
      ListHeaderKeepsValid(m, L, rec.payload);
    } else if rec.tag == TagPageDef {
      PageDefKeepsValid(m, rec.payload);
    }
  }

  lemma {:induction false} RunKeepsValid(v: Version, text: seq<byte> -> string, m: Machine, recs: seq<Record>)
    requires Valid(m)
    ensures Valid(Run(v, text, m, recs))
  {
    if |recs| > 0 {
      RunKeepsValid(v, text, m, recs[..|recs| - 1]);
      StepKeepsValid(v, text, Run(v, text, m, recs[..|recs| - 1]), recs[|recs| - 1]);
    }
  }

  /** The parsed body text is a well-formed tree: every paragraph, table and
      cell index in it refers to an entry of its arena. */
  lemma {:induction false} BodyTextValid(v: Version, text: seq<byte> -> string, streams: seq<seq<Record>>)
    ensures DocValid(ParseBodyText(v, text, streams))
  {
    if |streams| > 0 {
      var d := ParseBodyText(v, text, streams[..|streams| - 1]);
      BodyTextValid(v, text, streams[..|streams| - 1]);
      var d1 := d.(sections := d.sections + [NewSection]);
      assert SectionsValid(d1) by {
        forall i, j | 0 <= i < |d1.sections| && 0 <= j < |d1.sections[i].paragraphs|
          ensures d1.sections[i].paragraphs[j] < |d1.paragraphs|
        {
          assert i < |d.sections|;
          assert d1.sections[i] == d.sections[i];
        }
      }
      RunKeepsValid(v, text, Machine(d1, map[]), streams[|streams| - 1]);
    }
  }
}

=== FILE: bytes.dfy ===
/**
 Fixed-width integers, little-endian byte packing and bit fields.

 Every integer of the HWP v5 format is stored little-endian. The C types of
 the original (guint8 … gint32) become subset types of `int`, so their ranges
 are facts the verifier knows; two's complement is written out explicitly.
 */
module Bytes {

  type byte = x: int | 0 <= x < 0x100
  type u8 = x: int | 0 <= x < 0x100
  type u16 = x: int | 0 <= x < 0x1_0000
  type u32 = x: int | 0 <= x < 0x1_0000_0000
  type i8 = x: int | -0x80 <= x < 0x80
  type i16 = x: int | -0x8000 <= x < 0x8000
  type i32 = x: int | -0x8000_0000 <= x < 0x8000_0000

  /** The unsigned 16-bit value stored little-endian in the first two bytes. */
  function Le16(s: seq<byte>): u16
    requires |s| >= 2
  {
    s[0] as int + 0x100 * s[1] as int
  }

  /** The unsigned 32-bit value stored little-endian in the first four bytes. */
  function Le32(s: seq<byte>): u32
    requires |s| >= 4
  {
    Le16(s[0..2]) + 0x1_0000 * Le16(s[2..4])
  }

  function Enc16(x: u16): (r: seq<byte>)
    ensures |r| == 2
  {
    [x % 0x100, x / 0x100]
  }

  function Enc32(x: u32): (r: seq<byte>)
    ensures |r| == 4
  {
    Enc16(x % 0x1_0000) + Enc16(x / 0x1_0000)
  }

  lemma Le16Enc16(x: u16)
    ensures Le16(Enc16(x)) == x
  {
  }

  lemma Enc16Le16(s: seq<byte>)
    requires |s| == 2
    ensures Enc16(Le16(s)) == s
  {
  }

  lemma Le32Enc32(x: u32)
    ensures Le32(Enc32(x)) == x
  {
    var e := Enc32(x);
    assert e[0..2] == Enc16(x % 0x1_0000);
    assert e[2..4] == Enc16(x / 0x1_0000);
    Le16Enc16(x % 0x1_0000);
    Le16Enc16(x / 0x1_0000);
  }

  /** Two's complement reading of an unsigned byte as gint8. */
  function Signed8(x: u8): i8
  {
    if x < 0x80 then x else x - 0x100
  }

  function Signed16(x: u16): i16
  {
    if x < 0x8000 then x else x - 0x1_0000
  }

  function Signed32(x: u32): i32
  {
    if x < 0x8000_0000 then x else x - 0x1_0000_0000
  }

  /** Two's complement representation: the unsigned pattern of a signed value. */
  lemma Signed8Mod(x: i8)
    ensures Signed8(x % 0x100) == x
  {
  }

  lemma Signed16Mod(x: i16)
    ensures Signed16(x % 0x1_0000) == x
  {
  }

  lemma Signed32Mod(x: i32)
    ensures Signed32(x % 0x1_0000_0000) == x
  {
  }

  function Pow2(n: nat): (r: nat)
    ensures r >= 1
  {
    if n == 0 then 1 else 2 * Pow2(n - 1)
  }

  /** Shifting by `a` and then by `b` is shifting by `a + b`. */
  lemma {:induction false} Pow2Add(a: nat, b: nat)
    ensures Pow2(a + b) == Pow2(a) * Pow2(b)
  {
    if b > 0 {
      Pow2Add(a, b - 1);
      assert Pow2(a + b) == 2 * Pow2(a + b - 1);
      assert Pow2(a) * Pow2(b) == Pow2(a) * (2 * Pow2(b - 1));
    }
  }

  /** The `width` bits of `x` starting at bit `lo`: `(x >> lo) & ((1 << width) - 1)`. */
  function Bits(x: nat, lo: nat, width: nat): (r: nat)
    ensures r < Pow2(width)
  {
    (x / Pow2(lo)) % Pow2(width)
  }

  /** `x & (1 << i) != 0` */
  predicate Bit(x: nat, i: nat)
  {
    Bits(x, i, 1) == 1
  }
}

=== FILE: docinfo.dfy ===
/**
 The DocInfo tables of an HWP v5 document (ghwp-document.c, ghwp-document.h):
 the document properties, the ID-mapping counts that size every table, and
 the decoders of one bin-data item, font face, character shape and
 paragraph shape.

 Every decoder reads its fields from the front of a record payload in the
 order of the original's `context_read_*` calls and returns the decoded
 structure with the rest of the payload. Every decoder has a `Put`
 partner that lays a structure out as bytes; the partner's contract is the
 round trip, which fixes both the field order and which fields a record
 carries for a given version or attribute byte. A field the original does
 not read is left zero (a null string is `None`), as in the zero-filled
 tables the original allocates.
 */
module DocInfo {
  import opened Wrappers
  import opened Bytes
  import opened Record

  /* Indices into the ID-mapping counts (`IDMappingsID`). */
  const IdBinaryData := 0
  const IdKoreanFonts := 1
  const IdUserFonts := 7
  const IdBorderFills := 8
  const IdCharShapes := 9
  const IdParaShapes := 13
  const IdStyles := 14
  const IdMemoShapes := 15
  const IdHistory := 16
  const IdHistoryUser := 17
  const MaxIdMappings := 18

  /** The seven font languages, in the order their counts are stored and
      their ranges laid out in the font table. */
  const FontLanguages := 7

  // ---------------------------------------------------------------------
  // Document properties
  // ---------------------------------------------------------------------

  datatype DocumentProperty = DocumentProperty(
    nSections: u16,
    startPageNum: u16,
    startFootnoteNum: u16,
    startEndnoteNum: u16,
    startPictureNum: u16,
    startTableNum: u16,
    startMathNum: u16,
    listId: u32,
    paragraphId: u32,
    charUnitPos: u32)

  const EmptyProperty := DocumentProperty(0, 0, 0, 0, 0, 0, 0, 0, 0, 0)

  /** `ghwp_parse_document_property`: seven u16 fields, then three u32 fields. */
  function DecodeDocumentProperty(s: seq<byte>): (r: (DocumentProperty, seq<byte>))
    ensures |s| >= 26 ==> |r.1| == |s| - 26
  {
    var nSections := ReadU16(s);
    var startPage := ReadU16(nSections.1);
    var startFootnote := ReadU16(startPage.1);
    var startEndnote := ReadU16(startFootnote.1);
    var startPicture := ReadU16(startEndnote.1);
    var startTable := ReadU16(startPicture.1);
    var startMath := ReadU16(startTable.1);
    var listId := ReadU32(startMath.1);
    var paragraphId := ReadU32(listId.1);
    var charUnitPos := ReadU32(paragraphId.1);
    (DocumentProperty(nSections.0, startPage.0, startFootnote.0, startEndnote.0,
                      startPicture.0, startTable.0, startMath.0,
                      listId.0, paragraphId.0, charUnitPos.0),
     charUnitPos.1)
  }

  function PutDocumentProperty(p: DocumentProperty, t: seq<byte>): (r: seq<byte>)
    ensures DecodeDocumentProperty(r) == (p, t)
    ensures |r| == |t| + 26
  {
    PutU16(p.nSections, PutU16(p.startPageNum, PutU16(p.startFootnoteNum,
    PutU16(p.startEndnoteNum, PutU16(p.startPictureNum, PutU16(p.startTableNum,
    PutU16(p.startMathNum, PutU32(p.listId, PutU32(p.paragraphId,
    PutU32(p.charUnitPos, t))))))))))
  }

  // ---------------------------------------------------------------------
  // ID mappings
  // ---------------------------------------------------------------------

  /** How many counts an ID_MAPPINGS record holds for a document version:
      15, one more (memo shapes) from 5.0.2.1, two more (history, history
      user) from 5.0.3.2. */
  function IdMappingCount(v: Version): (n: nat)
    ensures n <= MaxIdMappings
    ensures n == 15 || n == 16 || n == MaxIdMappings
    ensures n > IdMemoShapes <==> AtLeast(v, 5, 0, 2, 1)
    ensures n > IdHistoryUser <==> AtLeast(v, 5, 0, 3, 2)
  {
    if AtLeast(v, 5, 0, 3, 2) then
      AtLeastMonotone(v, Version(5, 0, 3, 2), Version(5, 0, 2, 1));
      18
    else if AtLeast(v, 5, 0, 2, 1) then 16
    else 15
  }

  /** `ghwp_parse_document_id_mapping`, the counting part: the first
      `IdMappingCount(v)` counts are read in order and the others keep
      their previous values. */
  function DecodeIdMappings(v: Version, num: seq<u32>, s: seq<byte>): (r: (seq<u32>, seq<byte>))
    requires |num| == MaxIdMappings
    ensures |r.0| == MaxIdMappings
    ensures forall i :: IdMappingCount(v) <= i < MaxIdMappings ==> r.0[i] == num[i]
    ensures |s| >= 4 * IdMappingCount(v) ==> r.1 == s[4 * IdMappingCount(v)..]
  {
    var n := IdMappingCount(v);
    var counts := ReadU32s(n, s);
    (counts.0 + num[n..], counts.1)
  }

  /** The counts laid out by an encoder are read back in order, and the
      counts the version does not carry are untouched. */
  lemma IdMappingsRoundTrip(v: Version, num: seq<u32>, counts: seq<u32>, t: seq<byte>)
    requires |num| == MaxIdMappings && |counts| == IdMappingCount(v)
    ensures DecodeIdMappings(v, num, PutU32s(counts, t)) == (counts + num[|counts|..], t)
  {
  }

  /** Number of fonts of all seven languages: the size of the font table. */
  function FontTotal(num: seq<u32>): nat
    requires |num| == MaxIdMappings
  {
    num[1] as int + num[2] + num[3] + num[4] + num[5] + num[6] + num[7]
  }

  /** Index in the font table of the first font of language `k`
      (0 Korean, 1 English, 2 Hanja, 3 Japanese, 4 Others, 5 Symbol, 6 User):
      each language's range starts where the previous one ends. */
  function FontBase(num: seq<u32>, k: nat): nat
    requires |num| == MaxIdMappings && k <= FontLanguages
  {
    if k == 0 then 0 else FontBase(num, k - 1) + num[IdKoreanFonts + k - 1]
  }

  /** The seven language ranges tile the font table: they start at 0, each
      has its language's count, and together they end at the total. */
  lemma FontRangesTile(num: seq<u32>)
    requires |num| == MaxIdMappings
    ensures FontBase(num, 0) == 0
    ensures forall k :: 0 <= k < FontLanguages ==>
              FontBase(num, k + 1) - FontBase(num, k) == num[IdKoreanFonts + k]
    ensures FontBase(num, FontLanguages) == FontTotal(num)
  {
    assert FontBase(num, 1) == num[1];
    assert FontBase(num, 2) == num[1] as int + num[2];
    assert FontBase(num, 3) == num[1] as int + num[2] + num[3];
    assert FontBase(num, 4) == num[1] as int + num[2] + num[3] + num[4];
    assert FontBase(num, 5) == num[1] as int + num[2] + num[3] + num[4] + num[5];
    assert FontBase(num, 6) == num[1] as int + num[2] + num[3] + num[4] + num[5] + num[6];
  }

  /** The language whose range holds font index `idx`. */
  function LanguageOf(num: seq<u32>, idx: nat): (k: nat)
    requires |num| == MaxIdMappings && idx < FontTotal(num)
    ensures k < FontLanguages
    ensures FontBase(num, k) <= idx < FontBase(num, k + 1)
  {
    FontRangesTile(num);
    FontBaseMonotone(num);
    LanguageFrom(num, idx, FontLanguages - 1)
  }

  function LanguageFrom(num: seq<u32>, idx: nat, k: nat): (r: nat)
    requires |num| == MaxIdMappings && k < FontLanguages
    requires idx < FontBase(num, k + 1)
    ensures r <= k
    ensures FontBase(num, r) <= idx < FontBase(num, r + 1)
    decreases k
  {
    if FontBase(num, k) <= idx || k == 0 then k else LanguageFrom(num, idx, k - 1)
  }

  lemma FontBaseMonotone(num: seq<u32>)
    requires |num| == MaxIdMappings
    ensures forall j, k :: 0 <= j <= k <= FontLanguages ==> FontBase(num, j) <= FontBase(num, k)
  {
    forall j, k | 0 <= j <= k <= FontLanguages
      ensures FontBase(num, j) <= FontBase(num, k)
    {
      FontBaseUp(num, j, k);
    }
  }

  lemma {:induction false} FontBaseUp(num: seq<u32>, j: nat, k: nat)
    requires |num| == MaxIdMappings && j <= k <= FontLanguages
    ensures FontBase(num, j) <= FontBase(num, k)
    decreases k - j
  {
    if j < k {
      FontBaseUp(num, j, k - 1);
    }
  }

  /** Every font index below the total lies in exactly one language range. */
  lemma FontLanguageUnique(num: seq<u32>, idx: nat, k: nat)
    requires |num| == MaxIdMappings && idx < FontTotal(num) && k < FontLanguages
    requires FontBase(num, k) <= idx < FontBase(num, k + 1)
    ensures k == LanguageOf(num, idx)
  {
    var j := LanguageOf(num, idx);
    if j < k {
      FontBaseUp(num, j + 1, k);
    } else if k < j {
      FontBaseUp(num, k + 1, j);
    }
  }

  // ---------------------------------------------------------------------
  // Bin data
  // ---------------------------------------------------------------------

  const BinDataLink := 0
  const BinDataEmbed := 1
  const BinDataStore := 2

  /** `attr & BINDATA_ATTR_TYPE_MASK`, bits 0-3. */
  function BinDataType(attr: u16): nat { Bits(attr, 0, 4) }

  /** `(attr & BINDATA_ATTR_COMPRESS_MASK) >> 4`, bits 4-7. */
  function BinDataCompress(attr: u16): nat { Bits(attr, 4, 4) }

  /** `(attr & BINDATA_ATTR_ACCESS_MASK) >> 8`, bits 8-11. */
  function BinDataAccess(attr: u16): nat { Bits(attr, 8, 4) }

  /** The three attribute masks are disjoint: together they are exactly the
      low twelve bits, each field in its own nibble. */
  lemma BinDataMasksDisjoint(attr: u16)
    ensures attr % 0x1000 == BinDataType(attr) + 0x10 * BinDataCompress(attr) + 0x100 * BinDataAccess(attr)
  {
    assert Pow2(0) == 1 && Pow2(4) == 0x10 && Pow2(8) == 0x100;
    var lo := attr % 0x10;
    var mid := (attr / 0x10) % 0x10;
    var hi := (attr / 0x100) % 0x10;
    assert attr / 0x10 == 0x10 * (attr / 0x100) + mid;
    assert attr == 0x10 * (attr / 0x10) + lo;
    assert attr / 0x100 == 0x10 * (attr / 0x1000) + hi;
    assert attr == 0x1000 * (attr / 0x1000) + (lo + 0x10 * mid + 0x100 * hi);
  }

  datatype BinDataItem = BinDataItem(
    attr: u16,
    linkAbsPath: Option<seq<u16>>,
    linkRelPath: Option<seq<u16>>,
    bindataId: u16,
    ext: Option<seq<u16>>)

  const EmptyBinData := BinDataItem(0, None, None, 0, None)

  /** The fields a bin-data item carries for its type: a link has two paths
      and no id, anything else an id and no paths, and only an embedded item
      an extension. */
  predicate BinDataShaped(b: BinDataItem)
  {
    && (b.linkAbsPath.Some? <==> BinDataType(b.attr) == BinDataLink)
    && (b.linkRelPath.Some? <==> BinDataType(b.attr) == BinDataLink)
    && (BinDataType(b.attr) == BinDataLink ==> b.bindataId == 0)
    && (b.ext.Some? <==> BinDataType(b.attr) == BinDataEmbed)
  }

  /** `ghwp_parse_document_bin_data` into a fresh item. */
  function DecodeBinData(s: seq<byte>): (r: (BinDataItem, seq<byte>))
    ensures BinDataShaped(r.0)
  {
    var attr := ReadU16(s);
    var link :=
      if BinDataType(attr.0) == BinDataLink then
        var abs := ReadStr(attr.1);
        var rel := ReadStr(abs.1);
        (Some(abs.0), Some(rel.0), 0, rel.1)
      else
        var id := ReadU16(attr.1);
        (None, None, id.0, id.1);
    var ext :=
      if BinDataType(attr.0) == BinDataEmbed then
        var e := ReadStr(link.3);
        (Some(e.0), e.1)
      else (None, link.3);
    (BinDataItem(attr.0, link.0, link.1, link.2, ext.0), ext.1)
  }

  predicate BinDataFits(b: BinDataItem)
  {
    && BinDataShaped(b)
    && (b.linkAbsPath.Some? ==> |b.linkAbsPath.value| < 0x1_0000)
    && (b.linkRelPath.Some? ==> |b.linkRelPath.value| < 0x1_0000)
    && (b.ext.Some? ==> |b.ext.value| < 0x1_0000)
  }

  function PutBinData(b: BinDataItem, t: seq<byte>): (r: seq<byte>)
    requires BinDataFits(b)
    ensures DecodeBinData(r) == (b, t)
  {
    var ext := if b.ext.Some? then PutStr(b.ext.value, t) else t;
    var body :=
      if b.linkAbsPath.Some? then PutStr(b.linkAbsPath.value, PutStr(b.linkRelPath.value, ext))
      else PutU16(b.bindataId, ext);
    PutU16(b.attr, body)
  }

  // ---------------------------------------------------------------------
  // Font faces
  // ---------------------------------------------------------------------

  /* Attribute bits of a font face record, from the HWP 5.0 format: an
     alternative font follows (bit 7), type information follows (bit 6),
     a default font name follows (bit 5). */
  const FontAltBit := 7
  const FontTypeBit := 6
  const FontDefaultBit := 5

  datatype AltFont = AltFont(attr: u8, name: seq<u16>)

  datatype FontType = FontType(
    family: u8, serif: u8, weight: u8, proportion: u8, contrast: u8,
    stroke: u8, kind: u8, charType: u8, midline: u8, xHeight: u8)

  datatype FontFace = FontFace(
    attr: u8,
    name: seq<u16>,
    alt: Option<AltFont>,
    fontType: Option<FontType>,
    defaultName: Option<seq<u16>>)

  const EmptyFont := FontFace(0, [], None, None, None)

  /** Each optional part of a font face is present exactly when its
      attribute bit is set. */
  predicate FontShaped(f: FontFace)
  {
    && (f.alt.Some? <==> Bit(f.attr, FontAltBit))
    && (f.fontType.Some? <==> Bit(f.attr, FontTypeBit))
    && (f.defaultName.Some? <==> Bit(f.attr, FontDefaultBit))
  }

  function DecodeFontType(s: seq<byte>): (r: (FontType, seq<byte>))
    ensures |s| >= 10 ==> |r.1| == |s| - 10
  {
    var b := ReadU8s(10, s);
    (FontType(b.0[0], b.0[1], b.0[2], b.0[3], b.0[4], b.0[5], b.0[6], b.0[7], b.0[8], b.0[9]), b.1)
  }

  function PutFontType(ft: FontType, t: seq<byte>): (r: seq<byte>)
    ensures DecodeFontType(r) == (ft, t)
  {
    var bytes := [ft.family, ft.serif, ft.weight, ft.proportion, ft.contrast,
                  ft.stroke, ft.kind, ft.charType, ft.midline, ft.xHeight];
    PutU8s(bytes, t)
  }

  /** `ghwp_parse_document_font_face` into a fresh slot: the attribute byte
      and the name, then, in this order, the alternative font, the ten type
      bytes and the default name, each when its bit is set. */
  function DecodeFontFace(s: seq<byte>): (r: (FontFace, seq<byte>))
    ensures FontShaped(r.0)
  {
    var attr := ReadU8(s);
    var name := ReadStr(attr.1);
    var alt :=
      if Bit(attr.0, FontAltBit) then
        var altAttr := ReadU8(name.1);
        var altName := ReadStr(altAttr.1);
        (Some(AltFont(altAttr.0, altName.0)), altName.1)
      else (None, name.1);
    var fontType :=
      if Bit(attr.0, FontTypeBit) then
        var ft := DecodeFontType(alt.1);
        (Some(ft.0), ft.1)
      else (None, alt.1);
    var defaultName :=
      if Bit(attr.0, FontDefaultBit) then
        var d := ReadStr(fontType.1);
        (Some(d.0), d.1)
      else (None, fontType.1);
    (FontFace(attr.0, name.0, alt.0, fontType.0, defaultName.0), defaultName.1)
  }

  predicate FontFits(f: FontFace)
  {
    && FontShaped(f)
    && |f.name| < 0x1_0000
    && (f.alt.Some? ==> |f.alt.value.name| < 0x1_0000)
    && (f.defaultName.Some? ==> |f.defaultName.value| < 0x1_0000)
  }

  function PutFontFace(f: FontFace, t: seq<byte>): (r: seq<byte>)
    requires FontFits(f)
    ensures DecodeFontFace(r) == (f, t)
  {
    var defaultName := if f.defaultName.Some? then PutStr(f.defaultName.value, t) else t;
    var fontType := if f.fontType.Some? then PutFontType(f.fontType.value, defaultName) else defaultName;
    var alt := if f.alt.Some? then PutU8(f.alt.value.attr, PutStr(f.alt.value.name, fontType)) else fontType;
    PutU8(f.attr, PutStr(f.name, alt))
  }

  // ---------------------------------------------------------------------
  // Character shapes
  // ---------------------------------------------------------------------

  /** `CHAR_SHAPE_LANG_NUM`: one entry per font language. */
  const LangNum := 7

  datatype CharShape = CharShape(
    faceIds: seq<u16>,
    widths: seq<u8>,
    spaces: seq<u8>,
    relSizes: seq<u8>,
    relPositions: seq<u8>,
    defSize: i32,
    attr: u32,
    shadowSize1: i8,
    shadowSize2: i8,
    charColor: u32,
    lineColor: u32,
    shadeColor: u32,
    shadowColor: u32,
    borderFillId: u16,
    midlineColor: u32)

  const EmptyCharShape := CharShape([], [], [], [], [], 0, 0, 0, 0, 0, 0, 0, 0, 0, 0)

  /** Bytes a character shape record takes for a version: 68, two more for
      the border fill id from 5.0.2.1, four more for the midline colour
      from 5.0.3.0. */
  function CharShapeSize(v: Version): nat
  {
    68 + (if AtLeast(v, 5, 0, 2, 1) then 2 else 0) + (if AtLeast(v, 5, 0, 3, 0) then 4 else 0)
  }

  /** The five per-language arrays that open a character shape: face ids,
      widths, spacings, relative sizes and relative positions, 42 bytes. */
  function ReadLangArrays(s: seq<byte>): (r: (seq<u16>, seq<u8>, seq<u8>, seq<u8>, seq<u8>, seq<byte>))
    ensures |r.0| == LangNum && |r.1| == LangNum && |r.2| == LangNum && |r.3| == LangNum && |r.4| == LangNum
    ensures |s| >= 42 ==> r.5 == s[42..]
  {
    var faceIds := ReadU16s(LangNum, s);
    var widths := ReadU8s(LangNum, faceIds.1);
    var spaces := ReadU8s(LangNum, widths.1);
    var relSizes := ReadU8s(LangNum, spaces.1);
    var relPositions := ReadU8s(LangNum, relSizes.1);
    (faceIds.0, widths.0, spaces.0, relSizes.0, relPositions.0, relPositions.1)
  }

  /** `ghwp_parse_document_char_shape` into a fresh slot. */
  function DecodeCharShape(v: Version, s: seq<byte>): (r: (CharShape, seq<byte>))
    ensures |r.0.faceIds| == LangNum && |r.0.widths| == LangNum && |r.0.spaces| == LangNum
    ensures |r.0.relSizes| == LangNum && |r.0.relPositions| == LangNum
    ensures !AtLeast(v, 5, 0, 2, 1) ==> r.0.borderFillId == 0
    ensures !AtLeast(v, 5, 0, 3, 0) ==> r.0.midlineColor == 0
    ensures |s| >= CharShapeSize(v) ==> |r.1| == |s| - CharShapeSize(v)
  {
    var langs := ReadLangArrays(s);
    var faceIds := langs.0;
    var widths := langs.1;
    var spaces := langs.2;
    var relSizes := langs.3;
    var relPositions := langs.4;
    var defSize := ReadI32(langs.5);
    var attr := ReadU32(defSize.1);
    var shadow1 := ReadI8(attr.1);
    var shadow2 := ReadI8(shadow1.1);
    var charColor := ReadU32(shadow2.1);
    var lineColor := ReadU32(charColor.1);
    var shadeColor := ReadU32(lineColor.1);
    var shadowColor := ReadU32(shadeColor.1);
    var borderFill := if AtLeast(v, 5, 0, 2, 1) then ReadU16(shadowColor.1) else (0, shadowColor.1);
    var midline := if AtLeast(v, 5, 0, 3, 0) then ReadU32(borderFill.1) else (0, borderFill.1);
    (CharShape(faceIds, widths, spaces, relSizes, relPositions,
               defSize.0, attr.0, shadow1.0, shadow2.0,
               charColor.0, lineColor.0, shadeColor.0, shadowColor.0,
               borderFill.0, midline.0),
     midline.1)
  }

  /** A character shape a record of version `v` can hold. */
  predicate CharShapeFits(v: Version, c: CharShape)
  {
    && |c.faceIds| == LangNum && |c.widths| == LangNum && |c.spaces| == LangNum
    && |c.relSizes| == LangNum && |c.relPositions| == LangNum
    && (!AtLeast(v, 5, 0, 2, 1) ==> c.borderFillId == 0)
    && (!AtLeast(v, 5, 0, 3, 0) ==> c.midlineColor == 0)
  }

  function PutCharShape(v: Version, c: CharShape, t: seq<byte>): (r: seq<byte>)
    requires CharShapeFits(v, c)
    ensures DecodeCharShape(v, r) == (c, t)
    ensures |r| == |t| + CharShapeSize(v)
  {
    var midline := if AtLeast(v, 5, 0, 3, 0) then PutU32(c.midlineColor, t) else t;
    var borderFill := if AtLeast(v, 5, 0, 2, 1) then PutU16(c.borderFillId, midline) else midline;
    PutU16s(c.faceIds, PutU8s(c.widths, PutU8s(c.spaces, PutU8s(c.relSizes,
    PutU8s(c.relPositions, PutI32(c.defSize, PutU32(c.attr, PutI8(c.shadowSize1,
    PutI8(c.shadowSize2, PutU32(c.charColor, PutU32(c.lineColor, PutU32(c.shadeColor,
    PutU32(c.shadowColor, borderFill)))))))))))))
  }

  // ---------------------------------------------------------------------
  // Paragraph shapes
  // ---------------------------------------------------------------------

  datatype ParaShape = ParaShape(
    attr1: u32,
    lMargin: i32,
    rMargin: i32,
    indent: i32,
    uSpacing: i32,
    dSpacing: i32,
    lSpacingOld: i32,
    tabDefId: u16,
    numberingId: u16,
    borderFillId: u16,
    borderLSpacing: i16,
    borderRSpacing: i16,
    borderUSpacing: i16,
    borderDSpacing: i16,
    attr2: u32,
    attr3: u32)

  const EmptyParaShape := ParaShape(0, 0, 0, 0, 0, 0, 0, 0, 0, 0, 0, 0, 0, 0, 0, 0)

  /** Bytes a paragraph shape record takes: 42, whichever of the old line
      spacing and the second attribute word the version carries included,
      and four more for the third attribute word before 5.0.2.5. */
  function ParaShapeSize(v: Version): nat
  {
    42 + (if AtLeast(v, 5, 0, 2, 5) then 0 else 4)
  }

  /** The first attribute word, the left and right margins, the indent and
      the spacing above and below that open a paragraph shape, 24 bytes. */
  function ReadParaShapeHead(s: seq<byte>): (r: (u32, i32, i32, i32, i32, i32, seq<byte>))
    ensures |s| >= 24 ==> r.6 == s[24..]
  {
    var attr1 := ReadU32(s);
    var lMargin := ReadI32(attr1.1);
    var rMargin := ReadI32(lMargin.1);
    var indent := ReadI32(rMargin.1);
    var uSpacing := ReadI32(indent.1);
    var dSpacing := ReadI32(uSpacing.1);
    (attr1.0, lMargin.0, rMargin.0, indent.0, uSpacing.0, dSpacing.0, dSpacing.1)
  }

  /** The tab definition, numbering and border fill ids and the four
      border spacings of a paragraph shape, 14 bytes. */
  function ReadParaShapeIds(s: seq<byte>): (r: (u16, u16, u16, i16, i16, i16, i16, seq<byte>))
    ensures |s| >= 14 ==> r.7 == s[14..]
  {
    var tabDef := ReadU16(s);
    var numbering := ReadU16(tabDef.1);
    var borderFill := ReadU16(numbering.1);
    var borderL := ReadI16(borderFill.1);
    var borderR := ReadI16(borderL.1);
    var borderU := ReadI16(borderR.1);
    var borderD := ReadI16(borderU.1);
    (tabDef.0, numbering.0, borderFill.0, borderL.0, borderR.0, borderU.0, borderD.0, borderD.1)
  }

  /** `ghwp_parse_document_para_shape` into a fresh slot. */
  function DecodeParaShape(v: Version, s: seq<byte>): (r: (ParaShape, seq<byte>))
    ensures AtLeast(v, 5, 0, 1, 7) ==> r.0.lSpacingOld == 0
    ensures !AtLeast(v, 5, 0, 1, 7) ==> r.0.attr2 == 0
    ensures AtLeast(v, 5, 0, 2, 5) ==> r.0.attr3 == 0
    ensures |s| >= ParaShapeSize(v) ==> |r.1| == |s| - ParaShapeSize(v)
  {
    var head := ReadParaShapeHead(s);
    var lSpacingOld := if !AtLeast(v, 5, 0, 1, 7) then ReadI32(head.6) else (0, head.6);
    var mid := ReadParaShapeIds(lSpacingOld.1);
    var attr2 := if AtLeast(v, 5, 0, 1, 7) then ReadU32(mid.7) else (0, mid.7);
    var attr3 := if !AtLeast(v, 5, 0, 2, 5) then ReadU32(attr2.1) else (0, attr2.1);
    (ParaShape(head.0, head.1, head.2, head.3, head.4, head.5,
               lSpacingOld.0, mid.0, mid.1, mid.2,
               mid.3, mid.4, mid.5, mid.6, attr2.0, attr3.0),
     attr3.1)
  }

  /** A paragraph shape a record of version `v` can hold. */
  predicate ParaShapeFits(v: Version, p: ParaShape)
  {
    && (AtLeast(v, 5, 0, 1, 7) ==> p.lSpacingOld == 0)
    && (!AtLeast(v, 5, 0, 1, 7) ==> p.attr2 == 0)
    && (AtLeast(v, 5, 0, 2, 5) ==> p.attr3 == 0)
  }

  function PutParaShape(v: Version, p: ParaShape, t: seq<byte>): (r: seq<byte>)
    requires ParaShapeFits(v, p)
    ensures DecodeParaShape(v, r) == (p, t)
    ensures |r| == |t| + ParaShapeSize(v)
  {
    var attr3 := if !AtLeast(v, 5, 0, 2, 5) then PutU32(p.attr3, t) else t;
    var attr2 := if AtLeast(v, 5, 0, 1, 7) then PutU32(p.attr2, attr3) else attr3;
    var borders := PutI16(p.borderLSpacing, PutI16(p.borderRSpacing,
                   PutI16(p.borderUSpacing, PutI16(p.borderDSpacing, attr2))));
    var ids := PutU16(p.tabDefId, PutU16(p.numberingId, PutU16(p.borderFillId, borders)));
    var lSpacingOld := if !AtLeast(v, 5, 0, 1, 7) then PutI32(p.lSpacingOld, ids) else ids;
    PutU32(p.attr1, PutI32(p.lMargin, PutI32(p.rMargin, PutI32(p.indent,
    PutI32(p.uSpacing, PutI32(p.dSpacing, lSpacingOld))))))
  }
}

=== FILE: docinfo_stream.dfy ===
/**
 The DocInfo stream pass (`_ghwp_file_v5_parse_doc_info`, ghwp-file-v5.c):
 a fold over the stream's records that dispatches on the tag. One counter
 per indexed record kind starts at 0 and rises by one for every record of
 that kind, so the k-th record of a kind is decoded into slot k of its
 table. An ID_MAPPINGS record sizes the four tables afresh.

 The original writes a bin-data item without checking its index against
 the table size; that write is outside the table when there are more
 BIN_DATA records than the ID mappings announced, which the model reports
 as a failure of the pass.
 */
module DocInfoStream {
  import opened Wrappers
  import opened Bytes
  import opened Record
  import opened DocInfo

  /* DocInfo record tags (HWPTAG_BEGIN = 0x10, from the HWP 5.0 format). */
  const TagDocumentProperties := 0x10
  const TagIdMappings := 0x11
  const TagBinData := 0x12
  const TagFaceName := 0x13
  const TagCharShape := 0x15
  const TagParaShape := 0x19

  /** The DocInfo part of a document: properties, ID-mapping counts and the
      four tables they size. The font table holds the fonts of all seven
      languages one after the other (see `FontBase`). */
  datatype Tables = Tables(
    prop: DocumentProperty,
    idMaps: seq<u32>,
    binItems: seq<BinDataItem>,
    fonts: seq<FontFace>,
    charShapes: seq<CharShape>,
    paraShapes: seq<ParaShape>)

  /** `n_bindata`, `n_fonts`, `n_char_shapes`, `n_para_shapes`. */
  datatype Counters = Counters(nBinData: nat, nFonts: nat, nCharShapes: nat, nParaShapes: nat)

  datatype State = State(tables: Tables, counters: Counters)

  /** Every table has the size its ID-mapping count gives it. */
  predicate Sized(d: Tables)
  {
    && |d.idMaps| == MaxIdMappings
    && |d.binItems| == d.idMaps[IdBinaryData]
    && |d.fonts| == FontTotal(d.idMaps)
    && |d.charShapes| == d.idMaps[IdCharShapes]
    && |d.paraShapes| == d.idMaps[IdParaShapes]
  }

  /** A freshly created document: all counts zero, all tables empty. */
  const Initial := State(Tables(EmptyProperty, [0, 0, 0, 0, 0, 0, 0, 0, 0, 0, 0, 0, 0, 0, 0, 0, 0, 0], [], [], [], []),
                         Counters(0, 0, 0, 0))

  /** `ghwp_parse_document_id_mapping`: the counts are read, and each table
      is allocated afresh with its count of zero-filled entries. */
  function SetIdMappings(v: Version, d: Tables, s: seq<byte>): (r: Tables)
    requires |d.idMaps| == MaxIdMappings
    ensures Sized(r)
    ensures r.idMaps == DecodeIdMappings(v, d.idMaps, s).0
    ensures r.prop == d.prop
    ensures forall i :: 0 <= i < |r.binItems| ==> r.binItems[i] == EmptyBinData
    ensures forall i :: 0 <= i < |r.fonts| ==> r.fonts[i] == EmptyFont
    ensures forall i :: 0 <= i < |r.charShapes| ==> r.charShapes[i] == EmptyCharShape
    ensures forall i :: 0 <= i < |r.paraShapes| ==> r.paraShapes[i] == EmptyParaShape
  {
    Allocate(d.prop, DecodeIdMappings(v, d.idMaps, s).0)
  }

  /** Tables of the sizes the counts give, every entry zero. */
  function Allocate(prop: DocumentProperty, num: seq<u32>): Tables
    requires |num| == MaxIdMappings
  {
    Tables(prop, num,
           seq(num[IdBinaryData], _ => EmptyBinData),
           seq(FontTotal(num), _ => EmptyFont),
           seq(num[IdCharShapes], _ => EmptyCharShape),
           seq(num[IdParaShapes], _ => EmptyParaShape))
  }

  /** `ghwp_parse_document_bin_data(doc, ctx, idx)`: the item is decoded into
      slot `idx`, which the original does not check. */
  function StoreBinData(d: Tables, idx: nat, s: seq<byte>): (r: Tables)
    requires idx < |d.binItems|
    ensures |r.binItems| == |d.binItems|
    ensures r.binItems[idx] == DecodeBinData(s).0
    ensures forall j :: 0 <= j < |d.binItems| && j != idx ==> r.binItems[j] == d.binItems[j]
    ensures r.(binItems := d.binItems) == d
  {
    d.(binItems := d.binItems[idx := DecodeBinData(s).0])
  }

  /** `ghwp_parse_document_font_face(doc, ctx, idx)`: an index at or beyond
      the total number of fonts writes nothing. */
  function StoreFont(d: Tables, idx: nat, s: seq<byte>): (r: Tables)
    requires Sized(d)
    ensures idx < FontTotal(d.idMaps) ==> r.fonts == d.fonts[idx := DecodeFontFace(s).0]
    ensures idx >= FontTotal(d.idMaps) ==> r == d
    ensures r.(fonts := d.fonts) == d
  {
    if idx < FontTotal(d.idMaps) then d.(fonts := d.fonts[idx := DecodeFontFace(s).0]) else d
  }

  /** `ghwp_parse_document_char_shape(doc, ctx, idx)`, guarded by the count. */
  function StoreCharShape(v: Version, d: Tables, idx: nat, s: seq<byte>): (r: Tables)
    requires Sized(d)
    ensures idx < d.idMaps[IdCharShapes] ==> r.charShapes == d.charShapes[idx := DecodeCharShape(v, s).0]
    ensures idx >= d.idMaps[IdCharShapes] ==> r == d
    ensures r.(charShapes := d.charShapes) == d
  {
    if idx < d.idMaps[IdCharShapes] then d.(charShapes := d.charShapes[idx := DecodeCharShape(v, s).0])
    else d
  }

  /** `ghwp_parse_document_para_shape(doc, ctx, idx)`, guarded by the count. */
  function StoreParaShape(v: Version, d: Tables, idx: nat, s: seq<byte>): (r: Tables)
    requires Sized(d)
    ensures idx < d.idMaps[IdParaShapes] ==> r.paraShapes == d.paraShapes[idx := DecodeParaShape(v, s).0]
    ensures idx >= d.idMaps[IdParaShapes] ==> r == d
    ensures r.(paraShapes := d.paraShapes) == d
  {
    if idx < d.idMaps[IdParaShapes] then d.(paraShapes := d.paraShapes[idx := DecodeParaShape(v, s).0])
    else d
  }

  /** One turn of the dispatch loop. */
  function Step(v: Version, st: State, rec: Record): (r: Result<State, string>)
    requires Sized(st.tables)
    ensures r.Success? ==> Sized(r.value.tables)
    ensures r.Failure? <==> rec.tag == TagBinData && st.counters.nBinData >= |st.tables.binItems|
  {
    var d := st.tables;
    var c := st.counters;
    if rec.tag == TagDocumentProperties then
      Success(State(d.(prop := DecodeDocumentProperty(rec.payload).0), c))
    else if rec.tag == TagIdMappings then
      Success(State(SetIdMappings(v, d, rec.payload), c))
    else if rec.tag == TagBinData then
      if c.nBinData < |d.binItems| then
        Success(State(StoreBinData(d, c.nBinData, rec.payload), c.(nBinData := c.nBinData + 1)))
      else Failure("bin data index out of range")
    else if rec.tag == TagFaceName then
      Success(State(StoreFont(d, c.nFonts, rec.payload), c.(nFonts := c.nFonts + 1)))
    else if rec.tag == TagCharShape then
      Success(State(StoreCharShape(v, d, c.nCharShapes, rec.payload), c.(nCharShapes := c.nCharShapes + 1)))
    else if rec.tag == TagParaShape then
      Success(State(StoreParaShape(v, d, c.nParaShapes, rec.payload), c.(nParaShapes := c.nParaShapes + 1)))
    else
      Success(st)
  }

  /** Number of records with the given tag. */
  function Count(recs: seq<Record>, tag: nat): (n: nat)
    ensures n <= |recs|
  {
    if |recs| == 0 then 0
    else Count(recs[..|recs| - 1], tag) + (if recs[|recs| - 1].tag == tag then 1 else 0)
  }

  /** Counting is additive over concatenated streams, and one record counts
      1 exactly when it has the tag. */
  lemma {:induction false} CountConcat(a: seq<Record>, b: seq<Record>, tag: nat)
    ensures Count(a + b, tag) == Count(a, tag) + Count(b, tag)
    ensures |b| == 1 ==> Count(b, tag) == (if b[0].tag == tag then 1 else 0)
  {
    if |b| == 1 {
      assert b[..0] == [];
    }
    if b == [] {
      assert a + b == a;
    } else {
      var b' := b[..|b| - 1];
      CountConcat(a, b', tag);
      assert (a + b)[..|a + b| - 1] == a + b';
    }
  }

  /** The whole stream, record by record; the first failing record ends it. */
  function Parse(v: Version, recs: seq<Record>): (r: Result<State, string>)
    ensures r.Success? ==> Sized(r.value.tables)
    ensures r.Success? ==> r.value.counters == Counters(Count(recs, TagBinData), Count(recs, TagFaceName),
                                                        Count(recs, TagCharShape), Count(recs, TagParaShape))
  {
    if |recs| == 0 then Success(Initial)
    else
      match Parse(v, recs[..|recs| - 1])
      case Failure(e) => Failure(e)
      case Success(st) => Step(v, st, recs[|recs| - 1])
  }

  /** A record whose tag the pass does not handle leaves the tables and the
      counters exactly as they were. */
  lemma UnknownTagChangesNothing(v: Version, recs: seq<Record>, rec: Record)
    requires rec.tag !in {TagDocumentProperties, TagIdMappings, TagBinData, TagFaceName, TagCharShape, TagParaShape}
    ensures Parse(v, recs + [rec]) == Parse(v, recs)
  {
    assert (recs + [rec])[..|recs|] == recs;
  }

  /** The k-th FACE_NAME record (counting from 0) is decoded into font slot k
      when k is below the total number of fonts, and changes no table
      otherwise; no other table is touched. */
  lemma FaceNameGoesToNextSlot(v: Version, recs: seq<Record>, rec: Record)
    requires rec.tag == TagFaceName
    requires Parse(v, recs).Success?
    ensures Parse(v, recs + [rec]).Success?
    ensures var d := Parse(v, recs).value.tables;
            var k := Count(recs, TagFaceName);
            var d' := Parse(v, recs + [rec]).value.tables;
            && (k < |d.fonts| ==> d'.fonts == d.fonts[k := DecodeFontFace(rec.payload).0])
            && (k >= |d.fonts| ==> d'.fonts == d.fonts)
            && d'.(fonts := d.fonts) == d
  {
    assert (recs + [rec])[..|recs|] == recs;
  }

  /** The k-th BIN_DATA record goes to bin-data slot k; the pass fails once
      there are more BIN_DATA records than the count announced. */
  lemma BinDataGoesToNextSlot(v: Version, recs: seq<Record>, rec: Record)
    requires rec.tag == TagBinData
    requires Parse(v, recs).Success?
    ensures var d := Parse(v, recs).value.tables;
            var k := Count(recs, TagBinData);
            && (Parse(v, recs + [rec]).Success? <==> k < |d.binItems|)
            && (k < |d.binItems| ==>
                  Parse(v, recs + [rec]).value.tables == d.(binItems := d.binItems[k := DecodeBinData(rec.payload).0]))
  {
    assert (recs + [rec])[..|recs|] == recs;
  }

  /** The k-th CHAR_SHAPE and PARA_SHAPE records go to slot k of their tables,
      guarded by the counts. */
  lemma ShapesGoToNextSlot(v: Version, recs: seq<Record>, rec: Record)
    requires rec.tag == TagCharShape || rec.tag == TagParaShape
    requires Parse(v, recs).Success?
    ensures Parse(v, recs + [rec]).Success?
    ensures var d := Parse(v, recs).value.tables;
            var d' := Parse(v, recs + [rec]).value.tables;
            var k := Count(recs, rec.tag);
            if rec.tag == TagCharShape then
              d' == (if k < |d.charShapes| then d.(charShapes := d.charShapes[k := DecodeCharShape(v, rec.payload).0]) else d)
            else
              d' == (if k < |d.paraShapes| then d.(paraShapes := d.paraShapes[k := DecodeParaShape(v, rec.payload).0]) else d)
  {
    assert (recs + [rec])[..|recs|] == recs;
  }
}

=== FILE: file_header.dfy ===
/**
 The file header stream of an HWP v5 file (`ghwp_file_v5_decode_file_header`,
 ghwp-file-v5.c): a 32-byte NUL-padded signature, the four version bytes
 stored extra version first, and a little-endian property word whose low
 twelve bits announce compression, encryption and the other document
 properties. A header shorter than 40 bytes is ignored.
 */
module FileHeader {
  import opened Wrappers
  import opened Bytes
  import opened Record

  /** Bytes the decoder looks at: signature, version, properties. */
  const HeaderSize := 40
  const SignatureSize := 32

  /** Indices of the property flags, in the order of their bits. */
  const Compress := 0
  const Encrypt := 1
  const Distribute := 2
  const Script := 3
  const Drm := 4
  const XmlTemplate := 5
  const History := 6
  const Sign := 7
  const CertificateEncrypt := 8
  const SignSpare := 9
  const CertificateDrm := 10
  const Ccl := 11
  const FlagCount := 12

  /** What the file object keeps of the header: the signature (null before
      any header was read), the version, and one boolean per property bit. */
  datatype Header = Header(signature: Option<seq<byte>>, version: Version, flags: seq<bool>)

  predicate WellFormed(h: Header)
  {
    |h.flags| == FlagCount
  }

  /** A fresh file object: no signature, version 0.0.0.0, every flag false. */
  const Blank := Header(None, Version(0, 0, 0, 0),
                        [false, false, false, false, false, false, false, false, false, false, false, false])

  /** `g_strndup(buf, n)`: the bytes before the first NUL among the first `n`. */
  function CString(buf: seq<byte>, n: nat): (r: seq<byte>)
    requires n <= |buf|
    decreases n
    ensures |r| <= n && r == buf[..|r|]
    ensures forall i :: 0 <= i < |r| ==> r[i] != 0
    ensures |r| < n ==> buf[|r|] == 0
  {
    if n == 0 || buf[0] == 0 then []
    else [buf[0]] + CString(buf[1..], n - 1)
  }

  /** The property flags a word announces: flag `i` is bit `i`. */
  function FlagsOf(prop: u32): (r: seq<bool>)
    ensures |r| == FlagCount
    ensures forall i :: 0 <= i < FlagCount ==> (r[i] <==> Bit(prop, i))
  {
    seq(FlagCount, i requires 0 <= i < FlagCount => Bit(prop, i))
  }

  /** `ghwp_file_v5_decode_file_header` applied to a file object holding `h`.
      A flag is only ever set, never cleared: a clear bit leaves the flag as
      it was. */
  function DecodeFileHeader(h: Header, buf: seq<byte>): (r: Header)
    requires WellFormed(h)
    ensures WellFormed(r)
    ensures |buf| < HeaderSize ==> r == h
    ensures |buf| >= HeaderSize ==>
              && r.signature.Some?
              && |r.signature.value| <= SignatureSize
              && r.signature.value == buf[..|r.signature.value|]
              && (forall i :: 0 <= i < |r.signature.value| ==> r.signature.value[i] != 0)
              && (|r.signature.value| < SignatureSize ==> buf[|r.signature.value|] == 0)
              && r.version == Version(buf[35], buf[34], buf[33], buf[32])
    ensures |buf| >= HeaderSize ==>
              forall i :: 0 <= i < FlagCount ==> (r.flags[i] <==> h.flags[i] || Bit(Le32(buf[36..40]), i))
    ensures forall i :: 0 <= i < FlagCount && h.flags[i] ==> r.flags[i]
  {
    if |buf| < HeaderSize then h
    else
      var prop := Le32(buf[36..40]);
      Header(Some(CString(buf, SignatureSize)),
             Version(buf[35], buf[34], buf[33], buf[32]),
             seq(FlagCount, i requires 0 <= i < FlagCount => h.flags[i] || Bit(prop, i)))
  }

  /** The 40 header bytes for a signature of at most 32 non-NUL bytes, a
      version and a property word. */
  function EncodeFileHeader(signature: seq<byte>, v: Version, prop: u32): (r: seq<byte>)
    requires |signature| <= SignatureSize
    ensures |r| == HeaderSize
  {
    signature + seq(SignatureSize - |signature|, _ => 0) + [v.extra, v.micro, v.minor, v.major] + Enc32(prop)
  }

  /** A NUL-padded field reads back as the bytes before the padding. */
  lemma {:induction false} CStringOfPadded(signature: seq<byte>, rest: seq<byte>, n: nat)
    requires |signature| <= n <= |signature| + |rest|
    requires forall i :: 0 <= i < |signature| ==> signature[i] != 0
    requires |signature| < n ==> rest[0] == 0
    decreases n
    ensures CString(signature + rest, n) == signature
  {
    var buf := signature + rest;
    if signature == [] {
      assert n == 0 || buf[0] == 0;
    } else {
      assert buf[0] == signature[0];
      assert buf[1..] == signature[1..] + rest;
      CStringOfPadded(signature[1..], rest, n - 1);
      assert [signature[0]] + signature[1..] == signature;
    }
  }

  /** Decoding the bytes of a header into a blank file object gives back
      the signature, the version and exactly the flags of the property
      word. */
  lemma FileHeaderRoundTrip(signature: seq<byte>, v: Version, prop: u32, tail: seq<byte>)
    requires |signature| <= SignatureSize
    requires forall i :: 0 <= i < |signature| ==> signature[i] != 0
    ensures DecodeFileHeader(Blank, EncodeFileHeader(signature, v, prop) + tail)
            == Header(Some(signature), v, FlagsOf(prop))
  {
    var buf := EncodeFileHeader(signature, v, prop) + tail;
    var pad := seq(SignatureSize - |signature|, _ => 0);
    var rest := pad + [v.extra, v.micro, v.minor, v.major] + Enc32(prop) + tail;
    assert buf == signature + rest;
    CStringOfPadded(signature, rest, SignatureSize);
    assert buf[36..40] == Enc32(prop);
    Le32Enc32(prop);
    var r := DecodeFileHeader(Blank, buf);
    assert r.flags == FlagsOf(prop);
  }
}

=== FILE: models.dfy ===
/**
 The body-text objects of ghwp-models.c/h: paragraphs with their header and
 data arrays, tables with their common object header and attributes, table
 cells, and the paragraph link that continues a paragraph on the next page.

 Paragraphs, tables and cells refer to one another by index into the arenas
 of the body-text pass (see BodyText); `table`, `link` and a cell's
 `paragraphs` are such indices. The original shares a paragraph's arrays
 between the two halves of a split by reference counting; the arrays are
 complete before any split happens, so the model copies them.
 */
module Models {
  import opened Wrappers
  import opened Bytes
  import opened Record

  // ---------------------------------------------------------------------
  // Attribute bit layouts (ghwp-models.h)
  // ---------------------------------------------------------------------

  /** The fields of a common object's attribute word as (first bit, width):
      like-text, reserved, affect-line, vertical relative-to, vertical
      arrangement, horizontal relative-to, horizontal arrangement,
      allow-overlap, width start, height start, text flow, text side,
      category. */
  const ObjAttrFields: seq<(nat, nat)> :=
    [(0, 1), (1, 1), (2, 1), (3, 2), (5, 3), (8, 2), (10, 3), (14, 1), (15, 3), (18, 2), (21, 3), (24, 2), (26, 2)]

  /** The LINESEG tag flags: page start, column start, empty, line start,
      line end, hyphen, indent, paragraph heading, property. */
  const LineSegTagBits: seq<nat> := [0, 1, 16, 17, 18, 19, 20, 21, 31]

  /** Bit ranges listed in ascending order that do not overlap. */
  predicate Disjoint(fields: seq<(nat, nat)>)
  {
    forall i, j :: 0 <= i < j < |fields| ==> fields[i].0 + fields[i].1 <= fields[j].0
  }

  /** The OBJ_ATTR masks occupy pairwise disjoint bit ranges of a 32-bit
      word, and the LINESEG flags are distinct single bits of one. */
  lemma AttributeBitsDisjoint()
    ensures Disjoint(ObjAttrFields)
    ensures forall i :: 0 <= i < |ObjAttrFields| ==> ObjAttrFields[i].0 + ObjAttrFields[i].1 <= 32
    ensures forall i, j :: 0 <= i < j < |LineSegTagBits| ==> LineSegTagBits[i] < LineSegTagBits[j] < 32
  {
  }

  // ---------------------------------------------------------------------
  // Paragraph header and data arrays
  // ---------------------------------------------------------------------

  datatype ParaHeader = ParaHeader(
    nChars: u32,
    controlMask: u32,
    paraShapeId: u16,
    paraStyleId: u8,
    colSplit: u8,
    nCharShapes: u16,
    nRangeTags: u16,
    nLineSegs: u16,
    paraId: u32,
    historyMerge: u16)

  /** Bytes of a paragraph header: 22, two more for `history_merge` from
      5.0.3.2. */
  function ParaHeaderSize(v: Version): nat
  {
    22 + (if AtLeast(v, 5, 0, 3, 2) then 2 else 0)
  }

  /** The header fields of `ghwp_parse_paragraph_header`, in order. */
  function DecodeParaHeader(v: Version, s: seq<byte>): (r: (ParaHeader, seq<byte>))
    ensures !AtLeast(v, 5, 0, 3, 2) ==> r.0.historyMerge == 0
    ensures |s| >= ParaHeaderSize(v) ==> |r.1| == |s| - ParaHeaderSize(v)
  {
    var nChars := ReadU32(s);
    var controlMask := ReadU32(nChars.1);
    var paraShapeId := ReadU16(controlMask.1);
    var paraStyleId := ReadU8(paraShapeId.1);
    var colSplit := ReadU8(paraStyleId.1);
    var nCharShapes := ReadU16(colSplit.1);
    var nRangeTags := ReadU16(nCharShapes.1);
    var nLineSegs := ReadU16(nRangeTags.1);
    var paraId := ReadU32(nLineSegs.1);
    var historyMerge := if AtLeast(v, 5, 0, 3, 2) then ReadU16(paraId.1) else (0, paraId.1);
    (ParaHeader(nChars.0, controlMask.0, paraShapeId.0, paraStyleId.0, colSplit.0,
                nCharShapes.0, nRangeTags.0, nLineSegs.0, paraId.0, historyMerge.0),
     historyMerge.1)
  }

  function PutParaHeader(v: Version, h: ParaHeader, t: seq<byte>): (r: seq<byte>)
    requires !AtLeast(v, 5, 0, 3, 2) ==> h.historyMerge == 0
    ensures DecodeParaHeader(v, r) == (h, t)
    ensures |r| == |t| + ParaHeaderSize(v)
  {
    var historyMerge := if AtLeast(v, 5, 0, 3, 2) then PutU16(h.historyMerge, t) else t;
    PutU32(h.nChars, PutU32(h.controlMask, PutU16(h.paraShapeId, PutU8(h.paraStyleId,
    PutU8(h.colSplit, PutU16(h.nCharShapes, PutU16(h.nRangeTags, PutU16(h.nLineSegs,
    PutU32(h.paraId, historyMerge)))))))))
  }

  datatype CharShapeRef = CharShapeRef(pos: u32, id: u32)

  datatype LineSeg = LineSeg(
    textStart: u32,
    vPos: i32,
    lineHeight: i32,
    textHeight: i32,
    baseLine: i32,
    lineSpacing: i32,
    colOffset: i32,
    segmentWidth: i32,
    tag: u32)

  datatype RangeTag = RangeTag(start: u32, end: u32, tag: u32)

  function ReadCharShapeRef(s: seq<byte>): (r: (CharShapeRef, seq<byte>))
    ensures |s| >= 8 ==> |r.1| == |s| - 8
  {
    var pos := ReadU32(s);
    var id := ReadU32(pos.1);
    (CharShapeRef(pos.0, id.0), id.1)
  }

  function PutCharShapeRef(c: CharShapeRef, t: seq<byte>): (r: seq<byte>)
    ensures ReadCharShapeRef(r) == (c, t)
  {
    PutU32(c.pos, PutU32(c.id, t))
  }

  function ReadLineSeg(s: seq<byte>): (r: (LineSeg, seq<byte>))
    ensures |s| >= 36 ==> |r.1| == |s| - 36
  {
    var textStart := ReadU32(s);
    var vPos := ReadI32(textStart.1);
    var lineHeight := ReadI32(vPos.1);
    var textHeight := ReadI32(lineHeight.1);
    var baseLine := ReadI32(textHeight.1);
    var lineSpacing := ReadI32(baseLine.1);
    var colOffset := ReadI32(lineSpacing.1);
    var segmentWidth := ReadI32(colOffset.1);
    var tag := ReadU32(segmentWidth.1);
    (LineSeg(textStart.0, vPos.0, lineHeight.0, textHeight.0, baseLine.0,
             lineSpacing.0, colOffset.0, segmentWidth.0, tag.0),
     tag.1)
  }

  function PutLineSeg(l: LineSeg, t: seq<byte>): (r: seq<byte>)
    ensures ReadLineSeg(r) == (l, t)
  {
    PutU32(l.textStart, PutI32(l.vPos, PutI32(l.lineHeight, PutI32(l.textHeight,
    PutI32(l.baseLine, PutI32(l.lineSpacing, PutI32(l.colOffset, PutI32(l.segmentWidth,
    PutU32(l.tag, t)))))))))
  }

  function ReadRangeTag(s: seq<byte>): (r: (RangeTag, seq<byte>))
    ensures |s| >= 12 ==> |r.1| == |s| - 12
  {
    var start := ReadU32(s);
    var end := ReadU32(start.1);
    var tag := ReadU32(end.1);
    (RangeTag(start.0, end.0, tag.0), tag.1)
  }

  function PutRangeTag(g: RangeTag, t: seq<byte>): (r: seq<byte>)
    ensures ReadRangeTag(r) == (g, t)
  {
    PutU32(g.start, PutU32(g.end, PutU32(g.tag, t)))
  }

  /** `n` character shape references, in order. */
  function ReadCharShapeRefs(n: nat, s: seq<byte>): (r: (seq<CharShapeRef>, seq<byte>))
    ensures |r.0| == n
  {
    if n == 0 then ([], s)
    else
      var x := ReadCharShapeRef(s);
      var xs := ReadCharShapeRefs(n - 1, x.1);
      ([x.0] + xs.0, xs.1)
  }

  function PutCharShapeRefs(xs: seq<CharShapeRef>, t: seq<byte>): (r: seq<byte>)
    ensures ReadCharShapeRefs(|xs|, r) == (xs, t)
  {
    if |xs| == 0 then t
    else
      var r := PutCharShapeRef(xs[0], PutCharShapeRefs(xs[1..], t));
      assert [xs[0]] + xs[1..] == xs;
      r
  }

  /** `n` line segments, in order. */
  function ReadLineSegs(n: nat, s: seq<byte>): (r: (seq<LineSeg>, seq<byte>))
    ensures |r.0| == n
  {
    if n == 0 then ([], s)
    else
      var x := ReadLineSeg(s);
      var xs := ReadLineSegs(n - 1, x.1);
      ([x.0] + xs.0, xs.1)
  }

  function PutLineSegs(xs: seq<LineSeg>, t: seq<byte>): seq<byte>
  {
    if |xs| == 0 then t else PutLineSeg(xs[0], PutLineSegs(xs[1..], t))
  }

  /** One more segment in front adds it at the head of what is read. */
  lemma LineSegsCons(n: nat, x: LineSeg, tail: seq<byte>)
    requires n > 0
    ensures ReadLineSegs(n, PutLineSeg(x, tail)) == ([x] + ReadLineSegs(n - 1, tail).0, ReadLineSegs(n - 1, tail).1)
  {
  }

  lemma {:induction false} LineSegsRoundTrip(xs: seq<LineSeg>, t: seq<byte>)
    ensures ReadLineSegs(|xs|, PutLineSegs(xs, t)) == (xs, t)
  {
    if |xs| > 0 {
      var tail := PutLineSegs(xs[1..], t);
      assert PutLineSegs(xs, t) == PutLineSeg(xs[0], tail);
      LineSegsRoundTrip(xs[1..], t);
      LineSegsCons(|xs|, xs[0], tail);
      assert [xs[0]] + xs[1..] == xs;
    }
  }

  /** `n` range tags, in order. */
  function ReadRangeTags(n: nat, s: seq<byte>): (r: (seq<RangeTag>, seq<byte>))
    ensures |r.0| == n
  {
    if n == 0 then ([], s)
    else
      var x := ReadRangeTag(s);
      var xs := ReadRangeTags(n - 1, x.1);
      ([x.0] + xs.0, xs.1)
  }

  function PutRangeTags(xs: seq<RangeTag>, t: seq<byte>): (r: seq<byte>)
    ensures ReadRangeTags(|xs|, r) == (xs, t)
  {
    if |xs| == 0 then t
    else
      var r := PutRangeTag(xs[0], PutRangeTags(xs[1..], t));
      assert [xs[0]] + xs[1..] == xs;
      r
  }

  // ---------------------------------------------------------------------
  // Paragraphs
  // ---------------------------------------------------------------------

  /** A paragraph. `text` is the decoded paragraph text (null until a
      PARA_TEXT record is seen), `table` the table its control holds,
      `link` the other half of a split, and lines `lineStart` up to
      `lineEnd` are the ones this half shows. */
  datatype Paragraph = Paragraph(
    header: ParaHeader,
    charShapes: seq<CharShapeRef>,
    rangeTags: seq<RangeTag>,
    lineSegs: seq<LineSeg>,
    text: Option<string>,
    table: Option<nat>,
    link: Option<nat>,
    lineStart: int,
    lineEnd: int)

  /** `ghwp_paragraph_new` followed by `ghwp_parse_paragraph_header`: empty
      arrays, no text, table or link, and every line shown. */
  function NewParagraph(v: Version, s: seq<byte>): (r: Paragraph)
    ensures r.header == DecodeParaHeader(v, s).0
    ensures r.charShapes == [] && r.rangeTags == [] && r.lineSegs == []
    ensures r.text == None && r.table == None && r.link == None
    ensures r.lineStart == 0 && r.lineEnd == r.header.nLineSegs
  {
    var h := DecodeParaHeader(v, s).0;
    Paragraph(h, [], [], [], None, None, None, 0, h.nLineSegs)
  }

  /** `ghwp_parse_paragraph_char_shape`: `n_char_shapes` references are
      inserted at positions 0, 1, …, so they come before any the paragraph
      already had. */
  function ParseCharShapes(p: Paragraph, s: seq<byte>): (r: Paragraph)
    ensures |r.charShapes| == p.header.nCharShapes + |p.charShapes|
    ensures r.charShapes[..p.header.nCharShapes] == ReadCharShapeRefs(p.header.nCharShapes, s).0
    ensures r.charShapes[p.header.nCharShapes..] == p.charShapes
    ensures r.(charShapes := p.charShapes) == p
  {
    p.(charShapes := ReadCharShapeRefs(p.header.nCharShapes, s).0 + p.charShapes)
  }

  /** `ghwp_parse_paragraph_line_seg`: `n_line_segs` segments of nine fields
      each, inserted in front. */
  function ParseLineSegs(p: Paragraph, s: seq<byte>): (r: Paragraph)
    ensures |r.lineSegs| == p.header.nLineSegs + |p.lineSegs|
    ensures r.lineSegs[..p.header.nLineSegs] == ReadLineSegs(p.header.nLineSegs, s).0
    ensures r.lineSegs[p.header.nLineSegs..] == p.lineSegs
    ensures r.(lineSegs := p.lineSegs) == p
  {
    p.(lineSegs := ReadLineSegs(p.header.nLineSegs, s).0 + p.lineSegs)
  }

  /** `ghwp_parse_paragraph_range_tag` as written: the loop runs
      `n_char_shapes` times, not `n_range_tags` times. */
  function ParseRangeTagsAsWritten(p: Paragraph, s: seq<byte>): (r: Paragraph)
    ensures |r.rangeTags| == p.header.nCharShapes + |p.rangeTags|
    ensures r.(rangeTags := p.rangeTags) == p
  {
    p.(rangeTags := ReadRangeTags(p.header.nCharShapes, s).0 + p.rangeTags)
  }

  /** The range-tag parser as evidently intended: one range tag per
      `n_range_tags`, inserted in front. */
  function ParseRangeTags(p: Paragraph, s: seq<byte>): (r: Paragraph)
    ensures |r.rangeTags| == p.header.nRangeTags + |p.rangeTags|
    ensures r.rangeTags[..p.header.nRangeTags] == ReadRangeTags(p.header.nRangeTags, s).0
    ensures r.rangeTags[p.header.nRangeTags..] == p.rangeTags
    ensures r.(rangeTags := p.rangeTags) == p
  {
    p.(rangeTags := ReadRangeTags(p.header.nRangeTags, s).0 + p.rangeTags)
  }

  /** Laying out a paragraph's range tags and parsing them back gives them
      all, in order, in front of those it had: the corrected parser reads
      exactly the record the header announces. */
  lemma RangeTagsRoundTrip(p: Paragraph, tags: seq<RangeTag>, t: seq<byte>)
    requires |tags| == p.header.nRangeTags
    ensures ParseRangeTags(p, PutRangeTags(tags, t)).rangeTags == tags + p.rangeTags
  {
  }

  /** The as-written parser loses range tags: for a paragraph announcing one
      range tag and no character shapes, it keeps none of the one its record
      holds, where the corrected parser keeps it. */
  lemma RangeTagLoopUsesWrongCount(p: Paragraph, g: RangeTag, t: seq<byte>)
    requires p.header.nCharShapes == 0 && p.header.nRangeTags == 1
    ensures ParseRangeTagsAsWritten(p, PutRangeTags([g], t)).rangeTags == p.rangeTags
    ensures ParseRangeTags(p, PutRangeTags([g], t)).rangeTags == [g] + p.rangeTags
  {
  }

  /** `ghwp_paragraph_add_link(p, q, line)`: the new paragraph `q` takes a
      copy of `p`'s header and shares its text, table and arrays; the two
      point at each other; `p` keeps lines [0, line) and `q` gets lines
      [line, n_line_segs). `pIdx` and `qIdx` are the arena indices of the
      two. */
  function AddLink(p: Paragraph, pIdx: nat, qIdx: nat, line: int): (r: (Paragraph, Paragraph))
    ensures r.0.(link := p.link, lineStart := p.lineStart, lineEnd := p.lineEnd) == p
    ensures r.1.(link := p.link, lineStart := p.lineStart, lineEnd := p.lineEnd) == p
    ensures r.0.link == Some(qIdx) && r.1.link == Some(pIdx)
    ensures r.0.lineStart == 0 && r.0.lineEnd == line
    ensures r.1.lineStart == line && r.1.lineEnd == p.header.nLineSegs
  {
    (p.(link := Some(qIdx), lineStart := 0, lineEnd := line),
     p.(link := Some(pIdx), lineStart := line, lineEnd := p.header.nLineSegs))
  }

  /** Line `j` is one of those the paragraph shows. */
  predicate Shows(p: Paragraph, j: int)
  {
    p.lineStart <= j < p.lineEnd
  }

  /** Splitting a whole paragraph at a line inside it divides its lines
      between the two halves: every line is shown by exactly one half. */
  lemma AddLinkPartitions(p: Paragraph, pIdx: nat, qIdx: nat, line: int)
    requires p.lineStart == 0 && p.lineEnd == p.header.nLineSegs
    requires 0 <= line <= p.header.nLineSegs
    ensures forall j :: Shows(p, j) <==> Shows(AddLink(p, pIdx, qIdx, line).0, j) || Shows(AddLink(p, pIdx, qIdx, line).1, j)
    ensures forall j :: !(Shows(AddLink(p, pIdx, qIdx, line).0, j) && Shows(AddLink(p, pIdx, qIdx, line).1, j))
  {
  }

  /** A second split of a continuation resets its first line to 0: the
      continuation then shows the lines before the first split again, so the
      link supports a paragraph over two pages only. */
  lemma SecondSplitRestartsAtZero(p: Paragraph, line1: int, line2: int)
    requires 0 < line1 < line2 <= p.header.nLineSegs
    ensures var q := AddLink(p, 0, 1, line1).1;
            var q2 := AddLink(q, 1, 2, line2).0;
            && Shows(q2, 0)
            && Shows(AddLink(p, 0, 1, line1).0, 0)
  {
  }

  // ---------------------------------------------------------------------
  // Tables and cells
  // ---------------------------------------------------------------------

  /** The common object header of a control (`GHWPObject`); `desc` keeps the
      description's UTF-16 code units. */
  datatype CommonObject = CommonObject(
    ctrlId: u32,
    attr: u32,
    vOffset: u32,
    hOffset: u32,
    width: u32,
    height: u32,
    zOrder: i32,
    lSpacing: i16,
    rSpacing: i16,
    tSpacing: i16,
    bSpacing: i16,
    instanceId: u32,
    pageSplit: i32,
    nDesc: u16,
    desc: seq<u16>)

  /** `ghwp_parse_common_object`, after the control id has been read. */
  function DecodeCommonObject(ctrlId: u32, s: seq<byte>): (r: (CommonObject, seq<byte>))
    ensures r.0.ctrlId == ctrlId
    ensures |r.0.desc| == r.0.nDesc
  {
    var attr := ReadU32(s);
    var vOffset := ReadU32(attr.1);
    var hOffset := ReadU32(vOffset.1);
    var width := ReadU32(hOffset.1);
    var height := ReadU32(width.1);
    var zOrder := ReadI32(height.1);
    var lSpacing := ReadI16(zOrder.1);
    var rSpacing := ReadI16(lSpacing.1);
    var tSpacing := ReadI16(rSpacing.1);
    var bSpacing := ReadI16(tSpacing.1);
    var instanceId := ReadU32(bSpacing.1);
    var pageSplit := ReadI32(instanceId.1);
    var nDesc := ReadU16(pageSplit.1);
    var desc := ReadU16s(nDesc.0, nDesc.1);
    (CommonObject(ctrlId, attr.0, vOffset.0, hOffset.0, width.0, height.0, zOrder.0,
                  lSpacing.0, rSpacing.0, tSpacing.0, bSpacing.0, instanceId.0,
                  pageSplit.0, nDesc.0, desc.0),
     desc.1)
  }

  function PutCommonObject(o: CommonObject, t: seq<byte>): (r: seq<byte>)
    requires |o.desc| == o.nDesc
    ensures DecodeCommonObject(o.ctrlId, r) == (o, t)
  {
    PutU32(o.attr, PutU32(o.vOffset, PutU32(o.hOffset, PutU32(o.width, PutU32(o.height,
    PutI32(o.zOrder, PutI16(o.lSpacing, PutI16(o.rSpacing, PutI16(o.tSpacing, PutI16(o.bSpacing,
    PutU32(o.instanceId, PutI32(o.pageSplit, PutU16(o.nDesc, PutU16s(o.desc, t))))))))))))))
  }

  datatype ListHeader = ListHeader(nParagraphs: i16, attr: u32, unknown: i16)

  /** `ghwp_parse_list_header`. */
  function DecodeListHeader(s: seq<byte>): (r: (ListHeader, seq<byte>))
    ensures |s| >= 8 ==> r.1 == s[8..]
  {
    var nParagraphs := ReadI16(s);
    var attr := ReadU32(nParagraphs.1);
    var unknown := ReadI16(attr.1);
    assert |s| >= 8 ==> unknown.1 == s[8..] by {
      if |s| >= 8 {
        assert nParagraphs.1 == s[2..];
        assert attr.1 == s[2..][4..] == s[6..];
        assert unknown.1 == s[6..][2..] == s[8..];
      }
    }
    (ListHeader(nParagraphs.0, attr.0, unknown.0), unknown.1)
  }

  function PutListHeader(h: ListHeader, t: seq<byte>): (r: seq<byte>)
    ensures DecodeListHeader(r) == (h, t)
  {
    PutI16(h.nParagraphs, PutU32(h.attr, PutI16(h.unknown, t)))
  }

  /** The table attributes `ghwp_parse_table_attr` reads. `zones` is null
      (`None`) for documents older than 5.0.1.0. */
  datatype TableAttr = TableAttr(
    flags: u32,
    nRows: u16,
    nCols: u16,
    cellSpacing: i16,
    lMargin: i16,
    rMargin: i16,
    tMargin: i16,
    bMargin: i16,
    rowSizes: seq<u16>,
    borderFillId: u16,
    validZoneInfoSize: u16,
    zones: Option<seq<u16>>)

  const EmptyTableAttr := TableAttr(0, 0, 0, 0, 0, 0, 0, 0, [], 0, 0, None)

  /** The shape `ghwp_parse_table_attr` gives a table: one row size per row,
      and zones, one per announced zone, exactly from 5.0.1.0. */
  predicate TableAttrShaped(v: Version, a: TableAttr)
  {
    && |a.rowSizes| == a.nRows
    && (a.zones.Some? <==> AtLeast(v, 5, 0, 1, 0))
    && (a.zones.Some? ==> |a.zones.value| == a.validZoneInfoSize)
    && (a.zones.None? ==> a.validZoneInfoSize == 0)
  }

  /** `ghwp_parse_table_attr`. The original compares what it read with the
      record length and only warns on a mismatch; the unread rest is
      returned, and decoding never fails. */
  function DecodeTableAttr(v: Version, s: seq<byte>): (r: (TableAttr, seq<byte>))
    ensures TableAttrShaped(v, r.0)
  {
    var flags := ReadU32(s);
    var nRows := ReadU16(flags.1);
    var nCols := ReadU16(nRows.1);
    var cellSpacing := ReadI16(nCols.1);
    var lMargin := ReadI16(cellSpacing.1);
    var rMargin := ReadI16(lMargin.1);
    var tMargin := ReadI16(rMargin.1);
    var bMargin := ReadI16(tMargin.1);
    var rowSizes := ReadU16s(nRows.0, bMargin.1);
    var borderFill := ReadU16(rowSizes.1);
    var zones :=
      if AtLeast(v, 5, 0, 1, 0) then
        var size := ReadU16(borderFill.1);
        var zs := ReadU16s(size.0, size.1);
        (size.0, Some(zs.0), zs.1)
      else (0, None, borderFill.1);
    (TableAttr(flags.0, nRows.0, nCols.0, cellSpacing.0, lMargin.0, rMargin.0, tMargin.0,
               bMargin.0, rowSizes.0, borderFill.0, zones.0, zones.1),
     zones.2)
  }

  function PutTableAttr(v: Version, a: TableAttr, t: seq<byte>): (r: seq<byte>)
    requires TableAttrShaped(v, a)
    ensures DecodeTableAttr(v, r) == (a, t)
  {
    var zones := if a.zones.Some? then PutU16(a.validZoneInfoSize, PutU16s(a.zones.value, t)) else t;
    PutU32(a.flags, PutU16(a.nRows, PutU16(a.nCols, PutI16(a.cellSpacing, PutI16(a.lMargin,
    PutI16(a.rMargin, PutI16(a.tMargin, PutI16(a.bMargin, PutU16s(a.rowSizes,
    PutU16(a.borderFillId, zones))))))))))
  }

  /** `table size mismatch`: the record held bytes the decoder did not read. */
  predicate TableSizeMismatch(v: Version, s: seq<byte>)
  {
    |DecodeTableAttr(v, s).1| != 0
  }

  /** A table: its common object, its attributes (zero until the TABLE
      record is seen) and its cells, by arena index. */
  datatype Table = Table(obj: CommonObject, attr: TableAttr, cells: seq<nat>)

  /** The cell fields `ghwp_parse_table_cell_attr` reads. */
  datatype CellAttr = CellAttr(
    colAddr: u16,
    rowAddr: u16,
    colSpan: u16,
    rowSpan: u16,
    width: u32,
    height: u32,
    lMargin: i16,
    rMargin: i16,
    tMargin: i16,
    bMargin: i16,
    borderFillId: u16)

  function DecodeCellAttr(s: seq<byte>): (r: (CellAttr, seq<byte>))
    ensures |s| >= 26 ==> |r.1| == |s| - 26
  {
    var colAddr := ReadU16(s);
    var rowAddr := ReadU16(colAddr.1);
    var colSpan := ReadU16(rowAddr.1);
    var rowSpan := ReadU16(colSpan.1);
    var width := ReadU32(rowSpan.1);
    var height := ReadU32(width.1);
    var lMargin := ReadI16(height.1);
    var rMargin := ReadI16(lMargin.1);
    var tMargin := ReadI16(rMargin.1);
    var bMargin := ReadI16(tMargin.1);
    var borderFill := ReadU16(bMargin.1);
    (CellAttr(colAddr.0, rowAddr.0, colSpan.0, rowSpan.0, width.0, height.0,
              lMargin.0, rMargin.0, tMargin.0, bMargin.0, borderFill.0),
     borderFill.1)
  }

  function PutCellAttr(c: CellAttr, t: seq<byte>): (r: seq<byte>)
    ensures DecodeCellAttr(r) == (c, t)
    ensures |r| == |t| + 26
  {
    PutU16(c.colAddr, PutU16(c.rowAddr, PutU16(c.colSpan, PutU16(c.rowSpan,
    PutU32(c.width, PutU32(c.height, PutI16(c.lMargin, PutI16(c.rMargin,
    PutI16(c.tMargin, PutI16(c.bMargin, PutU16(c.borderFillId, t)))))))))))
  }

  /** A table cell: the list header copied in front of it, its attributes
      and its paragraphs, by arena index. */
  datatype Cell = Cell(header: ListHeader, attr: CellAttr, paragraphs: seq<nat>)

  /** `ghwp_table_add_cell`: the cell goes at the end. */
  function AddCell(t: Table, cell: nat): (r: Table)
    ensures |r.cells| == |t.cells| + 1
    ensures r.cells[..|t.cells|] == t.cells
    ensures r.(cells := t.cells) == t
    ensures GetLastCell(r) == cell
  {
    t.(cells := t.cells + [cell])
  }

  /** `ghwp_table_get_last_cell`; the original indexes `len - 1` without a
      check, so an empty table is excluded. */
  function GetLastCell(t: Table): nat
    requires |t.cells| > 0
  {
    t.cells[|t.cells| - 1]
  }

  /** `ghwp_table_cell_add_paragraph`: the paragraph goes at the end. */
  function CellAddParagraph(c: Cell, para: nat): (r: Cell)
    ensures |r.paragraphs| == |c.paragraphs| + 1
    ensures r.paragraphs[..|c.paragraphs|] == c.paragraphs
    ensures r.(paragraphs := c.paragraphs) == c
    ensures GetLastParagraph(r) == para
  {
    c.(paragraphs := c.paragraphs + [para])
  }

  /** `ghwp_table_cell_get_last_paragraph`, which like `get_last_cell`
      indexes `len - 1` without a check. */
  function GetLastParagraph(c: Cell): nat
    requires |c.paragraphs| > 0
  {
    c.paragraphs[|c.paragraphs| - 1]
  }
}

=== FILE: page.dfy ===
/**
 A page (ghwp-page.c): the section it belongs to and the paragraphs laid out
 on it, by arena index, and the rule `ghwp_page_render` follows to pick the
 text of every line it draws. Fonts, coordinates and the cairo calls are not
 part of this model; what is kept is which lines are visited and which slice
 of the paragraph text each one draws.
 */
module Page {
  import opened Wrappers
  import opened Bytes
  import opened Models

  datatype Page = Page(section: Option<nat>, paragraphs: seq<nat>)

  /** `ghwp_page_new`: no section, no paragraphs. */
  const NewPage := Page(None, [])

  /** `ghwp_page_set_section`: only the section reference changes. */
  function SetSection(pg: Page, sec: nat): (r: Page)
    ensures r.section == Some(sec)
    ensures r.paragraphs == pg.paragraphs
  {
    pg.(section := Some(sec))
  }

  /** `ghwp_page_add_paragraph`: the paragraph goes at the end of the page;
      with no page (a null pointer) nothing happens. */
  function AddParagraph(pg: Option<Page>, para: nat): (r: Option<Page>)
    ensures r.Some? <==> pg.Some?
    ensures pg.Some? ==> && r.value.section == pg.value.section
                         && |r.value.paragraphs| == |pg.value.paragraphs| + 1
                         && r.value.paragraphs[..|pg.value.paragraphs|] == pg.value.paragraphs
                         && r.value.paragraphs[|pg.value.paragraphs|] == para
  {
    match pg
    case None => None
    case Some(page) => Some(page.(paragraphs := page.paragraphs + [para]))
  }

  // ---------------------------------------------------------------------
  // Which text each line draws
  // ---------------------------------------------------------------------

  /** The range line `j` hands to `draw_text_line`: from its segment's
      start up to the next segment's start, and for the last of the
      header's `n` lines up to the end of the text, whose length is
      `textLen`. `draw_text_line` takes both ends as gint, so the guint32
      segment starts are read in two's complement, and the text length is
      cut to 32 bits. */
  function TextRange(segs: seq<LineSeg>, n: nat, textLen: nat, j: nat): (r: (i32, i32))
    requires j < n <= |segs|
    ensures segs[j].textStart < 0x8000_0000 ==> r.0 == segs[j].textStart
    ensures segs[j].textStart >= 0x8000_0000 ==> r.0 < 0
    ensures j == n - 1 && textLen < 0x8000_0000 ==> r.1 == textLen
    ensures j < n - 1 && segs[j + 1].textStart < 0x8000_0000 ==> r.1 == segs[j + 1].textStart
    ensures j < n - 1 && segs[j + 1].textStart >= 0x8000_0000 ==> r.1 < 0
  {
    (Signed32(segs[j].textStart),
     if j == n - 1 then Signed32(textLen % 0x1_0000_0000) else Signed32(segs[j + 1].textStart))
  }

  /** Consecutive lines meet: each line's text ends where the next one's
      starts, so the ranges of lines 0 … n-1 follow one another through the
      text, and the last one ends at the end of a text shorter than 2^31. */
  lemma TextRangesChain(segs: seq<LineSeg>, n: nat, textLen: nat)
    requires 0 < n <= |segs|
    ensures forall j :: 0 <= j < n - 1 ==> TextRange(segs, n, textLen, j).1 == TextRange(segs, n, textLen, j + 1).0
    ensures textLen < 0x8000_0000 ==> TextRange(segs, n, textLen, n - 1).1 == textLen
  {
  }

  /** `draw_text_line` draws nothing for an empty or inverted range. */
  predicate Draws(segs: seq<LineSeg>, n: nat, textLen: nat, j: nat)
    requires j < n <= |segs|
  {
    TextRange(segs, n, textLen, j).0 < TextRange(segs, n, textLen, j).1
  }

  /** While the offsets stay below 2^31 the signed reading changes nothing:
      a line draws exactly when its start lies before its end. A start of
      2^31 or more reads as negative, so such a line draws whenever its end
      does not. */
  lemma DrawsSigned(segs: seq<LineSeg>, n: nat, textLen: nat, j: nat)
    requires j < n <= |segs|
    ensures var end := if j == n - 1 then textLen else segs[j + 1].textStart;
            segs[j].textStart < 0x8000_0000 && end < 0x8000_0000 ==>
              (Draws(segs, n, textLen, j) <==> segs[j].textStart < end)
    ensures j < n - 1 && segs[j].textStart >= 0x8000_0000 && segs[j + 1].textStart < 0x8000_0000 ==>
              Draws(segs, n, textLen, j)
  {
  }

  /** The lines in [lo, hi) that draw some text, in increasing order. */
  function DrawnLines(segs: seq<LineSeg>, n: nat, textLen: nat, lo: nat, hi: nat): (r: seq<nat>)
    requires lo <= hi <= n <= |segs|
    decreases hi - lo
    ensures forall k :: 0 <= k < |r| ==> lo <= r[k] < hi && Draws(segs, n, textLen, r[k])
    ensures forall j :: lo <= j < hi && Draws(segs, n, textLen, j) ==> j in r
    ensures forall k, l :: 0 <= k < l < |r| ==> r[k] < r[l]
  {
    if lo == hi then []
    else
      var rest := DrawnLines(segs, n, textLen, lo, hi - 1);
      rest + (if Draws(segs, n, textLen, hi - 1) then [hi - 1] else [])
  }

  /** Drawing [lo, mid) and then [mid, hi) draws the lines of [lo, hi). */
  lemma {:induction false} DrawnLinesSplit(segs: seq<LineSeg>, n: nat, textLen: nat, lo: nat, mid: nat, hi: nat)
    requires lo <= mid <= hi <= n <= |segs|
    decreases hi
    ensures DrawnLines(segs, n, textLen, lo, mid) + DrawnLines(segs, n, textLen, mid, hi)
            == DrawnLines(segs, n, textLen, lo, hi)
  {
    if mid < hi {
      DrawnLinesSplit(segs, n, textLen, lo, mid, hi - 1);
      var tail := if Draws(segs, n, textLen, hi - 1) then [hi - 1] else [];
      assert DrawnLines(segs, n, textLen, mid, hi) == DrawnLines(segs, n, textLen, mid, hi - 1) + tail;
      assert DrawnLines(segs, n, textLen, lo, hi) == DrawnLines(segs, n, textLen, lo, hi - 1) + tail;
    }
  }

  /** The segments of every line the paragraph may show are present. The
      original indexes the segment array without a check, so a paragraph
      short of segments has no defined rendering. */
  predicate RenderReady(p: Paragraph)
  {
    0 <= p.lineStart && p.lineEnd <= p.header.nLineSegs <= |p.lineSegs|
  }

  /** Whether `ghwp_page_render` draws the paragraph's text at all: a
      paragraph of the page needs text other than exactly "\n\r", a
      paragraph inside a table cell only needs text. */
  predicate Visible(p: Paragraph, topLevel: bool)
  {
    p.text.Some? && !(topLevel && p.text.value == "\n\r")
  }

  /** The lines of `p` the renderer draws text for: those from `lineStart`
      up to `lineEnd` whose text range is not empty. */
  function RenderedLines(p: Paragraph, topLevel: bool): (r: seq<nat>)
    ensures !Visible(p, topLevel) ==> r == []
    ensures forall k :: 0 <= k < |r| ==> p.lineStart <= r[k] < p.lineEnd
    ensures RenderReady(p) && Visible(p, topLevel) ==>
              forall j :: p.lineStart <= j < p.lineEnd && Draws(p.lineSegs, p.header.nLineSegs, |p.text.value|, j) ==> j in r
    ensures forall k :: 0 <= k < |r| ==>
              Visible(p, topLevel) && RenderReady(p) && Draws(p.lineSegs, p.header.nLineSegs, |p.text.value|, r[k])
    ensures forall k, l :: 0 <= k < l < |r| ==> r[k] < r[l]
  {
    if Visible(p, topLevel) && RenderReady(p) && p.lineStart <= p.lineEnd then
      DrawnLines(p.lineSegs, p.header.nLineSegs, |p.text.value|, p.lineStart, p.lineEnd)
    else []
  }

  /** Splitting a paragraph at a line changes nothing that is drawn: the
      first half draws the lines before the split and the continuation the
      rest, which together are the lines of the whole paragraph, in order. */
  lemma SplitDrawsSameLines(p: Paragraph, pIdx: nat, qIdx: nat, line: nat, topLevel: bool)
    requires RenderReady(p) && p.lineStart == 0 && p.lineEnd == p.header.nLineSegs
    requires line <= p.header.nLineSegs
    ensures RenderedLines(AddLink(p, pIdx, qIdx, line).0, topLevel) + RenderedLines(AddLink(p, pIdx, qIdx, line).1, topLevel)
            == RenderedLines(p, topLevel)
  {
    if Visible(p, topLevel) {
      DrawnLinesSplit(p.lineSegs, p.header.nLineSegs, |p.text.value|, 0, line, p.header.nLineSegs);
    }
  }
}

=== FILE: paging.dfy ===
/**
 The page-breaking pass (`_ghwp_file_v5_parse_body_text`, ghwp-file-v5.c,
 second half). Section by section, with no page open at the start of each,
 the paragraphs are walked line by line: a line whose segment has vertical
 position 0 starts a new page of the section. When that line is not the
 paragraph's first, the paragraph is split there by `AddLink`: the first
 half goes to the page being filled and the continuation carries on. After
 its last line a paragraph, or its last half, joins the page being filled;
 with no page open it is dropped.

 A paragraph's header and line segments are never changed by the pass
 (both halves of a split keep them), so the loop bound and the segments
 are those of the parsed paragraph. A segment index past the end of the
 segment array, which the original reads without a check, never starts a
 page here.
 */
module Paging {
  import opened Wrappers
  import opened Bytes
  import opened Record
  import opened Models
  import opened Page
  import opened BodyText

  /** The pass state: the pages so far, the paragraph arena (which gains the
      continuations of split paragraphs) and the page being filled. */
  datatype Pager = Pager(pages: seq<Page>, paras: seq<Paragraph>, current: Option<nat>)

  /** The page being filled exists and every page lists existing paragraphs. */
  predicate PagerValid(g: Pager)
  {
    && (g.current.Some? ==> g.current.value < |g.pages|)
    && forall i, j :: 0 <= i < |g.pages| && 0 <= j < |g.pages[i].paragraphs| ==> g.pages[i].paragraphs[j] < |g.paras|
  }

  /** The arena `b` extends `a` and keeps the header and line segments of
      every paragraph of `a`. */
  predicate KeepsLines(a: seq<Paragraph>, b: seq<Paragraph>)
  {
    |a| <= |b| && forall i :: 0 <= i < |a| ==> b[i].header == a[i].header && b[i].lineSegs == a[i].lineSegs
  }

  /** Every page belongs to a section below `n`. */
  predicate SectionsBelow(pages: seq<Page>, n: nat)
  {
    forall i :: 0 <= i < |pages| ==> pages[i].section.Some? && pages[i].section.value < n
  }

  /** Pages come in section order. */
  predicate InSectionOrder(pages: seq<Page>)
  {
    forall i, j :: 0 <= i < j < |pages| && pages[i].section.Some? && pages[j].section.Some? ==>
      pages[i].section.value <= pages[j].section.value
  }

  /** `ghwp_page_add_paragraph` on the page being filled, if there is one. */
  function AddToCurrent(g: Pager, para: nat): (r: Pager)
    requires PagerValid(g) && para < |g.paras|
    ensures PagerValid(r)
    ensures r.paras == g.paras && r.current == g.current
    ensures |r.pages| == |g.pages|
    ensures forall i :: 0 <= i < |g.pages| ==> r.pages[i].section == g.pages[i].section
    ensures g.current.None? ==> r == g
    ensures g.current.Some? ==>
              var c := g.current.value;
              r.pages == g.pages[c := AddParagraph(Some(g.pages[c]), para).value]
  {
    match g.current
    case None => g
    case Some(c) =>
      var r := g.(pages := g.pages[c := AddParagraph(Some(g.pages[c]), para).value]);
      assert forall i, j :: 0 <= i < |r.pages| && 0 <= j < |r.pages[i].paragraphs| ==> r.pages[i].paragraphs[j] < |r.paras| by {
        forall i, j | 0 <= i < |r.pages| && 0 <= j < |r.pages[i].paragraphs|
          ensures r.pages[i].paragraphs[j] < |r.paras|
        {
          if i != c || j < |g.pages[c].paragraphs| {
            assert r.pages[i].paragraphs[j] == g.pages[i].paragraphs[j];
          }
        }
      }
      r
  }

  /** `ghwp_page_new` + `ghwp_page_set_section` + appending the page to the
      document: the new page, bound to section `sec`, is the one being
      filled from now on. */
  function OpenPage(g: Pager, sec: nat): (r: Pager)
    requires PagerValid(g)
    ensures PagerValid(r)
    ensures r.pages == g.pages + [SetSection(NewPage, sec)]
    ensures r.paras == g.paras && r.current == Some(|g.pages|)
  {
    var r := g.(pages := g.pages + [SetSection(NewPage, sec)], current := Some(|g.pages|));
    assert forall i, j :: 0 <= i < |r.pages| && 0 <= j < |r.pages[i].paragraphs| ==> r.pages[i].paragraphs[j] < |r.paras| by {
      forall i, j | 0 <= i < |r.pages| && 0 <= j < |r.pages[i].paragraphs|
        ensures r.pages[i].paragraphs[j] < |r.paras|
      {
        assert i < |g.pages|;
        assert r.pages[i] == g.pages[i];
      }
    }
    r
  }

  /** A split at line `line` of paragraph `p`: a new paragraph `q` is made
      the continuation by `AddLink`, and `p`, now holding the lines before
      `line`, joins the page being filled. */
  function Split(g: Pager, p: nat, line: nat): (r: (Pager, nat))
    requires PagerValid(g) && p < |g.paras|
    ensures PagerValid(r.0)
    ensures r.1 == |g.paras|
    ensures KeepsLines(g.paras, r.0.paras)
    ensures r.0.paras == g.paras[p := AddLink(g.paras[p], p, r.1, line).0] + [AddLink(g.paras[p], p, r.1, line).1]
    ensures r.0.pages == AddToCurrent(g.(paras := r.0.paras), p).pages
    ensures r.0.current == g.current
  {
    var q := |g.paras|;
    var halves := AddLink(g.paras[p], p, q, line);
    var g1 := g.(paras := g.paras[p := halves.0] + [halves.1]);
    assert PagerValid(g1);
    (AddToCurrent(g1, p), q)
  }

  /** A line whose segment has vertical position 0 starts a page. */
  predicate StartsPage(segs: seq<LineSeg>, n: nat)
  {
    n < |segs| && segs[n].vPos == 0
  }

  /** Number of lines among n … count-1 that start a page. */
  function Breaks(segs: seq<LineSeg>, count: nat, n: nat): nat
    decreases count - n
  {
    if n >= count then 0
    else (if StartsPage(segs, n) then 1 else 0) + Breaks(segs, count, n + 1)
  }

  /** The line loop of one paragraph from line `n` on; `p` is the paragraph
      (or continuation) being laid out. It returns the last half. */
  function BreakLines(g: Pager, sec: nat, segs: seq<LineSeg>, count: nat, p: nat, n: nat): (r: (Pager, nat))
    requires PagerValid(g) && p < |g.paras|
    decreases count - n
    ensures PagerValid(r.0) && r.1 < |r.0.paras|
    ensures |r.0.pages| == |g.pages| + Breaks(segs, count, n)
    ensures KeepsLines(g.paras, r.0.paras)
    ensures forall i :: 0 <= i < |g.pages| ==> r.0.pages[i].section == g.pages[i].section
    ensures forall i :: |g.pages| <= i < |r.0.pages| ==> r.0.pages[i].section == Some(sec)
    ensures Breaks(segs, count, n) > 0 ==> r.0.current == Some(|r.0.pages| - 1)
    ensures Breaks(segs, count, n) == 0 ==> r == (g, p)
  {
    if n >= count then (g, p)
    else if StartsPage(segs, n) then
      var s := if n != 0 then Split(g, p, n) else (g, p);
      BreakLines(OpenPage(s.0, sec), sec, segs, count, s.1, n + 1)
    else BreakLines(g, sec, segs, count, p, n + 1)
  }

  /** `BreakLines` at a page-starting line `n`: split there unless it is
      the first line, open a page, go on. */
  lemma BreakLinesUnfoldStart(g: Pager, sec: nat, segs: seq<LineSeg>, count: nat, p: nat, n: nat)
    requires PagerValid(g) && p < |g.paras|
    requires n < count && StartsPage(segs, n)
    ensures var s := if n != 0 then Split(g, p, n) else (g, p);
            BreakLines(g, sec, segs, count, p, n) == BreakLines(OpenPage(s.0, sec), sec, segs, count, s.1, n + 1)
  {
  }

  /** `BreakLines` at a line that does not start a page: go on. */
  lemma BreakLinesUnfoldSkip(g: Pager, sec: nat, segs: seq<LineSeg>, count: nat, p: nat, n: nat)
    requires PagerValid(g) && p < |g.paras|
    requires n < count && !StartsPage(segs, n)
    ensures BreakLines(g, sec, segs, count, p, n) == BreakLines(g, sec, segs, count, p, n + 1)
  {
  }

  /** The lines among n … count-1 at which the paragraph is split: those
      that start a page, except its first line. */
  function SplitLines(segs: seq<LineSeg>, count: nat, n: nat): seq<nat>
    decreases count - n
  {
    if n >= count then []
    else (if StartsPage(segs, n) && n != 0 then [n] else []) + SplitLines(segs, count, n + 1)
  }

  /** Past the first line every page-starting line is a split. */
  lemma {:induction false} SplitsAreBreaks(segs: seq<LineSeg>, count: nat, n: nat)
    requires n > 0
    decreases count - n
    ensures |SplitLines(segs, count, n)| == Breaks(segs, count, n)
  {
    if n < count {
      SplitsAreBreaks(segs, count, n + 1);
    }
  }

  /** The arena index of piece `s` of a paragraph `p` whose first
      continuation is made at index `q0`: `p` itself, then the
      continuations in the order they are made. */
  function Piece(p: nat, q0: nat, s: nat): nat
  {
    if s == 0 then p else q0 + s - 1
  }

  /** Paragraph `a` is `b` apart from its link and its line range: the
      header, the text, the table and the arrays are those of `b`. */
  predicate SameBut(a: Paragraph, b: Paragraph)
  {
    a.(link := b.link, lineStart := b.lineStart, lineEnd := b.lineEnd) == b
  }

  /** Every page-starting line is a split but possibly the first line. */
  lemma SplitsBound(segs: seq<LineSeg>, count: nat, n: nat)
    ensures |SplitLines(segs, count, n)| <= Breaks(segs, count, n) <= |SplitLines(segs, count, n)| + 1
    ensures |SplitLines(segs, count, n)| == Breaks(segs, count, n) <==> !(n == 0 < count && StartsPage(segs, 0))
  {
    if n > 0 {
      SplitsAreBreaks(segs, count, n);
    } else if n < count {
      SplitsAreBreaks(segs, count, 1);
    }
  }

  /** Arena `b` is arena `a` after paragraph `p` was cut at the lines
      `splits` into |splits| + 1 pieces: `p` itself and one new paragraph
      per split added at the end, each a copy of `p` but for its link and
      line range. Every piece but the last shows the lines from 0 up to its
      split line and links to the next piece; the last one, `last`, shows
      the lines from the last split to the end and links back to the one
      before. No other paragraph changes. */
  predicate Cut(a: seq<Paragraph>, b: seq<Paragraph>, last: nat, p: nat, splits: seq<nat>)
    requires p < |a|
  {
    var q0 := |a|;
    var S := |splits|;
    && |b| == q0 + S
    && last == Piece(p, q0, S)
    && (S == 0 ==> b == a)
    && (forall i :: 0 <= i < q0 && i != p ==> b[i] == a[i])
    && (forall s :: 0 <= s <= S ==> SameBut(b[Piece(p, q0, s)], a[p]))
    && (forall s :: 0 <= s < S ==>
          && b[Piece(p, q0, s)].lineStart == 0
          && b[Piece(p, q0, s)].lineEnd == splits[s]
          && b[Piece(p, q0, s)].link == Some(Piece(p, q0, s + 1)))
    && (S > 0 ==>
          && b[last].lineStart == splits[S - 1]
          && b[last].lineEnd == a[p].header.nLineSegs
          && b[last].link == Some(Piece(p, q0, S - 1)))
  }

  /** A split at line `n` followed by the cut of the continuation is a cut
      of `p` at `n` and the continuation's lines. */
  lemma CutStep(a: seq<Paragraph>, a2: seq<Paragraph>, b: seq<Paragraph>, last: nat, p: nat, n: nat, splits: seq<nat>)
    requires p < |a|
    requires a2 == a[p := AddLink(a[p], p, |a|, n).0] + [AddLink(a[p], p, |a|, n).1]
    requires Cut(a2, b, last, |a|, splits)
    ensures Cut(a, b, last, p, [n] + splits)
  {
    var q0 := |a|;
    var S := |splits| + 1;
    var all := [n] + splits;
    assert a2[p] == AddLink(a[p], p, q0, n).0 && a2[q0] == AddLink(a[p], p, q0, n).1;
    forall s | 1 <= s <= S
      ensures Piece(p, q0, s) == Piece(q0, q0 + 1, s - 1)
    {
    }
    forall s | 0 <= s <= S
      ensures SameBut(b[Piece(p, q0, s)], a[p])
    {
      if s > 0 {
        assert SameBut(b[Piece(q0, q0 + 1, s - 1)], a2[q0]);
      }
    }
    forall s | 0 <= s < S
      ensures b[Piece(p, q0, s)].lineStart == 0
      ensures b[Piece(p, q0, s)].lineEnd == all[s]
      ensures b[Piece(p, q0, s)].link == Some(Piece(p, q0, s + 1))
    {
      if s > 0 {
        assert all[s] == splits[s - 1];
      }
    }
  }

  /** The paragraphs the line loop of paragraph `p` makes, from line `n`
      on: it cuts `p` at the split lines, and returns the last piece. */
  lemma {:induction false} BreakLinesArena(g: Pager, sec: nat, segs: seq<LineSeg>, count: nat, p: nat, n: nat)
    requires PagerValid(g) && p < |g.paras|
    decreases count - n
    ensures var r := BreakLines(g, sec, segs, count, p, n);
            Cut(g.paras, r.0.paras, r.1, p, SplitLines(segs, count, n))
  {
    if n < count && StartsPage(segs, n) && n != 0 {
      var g2 := OpenPage(Split(g, p, n).0, sec);
      BreakLinesArena(g2, sec, segs, count, |g.paras|, n + 1);
      var r := BreakLines(g2, sec, segs, count, |g.paras|, n + 1);
      BreakLinesUnfoldStart(g, sec, segs, count, p, n);
      CutStep(g.paras, g2.paras, r.0.paras, r.1, p, n, SplitLines(segs, count, n + 1));
    } else if n < count && StartsPage(segs, n) {
      BreakLinesArena(OpenPage(g, sec), sec, segs, count, p, n + 1);
      BreakLinesUnfoldStart(g, sec, segs, count, p, n);
      assert SplitLines(segs, count, n) == SplitLines(segs, count, n + 1);
    } else if n < count {
      BreakLinesArena(g, sec, segs, count, p, n + 1);
      BreakLinesUnfoldSkip(g, sec, segs, count, p, n);
      assert SplitLines(segs, count, n) == SplitLines(segs, count, n + 1);
    }
  }

  /** The line loop returns the last piece of the paragraph. */
  lemma BreakLinesLast(g: Pager, sec: nat, segs: seq<LineSeg>, count: nat, p: nat, n: nat)
    requires PagerValid(g) && p < |g.paras|
    ensures BreakLines(g, sec, segs, count, p, n).1 == Piece(p, |g.paras|, |SplitLines(segs, count, n)|)
  {
    BreakLinesArena(g, sec, segs, count, p, n);
  }

  /** Pages `b` are pages `a` after a paragraph whose pieces are numbered
      from `p` (new ones from `q0`) was laid out over B page-starting lines
      of which S are splits: B pages are opened, each but the last holding
      exactly the piece cut off at the next page-starting line, and the last
      one left empty for the last piece. When the first page-starting line
      is a split, the first piece joins the page `cur` being filled before;
      no other page changes. */
  predicate Placed(a: seq<Page>, cur: Option<nat>, b: seq<Page>, p: nat, q0: nat, B: nat, S: nat)
  {
    && S <= B <= S + 1
    && |b| == |a| + B
    && (forall i :: 0 <= i < |a| ==>
          b[i] == (if 0 < B == S && cur == Some(i) then AddParagraph(Some(a[i]), p).value else a[i]))
    && (forall k :: |a| <= k < |a| + B - 1 ==> b[k].paragraphs == [Piece(p, q0, S - B + 1 + (k - |a|))])
    && (B > 0 ==> b[|a| + B - 1].paragraphs == [])
  }

  /** A page-starting line (a split when `split`) followed by the rest of
      the loop places the pieces as `Placed` says. */
  lemma PlacedStep(a: seq<Page>, cur: Option<nat>, a2: seq<Page>, cur2: Option<nat>, b: seq<Page>,
                   p: nat, p2: nat, q0: nat, q2: nat, B': nat, S': nat, B: nat, S: nat, split: bool)
    requires cur.Some? ==> cur.value < |a|
    requires |a2| == |a| + 1 && a2[|a|].paragraphs == [] && cur2 == Some(|a|)
    requires forall i :: 0 <= i < |a| ==>
               a2[i] == (if split && cur == Some(i) then AddParagraph(Some(a[i]), p).value else a[i])
    requires p2 == (if split then q0 else p) && q2 == (if split then q0 + 1 else q0)
    requires S' == B' && B == B' + 1 && S == (if split then B' + 1 else B')
    requires Placed(a2, cur2, b, p2, q2, B', S')
    ensures Placed(a, cur, b, p, q0, B, S)
  {
    var P := |a|;
    forall k | P <= k < P + B - 1
      ensures b[k].paragraphs == [Piece(p, q0, S - B + 1 + (k - P))]
    {
      if k == P {
        assert b[P] == AddParagraph(Some(a2[P]), p2).value;
      } else if split {
        assert Piece(p, q0, S - B + 1 + (k - P)) == Piece(q0, q0 + 1, k - P);
      }
    }
  }

  /** A page-starting line `n`: the state the loop goes on from. The
      first half of a split joins the page being filled, then an empty page
      is opened and becomes the one being filled. */
  lemma StartStep(g: Pager, sec: nat, segs: seq<LineSeg>, count: nat, p: nat, n: nat) returns (g2: Pager, p2: nat)
    requires PagerValid(g) && p < |g.paras|
    requires n < count && StartsPage(segs, n)
    ensures PagerValid(g2) && p2 < |g2.paras|
    ensures BreakLines(g, sec, segs, count, p, n) == BreakLines(g2, sec, segs, count, p2, n + 1)
    ensures p2 == (if n != 0 then |g.paras| else p)
    ensures |g2.paras| == (if n != 0 then |g.paras| + 1 else |g.paras|)
    ensures g2.current == Some(|g.pages|)
    ensures |g2.pages| == |g.pages| + 1 && g2.pages[|g.pages|].paragraphs == []
    ensures forall i :: 0 <= i < |g.pages| ==>
              g2.pages[i] == (if n != 0 && g.current == Some(i) then AddParagraph(Some(g.pages[i]), p).value else g.pages[i])
  {
    var s := if n != 0 then Split(g, p, n) else (g, p);
    g2, p2 := OpenPage(s.0, sec), s.1;
  }

  /** The pages the line loop of paragraph `p` fills, from line `n` on. */
  lemma {:induction false} BreakLinesPages(g: Pager, sec: nat, segs: seq<LineSeg>, count: nat, p: nat, n: nat)
    requires PagerValid(g) && p < |g.paras|
    decreases count - n
    ensures var r := BreakLines(g, sec, segs, count, p, n);
            Placed(g.pages, g.current, r.0.pages, p, |g.paras|, Breaks(segs, count, n), |SplitLines(segs, count, n)|)
  {
    SplitsBound(segs, count, n);
    if n < count && StartsPage(segs, n) {
      var g2, p2 := StartStep(g, sec, segs, count, p, n);
      BreakLinesPages(g2, sec, segs, count, p2, n + 1);
      SplitsAreBreaks(segs, count, n + 1);
      if n != 0 {
        assert SplitLines(segs, count, n) == [n] + SplitLines(segs, count, n + 1);
      } else {
        assert SplitLines(segs, count, n) == SplitLines(segs, count, n + 1);
      }
      PlacedStep(g.pages, g.current, g2.pages, g2.current, BreakLines(g, sec, segs, count, p, n).0.pages,
                 p, p2, |g.paras|, |g2.paras|, Breaks(segs, count, n + 1), |SplitLines(segs, count, n + 1)|,
                 Breaks(segs, count, n), |SplitLines(segs, count, n)|, n != 0);
    } else if n < count {
      BreakLinesPages(g, sec, segs, count, p, n + 1);
      BreakLinesUnfoldSkip(g, sec, segs, count, p, n);
      assert SplitLines(segs, count, n) == SplitLines(segs, count, n + 1);
    }
  }

  /** Pages `b`, with `bcur` being filled, are pages `a`, with `cur` being
      filled, after a paragraph whose pieces are numbered from `p` (new ones
      from `q0`) was laid out over B page-starting lines of which S are
      splits. With no page-starting line the paragraph joins the page being
      filled, or is dropped when no page is open. Otherwise B pages are
      opened: each but the last holds exactly the piece cut off at the next
      page-starting line, the last one holds the last piece and is the page
      being filled from now on, and, when the first page-starting line is a
      split, the first piece joins the page being filled before; no other
      page changes. */
  predicate LaidOut(a: seq<Page>, cur: Option<nat>, b: seq<Page>, bcur: Option<nat>, p: nat, q0: nat, B: nat, S: nat)
  {
    && S <= B <= S + 1
    && |b| == |a| + B
    && (B == 0 ==> bcur == cur)
    && (B == 0 && cur.Some? && cur.value < |a| ==> b == a[cur.value := AddParagraph(Some(a[cur.value]), p).value])
    && (B == 0 && cur.None? ==> b == a)
    && (B > 0 ==> bcur == Some(|b| - 1) && b[|b| - 1].paragraphs == [Piece(p, q0, S)])
    && (forall k :: |a| <= k < |a| + B - 1 ==> b[k].paragraphs == [Piece(p, q0, S - B + 1 + (k - |a|))])
    && (B > 0 ==> forall i :: 0 <= i < |a| ==>
          b[i] == (if B == S && cur == Some(i) then AddParagraph(Some(a[i]), p).value else a[i]))
  }

  /** The last piece joining the last page opened completes `Placed` into
      `LaidOut`. */
  lemma LaidOutStep(a: seq<Page>, cur: Option<nat>, b: seq<Page>, b2: seq<Page>, bcur: Option<nat>, p: nat, q0: nat, B: nat, S: nat)
    requires Placed(a, cur, b, p, q0, B, S)
    requires B > 0 ==> bcur == Some(|b| - 1) && b2 == b[|b| - 1 := AddParagraph(Some(b[|b| - 1]), Piece(p, q0, S)).value]
    requires B == 0 ==> bcur == cur && b2 == (if cur.Some? && cur.value < |a| then b[cur.value := AddParagraph(Some(b[cur.value]), p).value] else b)
    ensures LaidOut(a, cur, b2, bcur, p, q0, B, S)
  {
    if B == 0 {
      assert b == a;
    }
  }

  /** One paragraph of a section: its lines are walked from the first, and
      then the paragraph, or its last half, joins the page being filled. */
  function LayOut(g: Pager, sec: nat, segs: seq<LineSeg>, count: nat, p: nat): (r: Pager)
    requires PagerValid(g) && p < |g.paras|
    ensures PagerValid(r) && KeepsLines(g.paras, r.paras)
    ensures |r.pages| == |g.pages| + Breaks(segs, count, 0)
    ensures forall i :: 0 <= i < |g.pages| ==> r.pages[i].section == g.pages[i].section
    ensures forall i :: |g.pages| <= i < |r.pages| ==> r.pages[i].section == Some(sec)
    ensures Breaks(segs, count, 0) == 0 ==> r.current == g.current
    ensures Breaks(segs, count, 0) > 0 ==> r.current == Some(|r.pages| - 1)
  {
    var b := BreakLines(g, sec, segs, count, p, 0);
    AddToCurrent(b.0, b.1)
  }

  /** The paragraphs `LayOut` makes: `p` is cut at its split lines. */
  lemma LayOutCuts(g: Pager, sec: nat, segs: seq<LineSeg>, count: nat, p: nat)
    requires PagerValid(g) && p < |g.paras|
    ensures Cut(g.paras, LayOut(g, sec, segs, count, p).paras,
                Piece(p, |g.paras|, |SplitLines(segs, count, 0)|), p, SplitLines(segs, count, 0))
  {
    BreakLinesArena(g, sec, segs, count, p, 0);
  }

  /** Where `LayOut` puts the pieces of `p`: each page opened holds the
      piece cut off at the next page-starting line, and the last piece
      joins the page being filled at the end. */
  lemma LayOutPlaces(g: Pager, sec: nat, segs: seq<LineSeg>, count: nat, p: nat)
    requires PagerValid(g) && p < |g.paras|
    ensures var r := LayOut(g, sec, segs, count, p);
            LaidOut(g.pages, g.current, r.pages, r.current, p, |g.paras|, Breaks(segs, count, 0), |SplitLines(segs, count, 0)|)
  {
    var b := BreakLines(g, sec, segs, count, p, 0);
    BreakLinesLast(g, sec, segs, count, p, 0);
    BreakLinesPages(g, sec, segs, count, p, 0);
    var r := AddToCurrent(b.0, b.1);
    LaidOutStep(g.pages, g.current, b.0.pages, r.pages, r.current, p, |g.paras|,
                Breaks(segs, count, 0), |SplitLines(segs, count, 0)|);
  }

  /** `b` lists the paragraphs of `a` first, then possibly more. */
  predicate Extends(a: seq<nat>, b: seq<nat>)
  {
    |a| <= |b| && b[..|a|] == a
  }

  /** Pages `b` grew from pages `a`, with `cur` being filled, by adding
      paragraphs at the end of pages and by opening pages: a page that was
      not being filled keeps its paragraphs, every page opened holds at
      least one paragraph, and every paragraph added whose arena index is
      below `q0` is one of `ps` (the others are continuations made on the
      way). */
  predicate FillsFrom(a: seq<Page>, cur: Option<nat>, b: seq<Page>, q0: nat, ps: seq<nat>)
  {
    && |a| <= |b|
    && (forall k :: 0 <= k < |a| ==> Extends(a[k].paragraphs, b[k].paragraphs))
    && (forall k :: 0 <= k < |a| && cur != Some(k) ==> b[k] == a[k])
    && (forall k :: |a| <= k < |b| ==> |b[k].paragraphs| > 0)
    && (forall k, j :: 0 <= k < |b| && 0 <= j < |b[k].paragraphs|
                       && (k >= |a| || j >= |a[k].paragraphs|) && b[k].paragraphs[j] < q0 ==>
          b[k].paragraphs[j] in ps)
  }

  /** One step of `SectionPass`: laying out paragraph `p` and then the rest
      of the section fills the pages from the paragraphs `[p] + ps`. */
  lemma FillsFromStep(a: seq<Page>, cur: Option<nat>, a1: seq<Page>, cur1: Option<nat>, b: seq<Page>,
                      p: nat, q0: nat, q1: nat, B: nat, S: nat, ps: seq<nat>)
    requires p < q0 <= q1
    requires cur.Some? ==> cur.value < |a|
    requires LaidOut(a, cur, a1, cur1, p, q0, B, S)
    requires FillsFrom(a1, cur1, b, q1, ps)
    ensures FillsFrom(a, cur, b, q0, [p] + ps)
  {
    assert forall s :: Piece(p, q0, s) == p || Piece(p, q0, s) >= q0;
    forall k | 0 <= k < |a|
      ensures Extends(a[k].paragraphs, b[k].paragraphs)
      ensures cur != Some(k) ==> b[k] == a[k]
      ensures forall j :: |a[k].paragraphs| <= j < |a1[k].paragraphs| ==> a1[k].paragraphs[j] == p
    {
      assert a1[k] == a[k] || a1[k] == AddParagraph(Some(a[k]), p).value;
      assert b[k].paragraphs[..|a[k].paragraphs|] == a1[k].paragraphs[..|a[k].paragraphs|];
      if cur != Some(k) {
        assert a1[k] == a[k] && cur1 != Some(k);
      }
    }
    forall k | |a| <= k < |a1|
      ensures a1[k].paragraphs == [Piece(p, q0, S - B + 1 + (k - |a|))]
    {
    }
    forall k, j | 0 <= k < |b| && 0 <= j < |b[k].paragraphs|
                  && (k >= |a| || j >= |a[k].paragraphs|) && b[k].paragraphs[j] < q0
      ensures b[k].paragraphs[j] in [p] + ps
    {
      if k < |a1| && j < |a1[k].paragraphs| {
        assert b[k].paragraphs[j] == a1[k].paragraphs[j];
      }
    }
  }

  /** The paragraphs `ps[i..]` of section `sec`, each laid out in turn. */
  function SectionPass(d: Doc, g: Pager, sec: nat, ps: seq<nat>, i: nat): (r: Pager)
    requires PagerValid(g) && |d.paragraphs| <= |g.paras|
    requires forall j :: 0 <= j < |ps| ==> ps[j] < |d.paragraphs|
    requires i <= |ps|
    decreases |ps| - i
    ensures PagerValid(r) && KeepsLines(g.paras, r.paras)
    ensures |r.pages| == |g.pages| + SectionBreaks(d, ps, i)
    ensures forall k :: 0 <= k < |g.pages| ==> r.pages[k].section == g.pages[k].section
    ensures forall k :: |g.pages| <= k < |r.pages| ==> r.pages[k].section == Some(sec)
    ensures SectionBreaks(d, ps, i) == 0 ==> r.current == g.current
    ensures SectionBreaks(d, ps, i) > 0 ==> r.current == Some(|r.pages| - 1)
  {
    if i == |ps| then g
    else
      var para := d.paragraphs[ps[i]];
      var g1 := LayOut(g, sec, para.lineSegs, para.header.nLineSegs, ps[i]);
      var r := SectionPass(d, g1, sec, ps, i + 1);
      r
  }

  /** `SectionPass` lays out `ps[i]` and goes on with the rest. */
  lemma SectionPassUnfold(d: Doc, g: Pager, sec: nat, ps: seq<nat>, i: nat)
    requires PagerValid(g) && |d.paragraphs| <= |g.paras|
    requires forall j :: 0 <= j < |ps| ==> ps[j] < |d.paragraphs|
    requires i < |ps|
    ensures SectionPass(d, g, sec, ps, i)
            == SectionPass(d, LayOut(g, sec, d.paragraphs[ps[i]].lineSegs, d.paragraphs[ps[i]].header.nLineSegs, ps[i]),
                           sec, ps, i + 1)
  {
  }

  /** One paragraph of `SectionPassFills`. */
  lemma SectionPassFillsStep(d: Doc, g: Pager, g1: Pager, r: Pager, sec: nat, ps: seq<nat>, i: nat)
    requires PagerValid(g) && |d.paragraphs| <= |g.paras|
    requires forall j :: 0 <= j < |ps| ==> ps[j] < |d.paragraphs|
    requires i < |ps|
    requires g1 == LayOut(g, sec, d.paragraphs[ps[i]].lineSegs, d.paragraphs[ps[i]].header.nLineSegs, ps[i])
    requires LaidOut(g.pages, g.current, g1.pages, g1.current, ps[i], |g.paras|,
                     Breaks(d.paragraphs[ps[i]].lineSegs, d.paragraphs[ps[i]].header.nLineSegs, 0),
                     |SplitLines(d.paragraphs[ps[i]].lineSegs, d.paragraphs[ps[i]].header.nLineSegs, 0)|)
    requires FillsFrom(g1.pages, g1.current, r.pages, |g1.paras|, ps[i + 1..])
    ensures FillsFrom(g.pages, g.current, r.pages, |g.paras|, ps[i..])
  {
    var para := d.paragraphs[ps[i]];
    FillsFromStep(g.pages, g.current, g1.pages, g1.current, r.pages, ps[i], |g.paras|, |g1.paras|,
                  Breaks(para.lineSegs, para.header.nLineSegs, 0), |SplitLines(para.lineSegs, para.header.nLineSegs, 0)|,
                  ps[i + 1..]);
    assert [ps[i]] + ps[i + 1..] == ps[i..];
  }

  /** The pass over `ps[i..]` fills the pages from those paragraphs only:
      it adds paragraphs at the end of the page being filled and opens
      pages, each of which ends up holding at least one paragraph. */
  lemma {:induction false} SectionPassFills(d: Doc, g: Pager, sec: nat, ps: seq<nat>, i: nat)
    requires PagerValid(g) && |d.paragraphs| <= |g.paras|
    requires forall j :: 0 <= j < |ps| ==> ps[j] < |d.paragraphs|
    requires i <= |ps|
    decreases |ps| - i
    ensures FillsFrom(g.pages, g.current, SectionPass(d, g, sec, ps, i).pages, |g.paras|, ps[i..])
  {
    if i < |ps| {
      var para := d.paragraphs[ps[i]];
      var g1 := LayOut(g, sec, para.lineSegs, para.header.nLineSegs, ps[i]);
      LayOutPlaces(g, sec, para.lineSegs, para.header.nLineSegs, ps[i]);
      SectionPassFills(d, g1, sec, ps, i + 1);
      SectionPassFillsStep(d, g, g1, SectionPass(d, g1, sec, ps, i + 1), sec, ps, i);
      SectionPassUnfold(d, g, sec, ps, i);
    } else {
      assert forall k :: 0 <= k < |g.pages| ==> g.pages[k].paragraphs[..|g.pages[k].paragraphs|] == g.pages[k].paragraphs;
    }
  }

  /** Number of page-starting lines of the paragraphs `ps[i..]`. */
  function SectionBreaks(d: Doc, ps: seq<nat>, i: nat): nat
    requires forall j :: 0 <= j < |ps| ==> ps[j] < |d.paragraphs|
    requires i <= |ps|
    decreases |ps| - i
  {
    if i == |ps| then 0
    else
      var para := d.paragraphs[ps[i]];
      Breaks(para.lineSegs, para.header.nLineSegs, 0) + SectionBreaks(d, ps, i + 1)
  }

  /** Number of page-starting lines of the sections from `k` on. */
  function DocBreaks(d: Doc, k: nat): nat
    requires SectionsValid(d) && k <= |d.sections|
    decreases |d.sections| - k
  {
    if k == |d.sections| then 0
    else SectionBreaks(d, d.sections[k].paragraphs, 0) + DocBreaks(d, k + 1)
  }

  /** Appending the pages of section `k` keeps the pages in section order. */
  lemma SectionOrderStep(a: seq<Page>, b: seq<Page>, k: nat)
    requires |a| <= |b|
    requires forall i :: 0 <= i < |a| ==> b[i].section == a[i].section
    requires forall i :: |a| <= i < |b| ==> b[i].section == Some(k)
    ensures SectionsBelow(a, k) ==> SectionsBelow(b, k + 1)
    ensures SectionsBelow(a, k) && InSectionOrder(a) ==> InSectionOrder(b)
  {
    if SectionsBelow(a, k) && InSectionOrder(a) {
      forall i, j | 0 <= i < j < |b| && b[i].section.Some? && b[j].section.Some?
        ensures b[i].section.value <= b[j].section.value
      {
        if j < |a| {
          assert b[i].section == a[i].section;
        }
      }
    }
  }

  /** The sections from `k` on, each starting with no page open. */
  function Sections(d: Doc, g: Pager, k: nat): (r: Pager)
    requires SectionsValid(d) && k <= |d.sections|
    requires PagerValid(g) && |d.paragraphs| <= |g.paras|
    decreases |d.sections| - k
    ensures PagerValid(r) && KeepsLines(g.paras, r.paras)
    ensures |r.pages| == |g.pages| + DocBreaks(d, k)
    ensures forall i :: 0 <= i < |g.pages| ==> r.pages[i].section == g.pages[i].section
    ensures forall i :: |g.pages| <= i < |r.pages| ==> r.pages[i].section.Some? && k <= r.pages[i].section.value < |d.sections|
    ensures SectionsBelow(g.pages, k) && InSectionOrder(g.pages) ==> InSectionOrder(r.pages)
  {
    if k == |d.sections| then g
    else
      var ps := d.sections[k].paragraphs;
      var g1 := SectionPass(d, g.(current := None), k, ps, 0);
      var r := Sections(d, g1, k + 1);
      SectionOrderStep(g.pages, g1.pages, k);
      r
  }

  /** Pages `b` are pages `a` followed by pages of the sections of `d`,
      each holding at least one paragraph, and every paragraph on them whose
      arena index is below `q0` is one of its own section's paragraphs (the
      others are continuations made by the pass). */
  predicate FromSections(d: Doc, a: seq<Page>, b: seq<Page>, q0: nat)
  {
    && |a| <= |b| && b[..|a|] == a
    && (forall i :: |a| <= i < |b| ==> |b[i].paragraphs| > 0)
    && (forall i, j :: |a| <= i < |b| && 0 <= j < |b[i].paragraphs| && b[i].paragraphs[j] < q0 ==>
          && b[i].section.Some? && b[i].section.value < |d.sections|
          && b[i].paragraphs[j] in d.sections[b[i].section.value].paragraphs)
  }

  /** One section of `SectionsFill`: the pass over section `k`, started with
      no page open, leaves the pages before it alone. */
  lemma FromSectionsStep(d: Doc, a: seq<Page>, a1: seq<Page>, b: seq<Page>, q0: nat, q1: nat, k: nat)
    requires k < |d.sections| && q0 <= q1
    requires FillsFrom(a, None, a1, q0, d.sections[k].paragraphs)
    requires forall i :: |a| <= i < |a1| ==> a1[i].section == Some(k)
    requires FromSections(d, a1, b, q1)
    ensures FromSections(d, a, b, q0)
  {
    assert a1[..|a|] == a;
    forall i, j | |a| <= i < |b| && 0 <= j < |b[i].paragraphs| && b[i].paragraphs[j] < q0
      ensures b[i].section.Some? && b[i].section.value < |d.sections|
      ensures b[i].paragraphs[j] in d.sections[b[i].section.value].paragraphs
    {
      if i < |a1| {
        assert b[i] == a1[i];
      }
    }
    forall i | |a| <= i < |b| ensures |b[i].paragraphs| > 0
    {
      if i < |a1| {
        assert b[i] == a1[i];
      }
    }
  }

  /** Each section starts with no page open: the pages already made are
      left as they were, and a page of section k only receives paragraphs
      of section k. Every page made holds at least one paragraph. */
  lemma {:induction false} SectionsFill(d: Doc, g: Pager, k: nat)
    requires SectionsValid(d) && k <= |d.sections|
    requires PagerValid(g) && |d.paragraphs| <= |g.paras|
    decreases |d.sections| - k
    ensures FromSections(d, g.pages, Sections(d, g, k).pages, |g.paras|)
  {
    if k < |d.sections| {
      var ps := d.sections[k].paragraphs;
      var g0 := g.(current := None);
      var g1 := SectionPass(d, g0, k, ps, 0);
      SectionPassFills(d, g0, k, ps, 0);
      assert ps[0..] == ps;
      SectionsFill(d, g1, k + 1);
      SectionsUnfold(d, g, k);
      FromSectionsStep(d, g.pages, g1.pages, Sections(d, g1, k + 1).pages, |g.paras|, |g1.paras|, k);
    } else {
      assert g.pages[..|g.pages|] == g.pages;
    }
  }

  /** `Sections` lays out section `k` with no page open and goes on. */
  lemma SectionsUnfold(d: Doc, g: Pager, k: nat)
    requires SectionsValid(d) && k < |d.sections|
    requires PagerValid(g) && |d.paragraphs| <= |g.paras|
    ensures Sections(d, g, k) == Sections(d, SectionPass(d, g.(current := None), k, d.sections[k].paragraphs, 0), k + 1)
  {
  }

  /** The page pass over a parsed document. */
  function CreatePages(d: Doc): (r: Pager)
    requires DocValid(d)
    ensures PagerValid(r) && KeepsLines(d.paragraphs, r.paras)
    ensures |r.pages| == DocBreaks(d, 0)
    ensures SectionsBelow(r.pages, |d.sections|)
    ensures InSectionOrder(r.pages)
    ensures forall i :: 0 <= i < |r.pages| ==> |r.pages[i].paragraphs| > 0
    ensures forall i, j :: 0 <= i < |r.pages| && 0 <= j < |r.pages[i].paragraphs| && r.pages[i].paragraphs[j] < |d.paragraphs| ==>
              r.pages[i].paragraphs[j] in d.sections[r.pages[i].section.value].paragraphs
  {
    SectionsFill(d, Pager([], d.paragraphs, None), 0);
    Sections(d, Pager([], d.paragraphs, None), 0)
  }

  /** `_ghwp_file_v5_parse_body_text` as a whole: the section streams are
      parsed into a document, then laid out on pages. Every page lists
      existing paragraphs, belongs to one of the sections, one per stream,
      and the pages come in section order, one for each page-starting line. */
  function BodyTextPages(v: Version, text: seq<byte> -> string, streams: seq<seq<Record>>): (r: Pager)
    ensures DocValid(ParseBodyText(v, text, streams))
    ensures PagerValid(r)
    ensures KeepsLines(ParseBodyText(v, text, streams).paragraphs, r.paras)
    ensures |r.pages| == DocBreaks(ParseBodyText(v, text, streams), 0)
    ensures SectionsBelow(r.pages, |streams|)
    ensures InSectionOrder(r.pages)
    ensures forall i :: 0 <= i < |r.pages| ==> |r.pages[i].paragraphs| > 0
    ensures forall i, j :: 0 <= i < |r.pages| && 0 <= j < |r.pages[i].paragraphs|
                           && r.pages[i].paragraphs[j] < |ParseBodyText(v, text, streams).paragraphs| ==>
              r.pages[i].paragraphs[j] in ParseBodyText(v, text, streams).sections[r.pages[i].section.value].paragraphs
  {
    BodyTextValid(v, text, streams);
    CreatePages(ParseBodyText(v, text, streams))
  }
}

=== FILE: record.dfy ===
/**
 The record context: a record is a tag, a nesting level and a payload, and
 the typed readers consume little-endian fields from the front of the
 payload. The context's own implementation (header unpacking, the stream
 reader) is not part of this model; what the decoders rely on is captured
 here:

 - each `ReadX` is one `context_read_x`: it returns the value and the rest
   of the payload;
 - each `PutX` prepends the bytes of a value to a tail, and its contract is
   the round trip `ReadX(PutX(x, t)) == (x, t)`, so every record decoder
   built from these readers gets its own round trip by chaining them.

 A reader that finds too few bytes yields 0 and consumes nothing. This is
 a choice of the model, so that a record never aborts half way: the
 original's readers are not part of it, and a failed read there leaves
 its target as it was, which need not be 0.
 */
module Record {
  import opened Bytes

  datatype Record = Record(tag: nat, level: nat, payload: seq<byte>)

  /** The four version bytes of the file header. */
  datatype Version = Version(major: u8, minor: u8, micro: u8, extra: u8)

  /** `context_check_version(major, minor, micro, extra)`: the stored version
      is at least the given one, compared component by component, major first. */
  predicate AtLeast(v: Version, major: u8, minor: u8, micro: u8, extra: u8)
  {
    || v.major > major
    || (v.major == major && v.minor > minor)
    || (v.major == major && v.minor == minor && v.micro > micro)
    || (v.major == major && v.minor == minor && v.micro == micro && v.extra >= extra)
  }

  /** The version packed into one number, major in the top byte. */
  function Rank(major: u8, minor: u8, micro: u8, extra: u8): nat
  {
    ((major * 0x100 + minor) * 0x100 + micro) * 0x100 + extra
  }

  lemma DigitOrder(x1: nat, d1: u8, x2: nat, d2: u8)
    ensures x1 * 0x100 + d1 >= x2 * 0x100 + d2 <==> x1 > x2 || (x1 == x2 && d1 >= d2)
  {
    if x1 > x2 {
      assert x1 * 0x100 >= x2 * 0x100 + 0x100;
    } else if x1 < x2 {
      assert x2 * 0x100 >= x1 * 0x100 + 0x100;
    }
  }

  /** The version gate is the numeric order of the packed versions, so it is a
      total order: every stored version passes or fails each gate. */
  lemma {:induction false} AtLeastIsRankOrder(v: Version, major: u8, minor: u8, micro: u8, extra: u8)
    ensures AtLeast(v, major, minor, micro, extra)
            <==> Rank(v.major, v.minor, v.micro, v.extra) >= Rank(major, minor, micro, extra)
  {
    DigitOrder(v.major, v.minor, major, minor);
    DigitOrder(v.major * 0x100 + v.minor, v.micro, major * 0x100 + minor, micro);
    DigitOrder((v.major * 0x100 + v.minor) * 0x100 + v.micro, v.extra,
               (major * 0x100 + minor) * 0x100 + micro, extra);
  }

  /** A later gate implies every earlier one. */
  lemma {:induction false} AtLeastMonotone(v: Version, a: Version, b: Version)
    requires AtLeast(v, a.major, a.minor, a.micro, a.extra)
    requires Rank(a.major, a.minor, a.micro, a.extra) >= Rank(b.major, b.minor, b.micro, b.extra)
    ensures AtLeast(v, b.major, b.minor, b.micro, b.extra)
  {
    AtLeastIsRankOrder(v, a.major, a.minor, a.micro, a.extra);
    AtLeastIsRankOrder(v, b.major, b.minor, b.micro, b.extra);
  }

  /** `t` is what is left of `s` after a read of `n` bytes; a short payload is
      left as it is. */
  predicate Took(s: seq<byte>, t: seq<byte>, n: nat)
  {
    if |s| >= n then t == s[n..] else t == s
  }

  /** `context_read_uint8` */
  function ReadU8(s: seq<byte>): (r: (u8, seq<byte>))
    ensures Took(s, r.1, 1)
  {
    if |s| >= 1 then (s[0], s[1..]) else (0, s)
  }

  /** `context_read_uint16` */
  function ReadU16(s: seq<byte>): (r: (u16, seq<byte>))
    ensures Took(s, r.1, 2)
  {
    if |s| >= 2 then (Le16(s), s[2..]) else (0, s)
  }

  /** `context_read_uint32`; also `context_read_hwp_unit` and
      `context_read_hwp_color`, whose values are 32-bit unsigned words. */
  function ReadU32(s: seq<byte>): (r: (u32, seq<byte>))
    ensures Took(s, r.1, 4)
  {
    if |s| >= 4 then (Le32(s), s[4..]) else (0, s)
  }

  /** `context_read_int8` */
  function ReadI8(s: seq<byte>): (r: (i8, seq<byte>))
    ensures Took(s, r.1, 1)
  {
    var u := ReadU8(s);
    (Signed8(u.0), u.1)
  }

  /** `context_read_int16`; also `context_read_hwp_unit16`, a signed 16-bit unit. */
  function ReadI16(s: seq<byte>): (r: (i16, seq<byte>))
    ensures Took(s, r.1, 2)
  {
    var u := ReadU16(s);
    (Signed16(u.0), u.1)
  }

  /** `context_read_int32` */
  function ReadI32(s: seq<byte>): (r: (i32, seq<byte>))
    ensures Took(s, r.1, 4)
  {
    var u := ReadU32(s);
    (Signed32(u.0), u.1)
  }

  /** `n` consecutive `context_read_uint16` calls, as the loops over row sizes,
      zones, column widths and description characters make them. */
  function ReadU16s(n: nat, s: seq<byte>): (r: (seq<u16>, seq<byte>))
    ensures |r.0| == n
    ensures |s| >= 2 * n ==> r.1 == s[2 * n..]
  {
    if n == 0 then ([], s)
    else
      var x := ReadU16(s);
      var xs := ReadU16s(n - 1, x.1);
      ([x.0] + xs.0, xs.1)
  }

  /** `n` consecutive `context_read_uint8` calls. */
  function ReadU8s(n: nat, s: seq<byte>): (r: (seq<u8>, seq<byte>))
    ensures |r.0| == n
    ensures |s| >= n ==> r.1 == s[n..]
  {
    if n == 0 then ([], s)
    else
      var x := ReadU8(s);
      var xs := ReadU8s(n - 1, x.1);
      ([x.0] + xs.0, xs.1)
  }

  /** `n` consecutive `context_read_uint32` calls. */
  function ReadU32s(n: nat, s: seq<byte>): (r: (seq<u32>, seq<byte>))
    ensures |r.0| == n
    ensures |s| >= 4 * n ==> r.1 == s[4 * n..]
  {
    if n == 0 then ([], s)
    else
      var x := ReadU32(s);
      var xs := ReadU32s(n - 1, x.1);
      ([x.0] + xs.0, xs.1)
  }

  /** `context_read_string`: a u16 count followed by that many UTF-16 code
      units. The conversion to UTF-8 is not modelled; the code units are kept. */
  function ReadStr(s: seq<byte>): (r: (seq<u16>, seq<byte>))
    ensures |r.0| < 0x1_0000
  {
    var n := ReadU16(s);
    ReadU16s(n.0, n.1)
  }

  function PutU8(x: u8, t: seq<byte>): (r: seq<byte>)
    ensures ReadU8(r) == (x, t)
    ensures |r| == |t| + 1
  {
    [x] + t
  }

  function PutU16(x: u16, t: seq<byte>): (r: seq<byte>)
    ensures ReadU16(r) == (x, t)
    ensures |r| == |t| + 2
  {
    var r := Enc16(x) + t;
    assert r[2..] == t;
    Le16Enc16(x);
    assert Le16(r) == Le16(Enc16(x));
    r
  }

  function PutU32(x: u32, t: seq<byte>): (r: seq<byte>)
    ensures ReadU32(r) == (x, t)
    ensures |r| == |t| + 4
  {
    var e := Enc32(x);
    var r := e + t;
    assert r[4..] == t;
    assert r[0..2] == e[0..2] && r[2..4] == e[2..4];
    Le32Enc32(x);
    assert Le32(r) == Le32(e);
    r
  }

  function PutI8(x: i8, t: seq<byte>): (r: seq<byte>)
    ensures ReadI8(r) == (x, t)
    ensures |r| == |t| + 1
  {
    Signed8Mod(x);
    PutU8(x % 0x100, t)
  }

  function PutI16(x: i16, t: seq<byte>): (r: seq<byte>)
    ensures ReadI16(r) == (x, t)
    ensures |r| == |t| + 2
  {
    Signed16Mod(x);
    PutU16(x % 0x1_0000, t)
  }

  function PutI32(x: i32, t: seq<byte>): (r: seq<byte>)
    ensures ReadI32(r) == (x, t)
    ensures |r| == |t| + 4
  {
    Signed32Mod(x);
    PutU32(x % 0x1_0000_0000, t)
  }

  function PutU16s(xs: seq<u16>, t: seq<byte>): (r: seq<byte>)
    ensures ReadU16s(|xs|, r) == (xs, t)
    ensures |r| == |t| + 2 * |xs|
  {
    if |xs| == 0 then t
    else
      var r := PutU16(xs[0], PutU16s(xs[1..], t));
      assert [xs[0]] + xs[1..] == xs;
      r
  }

  function PutU8s(xs: seq<u8>, t: seq<byte>): (r: seq<byte>)
    ensures ReadU8s(|xs|, r) == (xs, t)
    ensures |r| == |t| + |xs|
  {
    if |xs| == 0 then t
    else
      var r := PutU8(xs[0], PutU8s(xs[1..], t));
      assert [xs[0]] + xs[1..] == xs;
      r
  }

  function PutU32s(xs: seq<u32>, t: seq<byte>): (r: seq<byte>)
    ensures ReadU32s(|xs|, r) == (xs, t)
    ensures |r| == |t| + 4 * |xs|
  {
    if |xs| == 0 then t
    else
      var r := PutU32(xs[0], PutU32s(xs[1..], t));
      assert [xs[0]] + xs[1..] == xs;
      r
  }

  function PutStr(xs: seq<u16>, t: seq<byte>): (r: seq<byte>)
    requires |xs| < 0x1_0000
    ensures ReadStr(r) == (xs, t)
  {
    PutU16(|xs|, PutU16s(xs, t))
  }
}

=== FILE: section.dfy ===
/**
 A section of the body text (ghwp-section.c/h): its definition, its page
 definition and its column definition, each decoded from a record of its
 own, and the top-level paragraphs of the section by arena index.

 The section struct in ghwp-section.h declares only the three definitions;
 the body-text pass also keeps the section's paragraph list
 (`ghwp_section_add_paragraph`, whose definition is not part of this
 model), which is modelled as an append.
 */
module Section {
  import opened Wrappers
  import opened Bytes
  import opened Record

  datatype SectionDef = SectionDef(
    attr: u32,
    colSpacing: i16,
    vAlign: i16,
    hAlign: i16,
    defaultTabSize: u32,
    numParaShapeId: u16,
    pageNum: u16,
    imageNum: u16,
    tableNum: u16,
    mathNum: u16,
    lang: u16)

  /** `ghwp_parse_section_def`: attr, three 16-bit units, a 32-bit unit and
      six u16 counters, 26 bytes in all. It cannot fail. */
  function DecodeSectionDef(s: seq<byte>): (r: (SectionDef, seq<byte>))
    ensures |s| >= 26 ==> |r.1| == |s| - 26
  {
    var attr := ReadU32(s);
    var colSpacing := ReadI16(attr.1);
    var vAlign := ReadI16(colSpacing.1);
    var hAlign := ReadI16(vAlign.1);
    var defaultTabSize := ReadU32(hAlign.1);
    var numParaShapeId := ReadU16(defaultTabSize.1);
    var pageNum := ReadU16(numParaShapeId.1);
    var imageNum := ReadU16(pageNum.1);
    var tableNum := ReadU16(imageNum.1);
    var mathNum := ReadU16(tableNum.1);
    var lang := ReadU16(mathNum.1);
    (SectionDef(attr.0, colSpacing.0, vAlign.0, hAlign.0, defaultTabSize.0, numParaShapeId.0,
                pageNum.0, imageNum.0, tableNum.0, mathNum.0, lang.0),
     lang.1)
  }

  function PutSectionDef(d: SectionDef, t: seq<byte>): (r: seq<byte>)
    ensures DecodeSectionDef(r) == (d, t)
    ensures |r| == |t| + 26
  {
    PutU32(d.attr, PutI16(d.colSpacing, PutI16(d.vAlign, PutI16(d.hAlign,
    PutU32(d.defaultTabSize, PutU16(d.numParaShapeId, PutU16(d.pageNum,
    PutU16(d.imageNum, PutU16(d.tableNum, PutU16(d.mathNum, PutU16(d.lang, t)))))))))))
  }

  /** Paper size, the six margins and the binding margin, then the attribute. */
  datatype PageDef = PageDef(
    hSize: u32,
    vSize: u32,
    lMargin: u32,
    rMargin: u32,
    tMargin: u32,
    bMargin: u32,
    header: u32,
    footer: u32,
    binding: u32,
    attr: u32)

  /** `ghwp_parse_page_def`: nine 32-bit units and a u32 attribute, 40 bytes.
      It cannot fail. */
  function DecodePageDef(s: seq<byte>): (r: (PageDef, seq<byte>))
    ensures |s| >= 40 ==> |r.1| == |s| - 40
  {
    var hSize := ReadU32(s);
    var vSize := ReadU32(hSize.1);
    var lMargin := ReadU32(vSize.1);
    var rMargin := ReadU32(lMargin.1);
    var tMargin := ReadU32(rMargin.1);
    var bMargin := ReadU32(tMargin.1);
    var header := ReadU32(bMargin.1);
    var footer := ReadU32(header.1);
    var binding := ReadU32(footer.1);
    var attr := ReadU32(binding.1);
    (PageDef(hSize.0, vSize.0, lMargin.0, rMargin.0, tMargin.0, bMargin.0,
             header.0, footer.0, binding.0, attr.0),
     attr.1)
  }

  function PutPageDef(d: PageDef, t: seq<byte>): (r: seq<byte>)
    ensures DecodePageDef(r) == (d, t)
    ensures |r| == |t| + 40
  {
    PutU32(d.hSize, PutU32(d.vSize, PutU32(d.lMargin, PutU32(d.rMargin, PutU32(d.tMargin,
    PutU32(d.bMargin, PutU32(d.header, PutU32(d.footer, PutU32(d.binding, PutU32(d.attr, t))))))))))
  }

  /** `COL_ATTR_SAME_WIDTH`: the bit of the column attribute that announces
      the list of column widths. */
  const ColAttrSameWidth := 12

  /** A column definition. `spacing` is never read, so it keeps the zero a
      new section starts with; `colWidths` is null unless the widths are
      listed. */
  datatype ColumnDef = ColumnDef(
    attr: u32,
    spacing: i16,
    nCols: nat,
    borderKind: u8,
    borderWeight: u8,
    borderColor: u32,
    colWidths: Option<seq<u16>>)

  /** The shape `ghwp_parse_column_def` gives a column definition: the column
      count is bits 2..9 of the attribute, widths are listed, one per column,
      exactly when bit 12 is set, and the spacing is zero. */
  predicate ColumnShaped(c: ColumnDef)
  {
    && c.nCols == Bits(c.attr, 2, 8)
    && (c.colWidths.Some? <==> Bit(c.attr, ColAttrSameWidth))
    && (c.colWidths.Some? ==> |c.colWidths.value| == c.nCols)
    && c.spacing == 0
  }

  /** The attribute word built from two u16 halves: the second is or-ed into
      bits 16..31, so the first keeps the low half. */
  function Join16(lo: u16, hi: u16): (r: u32)
    ensures r % 0x1_0000 == lo && r / 0x1_0000 == hi
  {
    lo + 0x1_0000 * hi
  }

  /** Bits 2..13 of a 32-bit word are those of its low 16-bit half. */
  lemma {:induction false} LowBitsOfJoin(lo: u16, hi: u16)
    ensures Bits(Join16(lo, hi), 2, 8) == Bits(lo, 2, 8)
    ensures Bit(Join16(lo, hi), ColAttrSameWidth) <==> Bit(lo, ColAttrSameWidth)
  {
    assert Pow2(1) == 2 && Pow2(2) == 4 && Pow2(8) == 0x100;
    assert Pow2(4) == 0x10 && Pow2(12) == 0x1000;
    var w := Join16(lo, hi);
    assert w / 4 == lo / 4 + 0x4000 * hi;
    assert (lo / 4 + 0x4000 * hi) % 0x100 == (lo / 4) % 0x100 by {
      assert 0x4000 * hi == 0x100 * (0x40 * hi);
    }
    assert w / 0x1000 == lo / 0x1000 + 0x10 * hi;
    assert (lo / 0x1000 + 0x10 * hi) % 2 == (lo / 0x1000) % 2 by {
      assert 0x10 * hi == 2 * (8 * hi);
    }
  }

  /** `ghwp_parse_column_def`: the first u16 is the attribute and gives the
      column count; the widths follow when bit 12 is set; the second u16
      becomes the attribute's high half; border kind, weight and colour end
      the record. It cannot fail. */
  function DecodeColumnDef(s: seq<byte>): (r: (ColumnDef, seq<byte>))
    ensures ColumnShaped(r.0)
    ensures r.0.attr % 0x1_0000 == ReadU16(s).0
    ensures r.0.nCols <= 255
  {
    var first := ReadU16(s);
    var nCols := Bits(first.0, 2, 8);
    var widths :=
      if Bit(first.0, ColAttrSameWidth) then
        var ws := ReadU16s(nCols, first.1);
        (Some(ws.0), ws.1)
      else (None, first.1);
    var second := ReadU16(widths.1);
    var borderKind := ReadU8(second.1);
    var borderWeight := ReadU8(borderKind.1);
    var borderColor := ReadU32(borderWeight.1);
    LowBitsOfJoin(first.0, second.0);
    assert Pow2(8) == 0x100 by { assert Pow2(2) == 4 && Pow2(4) == 0x10; }
    (ColumnDef(Join16(first.0, second.0), 0, nCols, borderKind.0, borderWeight.0, borderColor.0, widths.0),
     borderColor.1)
  }

  function PutColumnDef(c: ColumnDef, t: seq<byte>): (r: seq<byte>)
    requires ColumnShaped(c)
    ensures DecodeColumnDef(r) == (c, t)
  {
    var lo := c.attr % 0x1_0000;
    var hi := c.attr / 0x1_0000;
    assert c.attr == Join16(lo, hi);
    LowBitsOfJoin(lo, hi);
    var tail := PutU16(hi, PutU8(c.borderKind, PutU8(c.borderWeight, PutU32(c.borderColor, t))));
    PutU16(lo, if c.colWidths.Some? then PutU16s(c.colWidths.value, tail) else tail)
  }

  /** A section: its three definitions and its top-level paragraphs. */
  datatype Section = Section(def: SectionDef, page: PageDef, col: ColumnDef, paragraphs: seq<nat>)

  /** `ghwp_section_new`: everything zero, no paragraphs. */
  const NewSection :=
    Section(SectionDef(0, 0, 0, 0, 0, 0, 0, 0, 0, 0, 0),
            PageDef(0, 0, 0, 0, 0, 0, 0, 0, 0, 0),
            ColumnDef(0, 0, 0, 0, 0, 0, None),
            [])

  /** `ghwp_section_add_paragraph`: the paragraph goes at the end. */
  function AddParagraph(sec: Section, para: nat): (r: Section)
    ensures |r.paragraphs| == |sec.paragraphs| + 1
    ensures r.paragraphs[..|sec.paragraphs|] == sec.paragraphs
    ensures r.paragraphs[|sec.paragraphs|] == para
    ensures r.(paragraphs := sec.paragraphs) == sec
  {
    sec.(paragraphs := sec.paragraphs + [para])
  }
}

=== FILE: streams.dfy ===
/**
 Opening the streams of an HWP v5 file (`_ghwp_file_v5_make_stream`,
 ghwp-file-v5.c): the top-level entry names of the compound file are sorted
 by `compare_entries`, then walked in that order; each known name fills the
 file object's slot for it, and the file header is decoded as soon as its
 entry is met. Whether a stream is inflated is decided when it is opened,
 from the header's compress flag as it stands then, so the order is what
 makes the flag apply: the file header always sorts first.

 The compound-file reader is not part of this model: the bytes of an entry
 are a parameter, and a slot records the entry name that filled it and
 whether its stream is inflated.
 */
module Streams {
  import opened Wrappers
  import opened Bytes
  import opened FileHeader

  /** The names `get_order` knows, at their rank. */
  const KnownEntries: seq<string> :=
    ["FileHeader", "DocInfo", "BodyText", "ViewText", SummaryEntry, "BinData",
     "PrvText", "PrvImage", "DocOptions", "Scripts", "XMLTemplate", "DocHistory"]

  /** "\005HwpSummaryInformation": the name starts with the control character 5. */
  const SummaryEntry: string := [5 as char] + "HwpSummaryInformation"

  /** Rank of every other name. */
  const UnknownOrder := 100

  /** `get_order`: the rank of a known name, 100 for any other. */
  function GetOrder(name: string): nat
  {
    if name == "FileHeader" then 0
    else if name == "DocInfo" then 1
    else if name == "BodyText" then 2
    else if name == "ViewText" then 3
    else if name == SummaryEntry then 4
    else if name == "BinData" then 5
    else if name == "PrvText" then 6
    else if name == "PrvImage" then 7
    else if name == "DocOptions" then 8
    else if name == "Scripts" then 9
    else if name == "XMLTemplate" then 10
    else if name == "DocHistory" then 11
    else UnknownOrder
  }

  /** A name ranks at its place in the table of known names, and exactly the
      names missing from the table rank 100. */
  lemma GetOrderIsTableRank(name: string)
    ensures GetOrder(name) < |KnownEntries| ==> KnownEntries[GetOrder(name)] == name
    ensures GetOrder(name) == UnknownOrder <==> name !in KnownEntries
    ensures GetOrder(name) < |KnownEntries| || GetOrder(name) == UnknownOrder
  {
  }

  /** `compare_entries`: negative, zero or positive as the first name ranks
      before, with or after the second. */
  function CompareEntries(a: string, b: string): (r: int)
    ensures r < 0 <==> GetOrder(a) < GetOrder(b)
    ensures r == 0 <==> GetOrder(a) == GetOrder(b)
    ensures r > 0 <==> GetOrder(b) < GetOrder(a)
  {
    GetOrder(a) - GetOrder(b)
  }

  /** No element ranks after a later one. */
  predicate SortedBy<T>(s: seq<T>, key: T -> nat)
  {
    forall i, j :: 0 <= i < j < |s| ==> key(s[i]) <= key(s[j])
  }

  /** The position of the first element of `s` ranking at least `x`, or
      `|s|` if there is none. */
  function FirstAtLeast<T>(x: T, s: seq<T>, key: T -> nat): (p: nat)
    ensures p <= |s|
    ensures forall i :: 0 <= i < p ==> key(s[i]) < key(x)
    ensures p < |s| ==> key(x) <= key(s[p])
  {
    if s == [] || key(x) <= key(s[0]) then 0
    else 1 + FirstAtLeast(x, s[1..], key)
  }

  /** Putting `x` between the elements ranking below it and those ranking
      at least as high keeps a sorted sequence sorted. */
  lemma SpliceSorted<T>(x: T, s: seq<T>, key: T -> nat, p: nat)
    requires SortedBy(s, key) && p <= |s|
    requires forall i :: 0 <= i < p ==> key(s[i]) < key(x)
    requires p < |s| ==> key(x) <= key(s[p])
    ensures SortedBy(s[..p] + [x] + s[p..], key)
  {
    var r := s[..p] + [x] + s[p..];
    forall i, j | 0 <= i < j < |r|
      ensures key(r[i]) <= key(r[j])
    {
      var u := if i < p then s[i] else if i == p then x else s[i - 1];
      var w := if j < p then s[j] else if j == p then x else s[j - 1];
      assert r[i] == u && r[j] == w;
      if i < p && p < j {
        assert key(s[p]) <= key(s[j - 1]);
      } else if i == p && p < j {
        assert key(s[p]) <= key(s[j - 1]);
      } else if i > p {
        assert key(s[i - 1]) <= key(s[j - 1]);
      }
    }
  }

  /** One insertion step: `x` goes before the first element ranking at
      least as high. */
  function Insert<T(==)>(x: T, s: seq<T>, key: T -> nat): (r: seq<T>)
    requires SortedBy(s, key)
    ensures SortedBy(r, key)
    ensures multiset(r) == multiset(s) + multiset{x}
  {
    var p := FirstAtLeast(x, s, key);
    SpliceSorted(x, s, key, p);
    assert s == s[..p] + s[p..];
    s[..p] + [x] + s[p..]
  }

  /** Insertion sort by `key`: the elements reordered so that none ranks
      after a later one. Elements of equal rank keep their order. */
  function SortBy<T(==)>(s: seq<T>, key: T -> nat): (r: seq<T>)
    ensures SortedBy(r, key)
    ensures multiset(r) == multiset(s)
  {
    if s == [] then []
    else
      assert s == [s[0]] + s[1..];
      Insert(s[0], SortBy(s[1..], key), key)
  }

  /** In `compare_entries` order: no name ranks after a later one. */
  predicate Sorted(s: seq<string>)
  {
    forall i, j :: 0 <= i < j < |s| ==> CompareEntries(s[i], s[j]) <= 0
  }

  /** `g_array_sort (entries, compare_entries)`: the names reordered by
      rank. `g_array_sort` is a stable sort, and so is this one: names of
      equal rank keep their order (`SortEntriesStable`). */
  function SortEntries(s: seq<string>): (r: seq<string>)
    ensures Sorted(r)
    ensures multiset(r) == multiset(s)
  {
    SortBy(s, GetOrder)
  }

  /** The elements of `s` of rank `k`, in their order in `s`. */
  function Ranked<T>(s: seq<T>, key: T -> nat, k: nat): seq<T>
  {
    if s == [] then []
    else (if key(s[0]) == k then [s[0]] else []) + Ranked(s[1..], key, k)
  }

  lemma {:induction false} RankedConcat<T>(a: seq<T>, b: seq<T>, key: T -> nat, k: nat)
    ensures Ranked(a + b, key, k) == Ranked(a, key, k) + Ranked(b, key, k)
  {
    if a == [] {
      assert a + b == b;
    } else {
      var h := if key(a[0]) == k then [a[0]] else [];
      assert (a + b)[0] == a[0];
      assert (a + b)[1..] == a[1..] + b;
      assert Ranked(a + b, key, k) == h + Ranked(a[1..] + b, key, k);
      RankedConcat(a[1..], b, key, k);
      assert Ranked(a, key, k) == h + Ranked(a[1..], key, k);
    }
  }

  /** A sequence none of whose elements has rank `k` has nothing of that
      rank. */
  lemma {:induction false} RankedNone<T>(s: seq<T>, key: T -> nat, k: nat)
    requires forall i :: 0 <= i < |s| ==> key(s[i]) != k
    ensures Ranked(s, key, k) == []
  {
    if s != [] {
      RankedNone(s[1..], key, k);
    }
  }

  /** An element placed after elements ranking below it comes before every
      element of its own rank in `b`. */
  lemma RankedSplice<T>(a: seq<T>, x: T, b: seq<T>, key: T -> nat, k: nat)
    requires forall i :: 0 <= i < |a| ==> key(a[i]) < key(x)
    ensures Ranked(a + [x] + b, key, k) == (if key(x) == k then [x] else []) + Ranked(a + b, key, k)
  {
    RankedConcat(a + [x], b, key, k);
    RankedConcat(a, [x], key, k);
    RankedConcat(a, b, key, k);
    assert Ranked([x], key, k) == (if key(x) == k then [x] else []) by {
      assert [x][1..] == [];
    }
    if key(x) == k {
      RankedNone(a, key, k);
    }
  }

  /** Inserting `x` puts it before every element of its own rank. */
  lemma InsertRanked<T>(x: T, s: seq<T>, key: T -> nat, k: nat)
    requires SortedBy(s, key)
    ensures Ranked(Insert(x, s, key), key, k) == (if key(x) == k then [x] else []) + Ranked(s, key, k)
  {
    var p := FirstAtLeast(x, s, key);
    RankedSplice(s[..p], x, s[p..], key, k);
    assert s == s[..p] + s[p..];
  }

  /** Stability: for every rank, the sorted sequence lists the elements of
      that rank in their original order. */
  lemma {:induction false} SortByStable<T>(s: seq<T>, key: T -> nat, k: nat)
    ensures Ranked(SortBy(s, key), key, k) == Ranked(s, key, k)
  {
    if s != [] {
      SortByStable(s[1..], key, k);
      InsertRanked(s[0], SortBy(s[1..], key), key, k);
    }
  }

  /** Names of equal rank keep their relative order in the sorted entries. */
  lemma SortEntriesStable(s: seq<string>, k: nat)
    ensures Ranked(SortEntries(s), GetOrder, k) == Ranked(s, GetOrder, k)
  {
    SortByStable(s, GetOrder, k);
  }

  /** The file object's stream slots. */
  datatype Slot =
    | FileHeaderStream
    | DocInfoStream
    | SectionStreams
    | SummaryStream
    | BinDataStreams
    | PrvTextStream
    | PrvImageStream

  /** The slot an entry name fills, the names of rank 0 to 7; the other
      names are reported as not implemented and skipped. "BodyText" and
      "ViewText" both fill the section streams. */
  function SlotOf(name: string): (r: Option<Slot>)
    ensures r.Some? <==> GetOrder(name) <= 7
    ensures r == Some(FileHeaderStream) <==> GetOrder(name) == 0
    ensures r == Some(SectionStreams) <==> GetOrder(name) == 2 || GetOrder(name) == 3
  {
    match GetOrder(name)
    case 0 => Some(FileHeaderStream)
    case 1 => Some(DocInfoStream)
    case 2 => Some(SectionStreams)
    case 3 => Some(SectionStreams)
    case 4 => Some(SummaryStream)
    case 5 => Some(BinDataStreams)
    case 6 => Some(PrvTextStream)
    case 7 => Some(PrvImageStream)
    case _ => None
  }

  /** The `compress` argument each slot's stream is opened with. */
  predicate Compressible(slot: Slot)
  {
    slot == DocInfoStream || slot == SectionStreams || slot == BinDataStreams
  }

  /** An opened slot: the entry that filled it and whether its stream is
      inflated. */
  datatype Opened = Opened(entry: string, inflated: bool)

  datatype File = File(header: Header, streams: map<Slot, Opened>)

  /** The index of the last element of `s` satisfying `P`, -1 if none does. */
  function LastWhere<T>(s: seq<T>, P: T -> bool): (r: int)
    ensures -1 <= r < |s|
  {
    if s == [] then -1
    else if P(s[|s| - 1]) then |s| - 1
    else LastWhere(s[..|s| - 1], P)
  }

  /** `LastWhere` finds the last element satisfying `P`, and finds none
      exactly when no element does. */
  lemma {:induction false} LastWhereIsLast<T>(s: seq<T>, P: T -> bool)
    ensures LastWhere(s, P) >= 0 ==>
              P(s[LastWhere(s, P)]) && forall j :: LastWhere(s, P) < j < |s| ==> !P(s[j])
    ensures LastWhere(s, P) == -1 <==> forall j :: 0 <= j < |s| ==> !P(s[j])
  {
    if s != [] && !P(s[|s| - 1]) {
      var p := s[..|s| - 1];
      LastWhereIsLast(p, P);
      assert forall j :: 0 <= j < |p| ==> p[j] == s[j];
    }
  }

  /** The index of the last entry of `s` that fills `slot`, -1 if none does. */
  function LastFilling(s: seq<string>, slot: Slot): (r: int)
    ensures -1 <= r < |s|
  {
    LastWhere(s, (name: string) => SlotOf(name) == Some(slot))
  }

  /** `LastFilling` finds the last entry filling the slot, and finds none
      exactly when no entry fills it. */
  lemma LastFillingIsLast(s: seq<string>, slot: Slot)
    ensures LastFilling(s, slot) >= 0 ==>
              && SlotOf(s[LastFilling(s, slot)]) == Some(slot)
              && forall j :: LastFilling(s, slot) < j < |s| ==> SlotOf(s[j]) != Some(slot)
    ensures LastFilling(s, slot) == -1 <==> forall j :: 0 <= j < |s| ==> SlotOf(s[j]) != Some(slot)
  {
    LastWhereIsLast(s, (name: string) => SlotOf(name) == Some(slot));
  }

  /** The entry loop of `_ghwp_file_v5_make_stream` over the names `s`, in
      order, reading an entry's bytes with `read`. A slot filled twice keeps
      the later entry, and a stream is inflated when its slot is
      compressible and the header decoded so far has the compress flag. */
  function OpenAll(s: seq<string>, read: string -> seq<byte>): (r: File)
    ensures WellFormed(r.header)
    ensures forall slot :: slot in r.streams <==> LastFilling(s, slot) >= 0
    ensures forall slot :: slot in r.streams ==> r.streams[slot].entry == s[LastFilling(s, slot)]
    ensures LastFilling(s, FileHeaderStream) == -1 ==> r.header == Blank
  {
    if s == [] then File(Blank, map[])
    else
      var f := OpenAll(s[..|s| - 1], read);
      var e := s[|s| - 1];
      match SlotOf(e)
      case None => f
      case Some(slot) =>
        var header := if slot == FileHeaderStream then DecodeFileHeader(f.header, read(e)) else f.header;
        File(header, f.streams[slot := Opened(e, Compressible(slot) && header.flags[Compress])])
  }

  /** `_ghwp_file_v5_make_stream`: a compound file without entries is
      rejected; otherwise its entries are sorted and opened in that order. */
  function MakeStreams(names: seq<string>, read: string -> seq<byte>): (r: Option<File>)
    ensures r.None? <==> |names| == 0
  {
    if |names| < 1 then None
    else Some(OpenAll(SortEntries(names), read))
  }

  /** Whenever the file has a header entry, it is the first one handled. */
  lemma FileHeaderFirst(names: seq<string>)
    requires "FileHeader" in names
    ensures SortEntries(names)[0] == "FileHeader"
  {
    var s := SortEntries(names);
    assert "FileHeader" in multiset(s);
    var k :| 0 <= k < |s| && s[k] == "FileHeader";
    assert GetOrder(s[0]) <= GetOrder(s[k]);
    GetOrderIsTableRank(s[0]);
  }

  /** Opening sorted entries inflates exactly the compressible streams when
      the header read says the file is compressed: every stream other than
      the header is opened after the header has been decoded. */
  lemma {:induction false} InflateFollowsHeader(s: seq<string>, read: string -> seq<byte>)
    requires Sorted(s)
    ensures forall slot :: slot in OpenAll(s, read).streams && slot != FileHeaderStream ==>
              OpenAll(s, read).streams[slot].inflated
              == (Compressible(slot) && OpenAll(s, read).header.flags[Compress])
  {
    if s != [] {
      var p := s[..|s| - 1];
      assert forall j :: 0 <= j < |p| ==> p[j] == s[j];
      InflateFollowsHeader(p, read);
      if GetOrder(s[|s| - 1]) == 0 {
        forall slot | slot != FileHeaderStream
          ensures LastFilling(p, slot) == -1
        {
          LastFillingIsLast(p, slot);
        }
      }
    }
  }

  /** Opening a sorted list that holds "ViewText" takes the sections from
      it: no section entry ranks after it. */
  lemma {:induction false} SectionsFromViewText(s: seq<string>, read: string -> seq<byte>, k: nat)
    requires Sorted(s) && k < |s| && s[k] == "ViewText"
    ensures SectionStreams in OpenAll(s, read).streams
    ensures OpenAll(s, read).streams[SectionStreams].entry == "ViewText"
  {
    assert GetOrder(s[k]) == 3;
    LastFillingIsLast(s, SectionStreams);
    var i := LastFilling(s, SectionStreams);
    assert k <= i;
    assert GetOrder(s[k]) <= GetOrder(s[i]) by {
      if k < i {
        assert CompareEntries(s[k], s[i]) <= 0;
      }
    }
    assert GetOrder(s[i]) == 3;
    GetOrderIsTableRank(s[i]);
    assert KnownEntries[3] == "ViewText";
  }

  /** A file holding both "BodyText" and "ViewText" reads its sections from
      "ViewText", which ranks later and so replaces the other. */
  lemma ViewTextReplacesBodyText(names: seq<string>, read: string -> seq<byte>)
    requires "BodyText" in names && "ViewText" in names
    ensures MakeStreams(names, read).Some?
    ensures SectionStreams in MakeStreams(names, read).value.streams
    ensures MakeStreams(names, read).value.streams[SectionStreams].entry == "ViewText"
  {
    var s := SortEntries(names);
    assert "ViewText" in multiset(s);
    var k :| 0 <= k < |s| && s[k] == "ViewText";
    SectionsFromViewText(s, read, k);
  }
}

=== FILE: wrappers.dfy ===
/** The optional value used for the original's nullable pointers. */
module Wrappers {

  datatype Option<+T> = None | Some(value: T) {

    function GetOr(default: T): T
    {
      match this
      case Some(v) => v
      case None => default
    }
  }

  /** Success or failure of a decoding pass. */
  datatype Result<+R, +E> = Success(value: R) | Failure(error: E)
}
